=== FILE: README.md ===
# goal-forge habit tracker: statistics, scoring, radar, timer

A Dafny model of the computational core of goal-forge, a habit and focus
tracker. The model covers these parts:

- **Statistics report.** This is the `GET /api/stats` route, with:
  - the period windows (this week, month or year, and the previous one);
  - each habit's expected and completed days, completion rate and trend against the previous period;
  - the overall rate;
  - the daily completion and focus series;
  - the energy distribution by mode and by weekday;
  - the top focus activities;
  - the life-radar averages;
  - the current streaks of the first five habits.
- **Other server routes:**
  - the weekly habit score;
  - the weekly life radar (read and upsert);
  - the daily energy level;
  - the daily stoic question and answer;
  - the user settings;
  - the pomodoro statistics;
  - the habit and task lists and their creation.
- **Client-side logic of three pages:**
  - the pomodoro timer: its state machine, session log, settings form and clock display;
  - the statistics page: duration labels, trend icons, colours, bar heights and the streak cards;
  - the radar page: status editing, the save payload and the summary cards.

The database is modelled as values:

- a table is a sequence of rows in insertion order;
- a table with a unique key is a map.

Each route is a pure function from the store and the request to a
`Result` (an HTTP error with its status) or the new store and the response.
Instants are integers counting milliseconds since 1970-01-01T00:00Z. Days are
integers counting days since that date; day 0 is a Thursday, so the weekday is
`(d + 4) % 7` with Sunday as 0.

`Math.round(100 * a / b)` is computed exactly as an integer. Every contract
states the rounding as the inequality that characterises round-half-up.

Shared building blocks:

- `Tally` is the insertion-ordered `Map<key, number>` that the routes
  accumulate into.
- `Sorting` is a stable insertion sort by an integer key, with `Take` for `slice(0, n)`.
- `Records.Listing` is `findMany` with a filter and an ascending `orderBy`.

## Model

| member | source | states |
|---|---|---|
| Week.GetWeekStart | src/app/api/habits/score/route.ts:7-14 | the week start is a UTC midnight on a Monday, and the given instant lies in the seven days that follow it |
| Week.SundayWeekStart | src/app/api/habits/score/route.ts:10 | on a Sunday the week starts six days earlier, not on the next day |
| Week.SameWeekStart | src/app/api/radar/route.ts:8-15 | every instant of a week has the same week start, so all saves in one week address one radar row |
| Week.DaysInWeekSoFar | src/app/api/habits/score/route.ts:17-22 | the count is between 1 and 7: Monday is 1 and Sunday is 7, the days since the week start plus one |
| Calendar.MondayOnOrBefore | src/app/api/stats/route.ts:27-32 | the Monday of the current week is the unique Monday at most six days back |
| Calendar.SundayMapsBackSix | src/app/api/stats/route.ts:29 | the Sunday offset goes back six days |
| Calendar.FirstFollowsPreviousMonth | src/app/api/stats/route.ts:43-44 | day 0 of a month is the last day of the previous month, across a year boundary too |
| Calendar.NextDay | src/app/api/stats/route.ts:363-367 | stepping a civil date by one day is stepping its day number by one |
| StatsWindow.PeriodOf | src/app/api/stats/route.ts:18 | a missing or empty period means "week", and anything that is not "week" or "month" is a year |
| StatsWindow.WindowFor | src/app/api/stats/route.ts:26-52 | the current period starts on or before today; the previous period ends the day before it; a week starts on a Monday and its previous week is seven days; a month's previous period is the whole previous month; a year's is the whole previous year |
| StatsWindow.WeekWindow | src/app/api/stats/route.ts:26-38 | the week window starts on the Monday of today's week and the previous week is the seven days before it |
| StatsWindow.MonthWindow | src/app/api/stats/route.ts:39-44 | the month window starts on the first of the month, and the previous period covers every day of the previous month |
| StatsWindow.YearWindow | src/app/api/stats/route.ts:45-51 | the year window starts on January 1st, and the previous period covers every day of the previous year |
| StatsWindow.SundayWeek | src/app/api/stats/route.ts:28-31 | on a Sunday the statistics week started six days before |
| Schedule.IsDayScheduled | src/app/api/stats/route.ts:515-536 | a day is due exactly when its weekday is in the frequency's due set: Monday to Friday, Saturday and Sunday, the listed days, or every day for DAILY, X_PER_WEEK and unknown frequencies |
| Schedule.Visits | src/app/api/stats/route.ts:313-317 | the counting loop visits one instant per day from the start up to the end: none when the end is before the start |
| Schedule.VisitsFromMidnight | src/app/api/stats/route.ts:313-317 | from a midnight up to any instant of a later day, the loop visits every day in between, both ends included |
| Schedule.CountMatchingDays | src/app/api/stats/route.ts:310-340 | the loop counts the visited days whose weekday passes the filter |
| Schedule.WeekdaysPlusWeekends | src/app/api/stats/route.ts:310-330 | over any run of days, the weekday count plus the weekend count is the number of days |
| Schedule.AllSpecificDays | src/app/api/stats/route.ts:332-340 | listing all seven weekdays counts every day |
| Schedule.NoSpecificDays | src/app/api/stats/route.ts:332-340 | an empty day list counts nothing |
| Schedule.SevenDayWindow | src/app/api/stats/route.ts:310-330 | any seven consecutive days hold five weekdays and two weekend days |
| Schedule.DaysDiff | src/app/api/stats/route.ts:305-308 | the number of days is the absolute difference rounded up to whole days |
| Schedule.DaysDiffSymmetric | src/app/api/stats/route.ts:305-308 | the difference does not depend on the argument order, and it is zero for equal instants |
| Schedule.DaysDiffFromMidnight | src/app/api/stats/route.ts:305-308 | from a midnight to an instant, the difference counts the whole days, plus one when the instant is past midnight |
| Schedule.TargetOrOne | src/app/api/stats/route.ts:297 | the weekly target falls back to one when it is missing or zero |
| Schedule.WeeksSpanned | src/app/api/stats/route.ts:298 | the number of weeks is the day count divided by seven, rounded up, and at least one |
| Schedule.CountExpectedDays | src/app/api/stats/route.ts:278-303 | the expected count is never negative except for a negative weekly target; an X_PER_WEEK habit expects at least its target |
| Schedule.ExpectedDaysSymmetric | src/app/api/stats/route.ts:287-299 | for DAILY, X_PER_WEEK and unknown frequencies the count depends only on the distance between the two instants |
| Schedule.ExpectedCountsDueDays | src/app/api/stats/route.ts:288-295 | for weekday, weekend and specific-day habits the expected count is the number of due days the loop visits |
| Schedule.FilterAgreesWithSchedule | src/app/api/stats/route.ts:310-340 | each counting helper agrees day by day with the schedule check for the matching frequency |
| Schedule.DueDaysOfWeek | src/app/api/stats/route.ts:515-536 | from Monday, a weekday habit is due on the first five days, a weekend habit on the last two, and a specific-day habit on the listed weekdays |
| Schedule.DueDaysPerWeek | src/app/api/stats/route.ts:515-536 | a week from Monday has five weekday dues, two weekend dues, and seven for every-day frequencies |
| HabitStats.PrevExpected | src/app/api/stats/route.ts:96-102 | the previous period's expected count is the number of due days in that whole period, last day included |
| HabitStats.WholeDaysExpected | src/app/api/stats/route.ts:287-295 | counted from the first midnight to the last millisecond of the last day, the expected count is the number of due days |
| HabitStats.EveryDayDue | src/app/api/stats/route.ts:515-536 | for every-day frequencies, every day of any run is due |
| HabitStats.LoopRulesAgree | src/app/api/stats/route.ts:96-102 | for loop-counted frequencies, the count up to the previous end's midnight already includes the last day, so the code and the corrected count agree |
| HabitStats.PrevWeekAsWritten | src/app/api/stats/route.ts:86-116 | as written, a DAILY habit done every day of the previous week gets six expected days against seven completions, so its row's trend is its current rate minus 117 |
| HabitStats.PrevWeekCorrected | src/app/api/stats/route.ts:86-116 | with the whole last day counted, the same perfect week has seven expected days and the trend is the current rate minus 100 |
| HabitStats.PrevRateWithinPercent | src/app/api/stats/route.ts:104-106 | with the corrected expected count, the previous rate of an every-day habit stays within 0 to 100 |
| HabitStats.StatFor | src/app/api/stats/route.ts:69-119 | each habit's row keeps its identity fields; counts completions since the start; expects the days the schedule gives up to now; rounds the rate, which is 0 when nothing is expected; its trend is the rate minus the previous rate, whose expected count stops at the midnight of the previous period's last day |
| HabitStats.StatForCorrected | src/app/api/stats/route.ts:69-119 | the same row with the previous rate taken over the whole previous period, last day included |
| HabitStats.StatForLoopRulesAgree | src/app/api/stats/route.ts:96-116 | for WEEKDAYS, WEEKENDS and SPECIFIC_DAYS habits the row as written and the corrected row are the same |
| HabitStats.StatsByHabit | src/app/api/stats/route.ts:69-122 | the rows are one per habit, a permutation of the rows the handler computes for each habit, best rate first |
| HabitStats.OverallOf | src/app/api/stats/route.ts:124-129 | the totals are the sums of completed and expected days, and the overall rate is their rounded percentage, or 0 with nothing expected |
| HabitStats.OverallIgnoresOrder | src/app/api/stats/route.ts:122-129 | sorting the rows does not change the overall totals |
| HabitStats.NoHabitsOverall | src/app/api/stats/route.ts:124-129 | without habits every total is zero |
| HabitStats.OverallWithinPercent | src/app/api/stats/route.ts:127-129 | if no habit completed more than it expected, the overall rate is between 0 and 100 |
| WeeklyScore.CompletionsBound | src/app/api/habits/score/route.ts:59-70 | no more completions are counted than one per habit and day |
| WeeklyScore.CompletionsFull | src/app/api/habits/score/route.ts:59-70 | when every habit is done every day, the count is habits times days |
| WeeklyScore.Score | src/app/api/habits/score/route.ts:34-92 | without habits the report is all zero; otherwise the possible total is habits times days so far, the completions are this week's, and the score is their rounded percentage, within 0 to 100 |
| WeeklyScore.WednesdayExample | src/app/api/habits/score/route.ts:72-84 | four habits on a Wednesday with seven completions score 58 of 12 possible |
| WeeklyScore.PerfectWeek | src/app/api/habits/score/route.ts:72-84 | every habit done every day so far scores 100 |
| WeeklyScore.OnlyThisWeekCounts | src/app/api/habits/score/route.ts:59-70 | completions outside the current week do not change the score |
| DailySeries.ChartDays | src/app/api/stats/route.ts:362-368 | the chart has one day per day from the start to today, in order |
| DailySeries.ChartBuckets | src/app/api/stats/route.ts:362-368 | the chart seeds a zero bucket for exactly the days from the start to today, each once |
| DailySeries.DaysSpan | src/app/api/stats/route.ts:362-368 | a day is on the chart exactly when it lies between the start and today |
| DailySeries.DayItemsCount | src/app/api/stats/route.ts:370-373 | counting completions per day counts each completion in range once, on its own day |
| DailySeries.DailyCompletionData | src/app/api/stats/route.ts:342-380 | each chart day in order carries the number of completions on that day, and the counts sum to the completions in the window |
| DailySeries.BucketTotals | src/app/api/stats/route.ts:375-379 | reading the map back in insertion order gives each day its own total |
| DailySeries.FocusByDay | src/app/api/stats/route.ts:410-434 | the focus series starts with the chart days in order, and its minutes add up to the sessions' minutes; it has no extra days when every session falls in the window |
| DailySeries.FocusInWindow | src/app/api/stats/route.ts:410-434 | sessions inside the window only fall on chart days |
| DailySeries.FocusOnDay | src/app/api/stats/route.ts:424-428 | each chart day holds the minutes of the sessions completed that day |
| DailySeries.AvgMinutesPerDay | src/app/api/stats/route.ts:259-261 | the average is the total minutes over the days elapsed, at least one day, rounded to the nearest minute |
| DailySeries.Distribution | src/app/api/stats/route.ts:143-147 | each energy mode's count is the number of levels with that mode, and the counts add up to the number of levels |
| DailySeries.ModesAddUp | src/app/api/stats/route.ts:143-147 | the three mode counts add up to the number of levels |
| DailySeries.EnergyByDayOfWeek | src/app/api/stats/route.ts:392-408 | seven cells, Sunday first, each counting the levels of its weekday by mode |
| DailySeries.WeekdaysAddUp | src/app/api/stats/route.ts:392-408 | summing a mode over the weekdays gives the mode's distribution count |
| DailySeries.CellsTotal | src/app/api/stats/route.ts:392-408 | all weekday cells together count every level once |
| EnergyLevel.RequestDay | src/app/api/energy-level/route.ts:17-19 | the request addresses the midnight of the given date, or of today |
| EnergyLevel.EnergyGet | src/app/api/energy-level/route.ts:7-31 | a stored level is returned as stored, and a missing one reads as FULL |
| EnergyLevel.ParseMode | src/app/api/energy-level/route.ts:46-48 | only the three exact mode names are accepted |
| EnergyLevel.EnergyPost | src/app/api/energy-level/route.ts:34-71 | an unknown mode is a 400 that writes nothing; otherwise the day's row is set to the mode, whether it existed or not |
| EnergyLevel.PostThenGet | src/app/api/energy-level/route.ts:34-71 | after a post the same day reads back the posted mode, and every other user or day reads as before |
| EnergyLevel.PostIdempotent | src/app/api/energy-level/route.ts:53-68 | posting the same level twice leaves the store as after the first post |
| FocusActivity.KeyInjective | src/app/api/pomodoro/stats/route.ts:88-102 | the habit, task and unnamed keys never collide, so sessions group by activity |
| FocusActivity.Classify | src/app/api/pomodoro/stats/route.ts:88-102 | a session counts towards its habit when the habit is known; otherwise towards its task when the task is known; otherwise towards its task name, or "Untracked" |
| FocusActivity.UnknownHabitFallsThrough | src/app/api/pomodoro/stats/route.ts:88-96 | a habit id with no matching habit is treated as no habit |
| FocusActivity.UntrackedLabelShared | src/app/api/pomodoro/stats/route.ts:97-102 | unnamed sessions and sessions named "Untracked" land in the same bucket |
| FocusActivity.RowOf | src/app/api/pomodoro/stats/route.ts:104-116 | a row keeps its bucket's minutes and count, and its kind names the activity's kind |
| FocusActivity.RowsOf | src/app/api/pomodoro/stats/route.ts:104-122 | the rows follow the buckets one for one and keep their minute and session sums |
| FocusActivity.PeriodStart | src/app/api/pomodoro/stats/route.ts:16-34 | the window starts 7 days back for "week" or no period, 30 days back for "month", and today for anything else |
| FocusActivity.InWindow | src/app/api/pomodoro/stats/route.ts:37-44 | the query keeps exactly the focus sessions completed from the start's midnight up to now, as many times as they are stored, most recently completed first |
| FocusActivity.NewerFirstOnTie | src/app/api/pomodoro/stats/route.ts:37-122 | for two habits with one 25-minute session each, stored oldest first, the habit worked on most recently is listed first |
| Sorting.SortDescKeepsSorted | src/app/api/pomodoro/stats/route.ts:120-122 | a sequence already in descending order, ties included, is returned unchanged |
| Sorting.SortDescStable | src/app/api/pomodoro/stats/route.ts:120-122 | the sort is stable, as `Array.prototype.sort` is: for every key value, the elements with that key come out in their input order |
| FocusActivity.ItemsOf | src/app/api/pomodoro/stats/route.ts:77-117 | each session becomes its activity and minutes, and the minutes are kept in total |
| FocusActivity.Buckets | src/app/api/pomodoro/stats/route.ts:77-117 | one bucket per activity, each holding that activity's total minutes; all buckets together hold every session and every minute |
| FocusActivity.Activities | src/app/api/pomodoro/stats/route.ts:77-122 | the buckets sorted by minutes, largest first, with nothing lost |
| FocusActivity.PomodoroStats | src/app/api/pomodoro/stats/route.ts:17-129 | the totals are the window's minutes and session count, and the activity rows add up to them |
| FocusActivity.ClassifiedKnown | src/app/api/pomodoro/stats/route.ts:58-59 | a habit or task activity always names a record that was loaded |
| Radar.ParseStatus | src/app/api/radar/route.ts:78-88 | only the three exact status names are accepted |
| Radar.ParseStatusName | src/app/api/radar/route.ts:78-88 | every status name is accepted as that status |
| Radar.With | src/app/radar/page.tsx:140-143 | setting one area changes that area only |
| Radar.RadarGet | src/app/api/radar/route.ts:18-55 | this week's row is returned as stored; without one, a new all-green radar for this week |
| Radar.AllAcceptableMeans | src/app/api/radar/route.ts:78-88 | the validation loop accepts exactly when every area's value is missing or a status name |
| Radar.CreatedStatus | src/app/api/radar/route.ts:99-106 | a new row takes the posted status, or GREEN when none was posted |
| Radar.MergedStatus | src/app/api/radar/route.ts:109-115 | an update takes the posted status, or keeps the stored one when none was posted |
| Radar.Created | src/app/api/radar/route.ts:99-108 | a new row has the fresh id and the week start, the posted statuses with GREEN for the rest, and the notes when posted |
| Radar.Merged | src/app/api/radar/route.ts:109-116 | an updated row keeps its id and week, takes the posted statuses and notes, and keeps the rest |
| Radar.RadarPost | src/app/api/radar/route.ts:58-120 | an invalid status is a 400 that writes nothing; otherwise this week's row is created or merged, and no other row changes |
| Radar.SecondSaveUpdates | src/app/api/radar/route.ts:92-117 | a second save in the same week updates the first row in place and adds no row |
| Radar.StatusCounts | src/app/radar/page.tsx:180-194 | the three counts are how many areas have each status, and they add up to five; all zero before the radar loads |
| Radar.AllGreenCount | src/app/radar/page.tsx:403 | five greens means every area is green |
| Radar.CardsExclusive | src/app/radar/page.tsx:390-403 | the warning card and the all-balanced card never show together, and neither shows before loading |
| Radar.UpdateStatus | src/app/radar/page.tsx:140-143 | editing an area changes that area's status and nothing else, and does nothing before loading |
| Radar.SavePayload | src/app/radar/page.tsx:153-160 | the page posts every area's status name and the notes |
| Radar.SaveRoundTrip | src/app/radar/page.tsx:145-172 | the page's save is always accepted and stores exactly the statuses shown, with the notes as the route stores them |
| Radar.StatusNameInjective | src/app/api/radar/route.ts:78-88 | distinct statuses have distinct names |
| Records.NextOrder | src/app/api/habits/route.ts:65-74 | a new position is 0 for a user without rows, and otherwise one more than the largest position |
| Wrappers.OrNull | src/app/api/habits/route.ts:76-79 | an empty optional text field is stored as null, and a non-empty one as given; the radar notes use the same rule |
| Records.OrDefault | src/app/api/habits/route.ts:73 | an empty field takes the default, and a non-empty one is kept |
| Records.Listing | src/app/api/habits/route.ts:16-22 | the listing holds exactly the matching rows, once each, in ascending order |
| Records.AppendGreatest | src/app/api/habits/route.ts:65-81 | appending a matching row with a larger key than all matching rows puts it at the end of the listing, after the old listing |
| Records.AppendUnlisted | src/app/api/tasks/route.ts:21-38 | appending a row the filter rejects leaves the listing unchanged |
| Habits.HabitsGet | src/app/api/habits/route.ts:16-22 | exactly the user's active habits, ascending by position |
| Habits.UserOrders | src/app/api/habits/route.ts:65-68 | the aggregate sees the positions of all the user's habits, including deactivated ones |
| Habits.HabitsPost | src/app/api/habits/route.ts:28-84 | no name gives 400; an identity the user does not own gives 404; otherwise an active habit is appended with the given fields, the default emoji or nulls for empty ones, at position one past the user's largest position, deactivated habits included, or 0 for the user's first habit |
| Habits.PostThenGet | src/app/api/habits/route.ts:16-84 | a new habit appears last in its creator's list, after the habits listed before |
| Habits.PostKeepsOthers | src/app/api/habits/route.ts:16-84 | creating a habit leaves every other user's list unchanged |
| Tasks.TasksGet | src/app/api/tasks/route.ts:17-38 | exactly the user's open tasks and the tasks completed since midnight, each once; open ones first, each group by position |
| Tasks.Create | src/app/api/tasks/route.ts:56-91 | no name gives 400; an identity the user does not own gives 404; otherwise an open task is appended with the given fields, the default emoji or nulls for empty ones, at position one past the user's largest position, or 0 for the user's first task |
| Tasks.TasksPostAsWritten | src/app/api/tasks/route.ts:82 | as written, a task without an emoji gets a three-character string |
| Tasks.TasksPost | src/app/api/tasks/route.ts:44-94 | with the default emoji corrected, a task without an emoji gets the single high-voltage sign; the new task is open and sits one past the user's largest position, or at 0 |
| Tasks.DefaultEmojiMisdecoded | src/app/api/tasks/route.ts:82 | the written default is the UTF-8 bytes of the high-voltage sign read as Windows-1252 |
| Tasks.DefaultEmojiIsLightning | src/app/api/tasks/route.ts:82 | a named task posted without an emoji gets the high-voltage sign |
| Tasks.PostThenGet | src/app/api/tasks/route.ts:17-94 | a new task appears as the last open task, and today's completed tasks follow unchanged |
| Tasks.UserOrders | src/app/api/tasks/route.ts:74-77 | the aggregate sees exactly the positions of the user's tasks, or none |
| Settings.SettingsGet | src/app/api/settings/route.ts:7-32 | the stored settings, or the defaults, created on first read |
| Settings.RestDayNumbers | src/app/api/settings/route.ts:48-62 | accepted rest days are weekday numbers from 0 to 6, in the order given |
| Settings.DateValue | src/app/api/settings/route.ts:70-73 | a falsy date clears the value, and a given date is stored |
| Settings.SettingsPatchApply | src/app/api/settings/route.ts:35-89 | a present rest-day value that is not an array of 0-6 is a 400; otherwise each given field replaces the stored or default one and the others are kept |
| Settings.PatchKeepsValid | src/app/api/settings/route.ts:48-62 | an accepted patch keeps every stored rest day within 0 to 6 |
| Settings.EmptyPatchIsNoOp | src/app/api/settings/route.ts:65-76 | an empty patch returns the stored settings unchanged |
| Settings.PatchAfterGet | src/app/api/settings/route.ts:21-29 | patching before the first read creates the same settings as patching the defaults that the read creates |
| Stoic.DayOfYear | src/app/api/stoic/route.ts:14-18 | the day of the year counts from December 31st of the previous year: January 1st is 1 |
| Stoic.DailyQuestion | src/app/api/stoic/route.ts:7-20 | the question of a date is chosen by its day of the year modulo three |
| Stoic.NextDayNextQuestion | src/app/api/stoic/route.ts:14-20 | within a year, the next day asks the next question in the cycle |
| Stoic.YearTurn | src/app/api/stoic/route.ts:14-20 | after a common year the cycle restarts: December 31st asks the third question and January 1st the second |
| Stoic.StoicGet | src/app/api/stoic/route.ts:23-50 | today's stored entry, if any, and today's question |
| Stoic.StoicPost | src/app/api/stoic/route.ts:53-99 | an answer that is not a non-empty string of at most 300 characters is a 400; otherwise today's entry stores the answer, keeping the question of an existing entry |
| Stoic.LengthLimit | src/app/api/stoic/route.ts:69-74 | 300 characters are accepted and 301 are not |
| Stoic.AnswerTwice | src/app/api/stoic/route.ts:80-96 | a second answer the same day replaces the answer and keeps the question and the entry |
| PomodoroTimer.GetDuration | src/app/pomodoro/page.tsx:216-225 | each mode's length comes from its own setting |
| PomodoroTimer.SwitchMode | src/app/pomodoro/page.tsx:228-232 | switching stops the timer and loads the full length of the new mode, with nothing else changed |
| PomodoroTimer.ResetTimer | src/app/pomodoro/page.tsx:235-238 | a reset stops the timer and reloads the current mode's full length |
| PomodoroTimer.ResetIsSwitchToSelf | src/app/pomodoro/page.tsx:228-238 | a reset is a switch to the current mode |
| PomodoroTimer.SaveSettings | src/app/pomodoro/page.tsx:241-257 | saving replaces the settings; a stopped timer reloads the length from the new settings and a running one keeps counting |
| PomodoroTimer.SaveUnchangedResets | src/app/pomodoro/page.tsx:241-257 | saving unchanged settings on a stopped timer is a reset |
| PomodoroTimer.TaskLabel | src/app/pomodoro/page.tsx:160 | an empty task name is left out of the session |
| PomodoroTimer.Complete | src/app/pomodoro/page.tsx:150-213 | a finished period is logged; a focus period counts and starts a long break on every n-th count and a short break otherwise; a break returns to focus; each follows its auto-start setting |
| PomodoroTimer.Step | src/app/pomodoro/page.tsx:126-138 | a running timer counts down one second per tick and completes the period at zero; a stopped one does nothing |
| PomodoroTimer.Countdown | src/app/pomodoro/page.tsx:126-138 | a running timer reaches zero after as many ticks as it has seconds left, and the next tick completes the period |
| PomodoroTimer.OnDay | src/app/pomodoro/page.tsx:100-110 | loading keeps exactly the stored sessions completed today |
| PomodoroTimer.ShownSessions | src/app/pomodoro/page.tsx:545-548 | the list shows the last five sessions, newest first |
| PomodoroTimer.NewestShownFirst | src/app/pomodoro/page.tsx:545-548 | a new session is shown at the top, and the older ones move down |
| PomodoroTimer.Load | src/app/pomodoro/page.tsx:93-116 | the page starts stopped in focus mode with a full period, the stored or default settings, and only today's sessions, with its session counter matching them |
| PomodoroTimer.StepKeepsConsistent | src/app/pomodoro/page.tsx:126-238 | ticking, switching and resetting keep the counter equal to the focus periods logged today |
| PomodoroTimer.CompleteAddsFocus | src/app/pomodoro/page.tsx:303-306 | completing a focus period adds its length to today's focus time, and a break adds nothing |
| PomodoroTimer.FourthIsLong | src/app/pomodoro/page.tsx:180-196 | with the default settings the fourth focus period is followed by a 15-minute break, and the others by 5 minutes |
| PomodoroTimer.Retained | src/app/pomodoro/page.tsx:167-178 | the stored log keeps the new session last and exactly the sessions of the last seven days before it |
| PomodoroTimer.FormatTime | src/app/pomodoro/page.tsx:260-264 | the clock reads back as the number of seconds, with two-digit seconds and a five-character display under 100 minutes |
| PomodoroTimer.ParseSetting | src/app/pomodoro/page.tsx:617 | a number field takes the parsed number, or its default when the input is not a number or is zero |
| PomodoroTimer.EditField | src/app/pomodoro/page.tsx:614-668 | one input's change sets its own field to the parsed text, never zero thanks to the field's default, and keeps every other field and switch |
| PomodoroTimer.ToggleSwitch | src/app/pomodoro/page.tsx:686-734 | a click on an auto-start switch flips that switch and keeps every field and the other switch |
| PomodoroTimer.EditSettings | src/app/pomodoro/page.tsx:614-734 | from the settings the dialog opened with, a field nobody edited keeps its value, zero included; an edited field holds its last text parsed with its default; each auto-start switch is flipped when it was clicked an odd number of times; the sound setting is kept |
| PomodoroTimer.ToggleTwice | src/app/pomodoro/page.tsx:686-734 | two clicks on the same switch leave the draft as it was |
| PomodoroTimer.ToggleSound | src/app/pomodoro/page.tsx:353-365 | the header's sound button flips the sound setting, changes nothing else, and stores the new settings |
| PomodoroTimer.SoundTwice | src/app/pomodoro/page.tsx:353-365 | two clicks on the sound button restore the timer |
| PomodoroTimer.RetypeKeeps | src/app/pomodoro/page.tsx:614-668 | typing a field's own positive value back into it leaves the draft unchanged |
| PomodoroTimer.EmptyInputFallsBack | src/app/pomodoro/page.tsx:617-668 | an empty or zero input falls back to the default |
| StatsPage.FormatMinutes | src/app/stats/page.tsx:150-155 | the label reads back as the number of minutes: minutes under an hour, whole hours as hours, otherwise hours then minutes |
| StatsPage.GetTrendIcon | src/app/stats/page.tsx:157-161 | up above +5, down below -5, level in between |
| StatsPage.TrendMirrored | src/app/stats/page.tsx:157-161 | negating the trend swaps up and down |
| StatsPage.RateColour | src/app/stats/page.tsx:379-385 | green from 80, yellow from 50, red below |
| StatsPage.RateColourMonotone | src/app/stats/page.tsx:379-385 | a higher rate never gets a worse colour |
| StatsPage.StatusColour | src/app/stats/page.tsx:163-174 | each status name has its colour, and other strings get the neutral one |
| StatsPage.StatusColours | src/app/stats/page.tsx:163-174 | each radar status is drawn in its own colour |
| StatsPage.ChartMax | src/app/stats/page.tsx:205-211 | the chart maximum is at least one, bounds every value, and is one of them unless it is one |
| StatsPage.BarHeight | src/app/stats/page.tsx:330 | a bar is at least 4 percent high, at most full for values up to the maximum, and full at the maximum |
| StatsPage.BarHeightMonotone | src/app/stats/page.tsx:330 | a larger value never draws a shorter bar |
| StatsPage.Bars | src/app/stats/page.tsx:325-335 | every bar is between 4 and 100 percent, and the tallest values draw full bars |
| StatsPage.TallestBarIsFull | src/app/stats/page.tsx:504 | when any day has a positive value, some bar is full height |
| StatsPage.ActiveStreaks | src/app/stats/page.tsx:563-564 | the cards show exactly the streaks that are running, in the report's order |
| StatsPage.NoStreaksMessage | src/app/stats/page.tsx:553-585 | the "no active streaks" message shows exactly when the report has rows and none of them has a running streak; an empty report draws neither the card nor the message |
| StatsPage.ActiveIsPrefix | src/app/stats/page.tsx:563-564 | because the report is sorted, the running streaks are its first rows and all the others are zero |
| StatsPage.StreakBadgeAsWritten | src/app/stats/page.tsx:576 | as written, the badge starts with four stray characters |
| StatsPage.StreakBadge | src/app/stats/page.tsx:576 | with the emoji corrected, the badge is the fire sign, a space, the number of days and " days" |
| StatsPage.FireMisdecoded | src/app/stats/page.tsx:576 | the written badge is the UTF-8 bytes of the fire sign read as Windows-1252 |
| StatsSummary.StatusValue | src/app/api/stats/route.ts:440 | red, yellow and green are worth 1, 2 and 3 |
| StatsSummary.AverageOf | src/app/api/stats/route.ts:445-450 | an area's average is its mean value rounded to hundredths, between 1 and 3 |
| StatsSummary.GetRadarSummary | src/app/api/stats/route.ts:436-459 | no radar rows give no summary; otherwise the weeks tracked, each area's average and the latest row |
| StatsSummary.AlwaysGreen | src/app/api/stats/route.ts:445-450 | an area green every week averages exactly 3 |
| StatsSummary.Groups | src/app/api/stats/route.ts:170-179 | one group per habit, task and name combination, holding the minutes of its sessions |
| StatsSummary.PositiveGroups | src/app/api/stats/route.ts:184 | exactly the groups with positive minutes are kept |
| StatsSummary.SortedGroups | src/app/api/stats/route.ts:184-185 | the positive groups, most minutes first |
| StatsSummary.TopGroups | src/app/api/stats/route.ts:184-186 | at most five positive groups, most minutes first |
| StatsSummary.TopIsTop | src/app/api/stats/route.ts:184-186 | a positive group left out is beaten by five groups that were kept |
| StatsSummary.Resolve | src/app/api/stats/route.ts:188-212 | a group is a habit when its habit exists, otherwise a task when its task exists, otherwise a custom activity with its name or "Unnamed" and the stopwatch |
| StatsSummary.ResolveAll | src/app/api/stats/route.ts:182-222 | resolving keeps the order and the minutes of each group |
| StatsSummary.TopActivities | src/app/api/stats/route.ts:182-222 | at most five activities, each with positive minutes that are its group's total, most minutes first |
| StatsSummary.TopActivityNamed | src/app/api/stats/route.ts:188-212 | each top activity is its group, resolved |
| StatsSummary.MissingHabitHidesTask | src/app/api/stats/route.ts:188-212 | a group whose habit is gone becomes custom even when its task exists, while the pomodoro report counts it to the task |
| Streaks.StopAt | src/app/api/stats/route.ts:479-501 | the walk stops at the first scheduled day that was missed, or at the 365-day horizon |
| Streaks.Hits | src/app/api/stats/route.ts:479-501 | no more days are counted than were walked |
| Streaks.Streak | src/app/api/stats/route.ts:479-501 | a streak never exceeds the 365-day horizon |
| Streaks.CurrentStreak | src/app/api/stats/route.ts:479-501 | the loop, with its break, computes the streak |
| Streaks.StreakIgnoresUnscheduled | src/app/api/stats/route.ts:479-501 | completions on days that are not due do not change the streak |
| Streaks.TodayStaysOpen | src/app/api/stats/route.ts:485-497 | today's completion adds one when due and done, and a missing one today does not break the streak |
| Streaks.MissedDayEndsStreak | src/app/api/stats/route.ts:491-497 | a missed due day k days back limits the streak to k |
| Streaks.HitsMonotone | src/app/api/stats/route.ts:479-501 | walking further never counts fewer days |
| Streaks.DailyRun | src/app/api/stats/route.ts:479-501 | a daily habit done for the last n days through today, and not the day before, has streak n |
| Streaks.DailyRunOpenToday | src/app/api/stats/route.ts:479-501 | the same run not yet done today still has streak n |
| Streaks.AllKept | src/app/api/stats/route.ts:479-501 | n due and done days count n |
| Streaks.Rows | src/app/api/stats/route.ts:469-510 | one row per habit, carrying its streak |
| Streaks.CurrentStreaks | src/app/api/stats/route.ts:461-513 | the first five habits' rows, longest streak first, each at most 365 |
| Encoding.Utf8 | src/app/api/tasks/route.ts:82 | one to four bytes, one exactly for ASCII, that decode back to the character |
| Encoding.DecodeWindows1252 | src/app/stats/page.tsx:576 | each byte becomes one character, unchanged outside 0x80-0x9F |
| Encoding.Misdecoded | src/app/stats/page.tsx:576 | a misread character keeps its UTF-8 length and is unchanged exactly when it is ASCII |

## Left out

- Authentication: the 401 answers and the session lookup. The user id is a parameter of every route.
- The database layer. Prisma errors, `include` of related rows, and the exact shape of the JSON responses are not modelled. Ids come from a `freshId` parameter.
- Request bodies whose fields have other JSON types than the route expects, except where the route checks the type: the stoic answer, the radar statuses, the energy mode and the rest days.
- Time zones. The server's local time is taken to be UTC, so `getDay`, `setHours` and `getUTCDay` all mean the same thing.
- Invalid dates. A `new Date(x)` of a malformed value is not modelled; every instant is a valid integer.
- Floating point. The `Math.round` percentages are exact integer rounding.
- The client's browser effects: the audio cue, notifications, `localStorage` parsing, redirects, the settings dialog's open/close state, and every label or icon that is not listed in the table.
- `formatDateLabel` (src/app/api/stats/route.ts:382-390) and the page's date labels: they depend on the locale.
- `getProgress` (src/app/pomodoro/page.tsx:267-270): a floating-point display ratio.
- `getModeInfo` (src/app/pomodoro/page.tsx:273-300): display text and colours only.
- The order that Prisma's `groupBy` returns, and the order of equal keys in the database sorts. The model uses insertion order and a stable sort.
- The energy chart percentages on the statistics page: display ratios.
- UTF-16 code units. String lengths count characters, so the stoic 300-character limit is counted in characters.
- `parseInt`'s leading whitespace and its `0x` hexadecimal prefix. The model reads an optional sign and then the longest run of decimal digits, so " 7" and "0x1A" do not parse as they would in JavaScript.
- Streaks.CurrentStreaks: the completion query's `take: 365` is not modelled. The day walk covers 365 days and only consults those days, so the limit matters only for habits with completions dated in the future.
- WeeklyScore.Score: completions are a set of days per habit, so at most one completion per habit and day is counted. The unique index on completions guarantees this.
- StatsSummary.AverageOf: the average is kept in hundredths as an integer rather than as the float the route returns.
- StatsPage.BarHeight: heights are exact reals, not IEEE doubles.
- PomodoroTimer.FormatTime: only non-negative second counts are covered; the timer never shows a negative time.
- HabitStats.PrevExpected: the corrected previous-period count is stated for every frequency except X_PER_WEEK, whose count is rounded up to whole weeks either way.
- Settings.SettingsPatchApply: `restDays` elements must be numbers from 0 to 6. JavaScript's `d >= 0 && d <= 6` also accepts elements that convert to such a number: `null`, `true` and `false`, the empty string, numeric strings such as "3", and arrays such as `[]` or `[3]`. The model rejects these with a 400.

## Findings

| source | as written | input that shows it | evidently intended | confidence | as-written member | corrected member |
|---|---|---|---|---|---|---|
| src/app/api/stats/route.ts:96-116 | the previous period's expected days are counted up to the midnight that starts its last day, while its completions are counted through that day | a DAILY habit completed on all seven days of the previous week: 6 expected, 7 completed, previous rate 117 and a trend computed from it | the expected days cover the whole previous period, so a perfect previous week rates 100 | not executed | HabitStats.StatFor, HabitStats.PrevWeekAsWritten | HabitStats.StatForCorrected, HabitStats.PrevWeekCorrected, HabitStats.PrevExpected, HabitStats.PrevRateWithinPercent |
| src/app/api/tasks/route.ts:82 | the default task emoji is the three characters that the UTF-8 bytes of the high-voltage sign become when read as Windows-1252 | a task posted without an emoji is stored with a three-character emoji | the single high-voltage sign | not executed | Tasks.TasksPostAsWritten, Tasks.DefaultEmojiMisdecoded | Tasks.TasksPost, Tasks.DefaultEmojiIsLightning |
| src/app/stats/page.tsx:576 | the streak badge starts with the four characters that the UTF-8 bytes of the fire sign become when read as Windows-1252 | any running streak shows four stray characters before the count | the single fire sign | not executed | StatsPage.StreakBadgeAsWritten, StatsPage.FireMisdecoded | StatsPage.StreakBadge |

=== FILE: calendar.dfy ===
/** The calendar every handler relies on, with one clock and no time zones:
    a date is a day number counted from 1970-01-01, an instant is a count of
    milliseconds from 1970-01-01T00:00, and a civil date (year, month, day)
    follows the proleptic Gregorian calendar, as JavaScript's `Date` does. */
module Calendar {

  /** Milliseconds in a day (`1000 * 60 * 60 * 24`). */
  const MsPerDay: int := 86400000

  /** `getDay()`: 0 = Sunday .. 6 = Saturday. Day 0 (1970-01-01) was a
      Thursday. */
  function Weekday(d: int): (w: int)
    ensures 0 <= w < 7
  {
    (d + 4) % 7
  }

  /** The weekday advances by one, wrapping from Saturday to Sunday. */
  lemma WeekdayNext(d: int)
    ensures Weekday(d + 1) == (Weekday(d) + 1) % 7
  {
  }

  /** The day of an instant (`setHours(0, 0, 0, 0)` read as a day). */
  function DayOf(t: int): (d: int)
    ensures d * MsPerDay <= t < (d + 1) * MsPerDay
  {
    t / MsPerDay
  }

  /** Midnight at the start of a day, as an instant. */
  function StartOf(d: int): int {
    d * MsPerDay
  }

  lemma DayOfStart(d: int)
    ensures DayOf(StartOf(d)) == d
  {
  }

  /** The Monday on or before day `d`: the source's
      `dayOfWeek === 0 ? -6 : 1 - dayOfWeek` offset. */
  function MondayOnOrBefore(d: int): (m: int)
    ensures Weekday(m) == 1
    ensures m <= d < m + 7
  {
    var w := Weekday(d);
    d + (if w == 0 then -6 else 1 - w)
  }

  /** Exactly one Monday lies in the 7 days ending at `d`, so the week start
      is determined by its two defining properties. */
  lemma MondayOnOrBeforeUnique(d: int, m: int)
    requires Weekday(m) == 1 && m <= d < m + 7
    ensures m == MondayOnOrBefore(d)
  {
  }

  /** A Sunday belongs to the week that started six days earlier. */
  lemma SundayMapsBackSix(d: int)
    requires Weekday(d) == 0
    ensures MondayOnOrBefore(d) == d - 6
  {
  }

  // ---------------------------------------------------------------------
  // Civil dates
  // ---------------------------------------------------------------------

  predicate IsLeapYear(y: int) {
    y % 4 == 0 && (y % 100 != 0 || y % 400 == 0)
  }

  function YearLength(y: int): int {
    if IsLeapYear(y) then 366 else 365
  }

  function DaysInMonth(y: int, m: int): (n: int)
    requires 1 <= m <= 12
    ensures 28 <= n <= 31
  {
    if m == 2 then (if IsLeapYear(y) then 29 else 28)
    else if m == 4 || m == 6 || m == 9 || m == 11 then 30
    else 31
  }

  /** A calendar date; `month` is 1-based (the source's `getMonth() + 1`). */
  datatype CivilDate = CivilDate(year: int, month: int, day: int) {
    predicate Valid() {
      1 <= month <= 12 && 1 <= day <= DaysInMonth(year, month)
    }
  }

  /** Days from January 1st to the first day of month `m` (`m` = 13 gives
      the length of the year). */
  function DaysBeforeMonth(y: int, m: int): int
    requires 1 <= m <= 13
  {
    [0, 31, 59, 90, 120, 151, 181, 212, 243, 273, 304, 334, 365][m - 1]
      + (if IsLeapYear(y) && m > 2 then 1 else 0)
  }

  /** Consecutive months are back to back. */
  lemma MonthStep(y: int, m: int)
    requires 1 <= m <= 12
    ensures DaysBeforeMonth(y, m + 1) == DaysBeforeMonth(y, m) + DaysInMonth(y, m)
  {
  }

  lemma MonthsFillYear(y: int)
    ensures DaysBeforeMonth(y, 13) == YearLength(y)
  {
  }

  /** Days from 0001-01-01 to January 1st of year `y` (negative before). */
  function DaysFromEra(y: int): int {
    365 * (y - 1) + (y - 1) / 4 - (y - 1) / 100 + (y - 1) / 400
  }

  /** Days from 1970-01-01 to January 1st of year `y`. */
  function DaysBeforeYear(y: int): int {
    DaysFromEra(y) - DaysFromEra(1970)
  }

  lemma YearStep(y: int)
    ensures DaysBeforeYear(y + 1) == DaysBeforeYear(y) + YearLength(y)
  {
    DivStep(y, 4);
    DivStep(y, 100);
    DivStep(y, 400);
  }

  /** Moving up by one passes a multiple of `d` exactly when it lands on one. */
  lemma DivStep(y: int, d: int)
    requires d > 0
    ensures y / d - (y - 1) / d == if y % d == 0 then 1 else 0
  {
    var q := y / d;
    var r := y % d;
    if r == 0 {
      DivUnique(y - 1, d, q - 1, d - 1);
    } else {
      DivUnique(y - 1, d, q, r - 1);
    }
  }

  /** Euclidean division has one quotient and remainder. */
  lemma DivUnique(a: int, d: int, q: int, r: int)
    requires d > 0 && a == d * q + r && 0 <= r < d
    ensures a / d == q
  {
    var k := a / d - q;
    assert d * k == r - a % d by {
      assert d * (a / d) + a % d == d * q + r;
      assert d * (a / d) - d * q == d * k;
    }
    if k >= 1 {
      MulAtLeast(d, k);
    } else if k <= -1 {
      MulAtLeast(d, -k);
    }
  }

  lemma {:induction false} MulAtLeast(d: int, k: int)
    requires d > 0 && k >= 1
    ensures d * k >= d
    decreases k
  {
    if k > 1 {
      MulAtLeast(d, k - 1);
      assert d * k == d * (k - 1) + d;
    }
  }

  /** The day number of a civil date. */
  function ToDay(c: CivilDate): int
    requires c.Valid()
  {
    DaysBeforeYear(c.year) + DaysBeforeMonth(c.year, c.month) + c.day - 1
  }

  /** The last day of a month. */
  function LastOfMonth(y: int, m: int): (c: CivilDate)
    requires 1 <= m <= 12
    ensures c.Valid()
  {
    CivilDate(y, m, DaysInMonth(y, m))
  }

  /** The month before (y, m): December of the previous year for January. */
  function PreviousMonth(y: int, m: int): (p: (int, int))
    requires 1 <= m <= 12
    ensures 1 <= p.1 <= 12
  {
    if m == 1 then (y - 1, 12) else (y, m - 1)
  }

  /** The calendar date that follows `c`. */
  function NextDay(c: CivilDate): (n: CivilDate)
    requires c.Valid()
    ensures n.Valid()
    ensures ToDay(n) == ToDay(c) + 1
  {
    if c.day < DaysInMonth(c.year, c.month) then CivilDate(c.year, c.month, c.day + 1)
    else if c.month < 12 then
      MonthStep(c.year, c.month);
      CivilDate(c.year, c.month + 1, 1)
    else
      MonthStep(c.year, 12);
      MonthsFillYear(c.year);
      YearStep(c.year);
      CivilDate(c.year + 1, 1, 1)
  }

  /** The first of a month follows the last day of the month before it
      (`new Date(y, m, 0)` is the day before `new Date(y, m, 1)`). */
  lemma {:induction false} FirstFollowsPreviousMonth(y: int, m: int)
    requires 1 <= m <= 12
    ensures var p := PreviousMonth(y, m);
            ToDay(CivilDate(y, m, 1)) == ToDay(LastOfMonth(p.0, p.1)) + 1
  {
    var p := PreviousMonth(y, m);
    assert NextDay(LastOfMonth(p.0, p.1)) == CivilDate(y, m, 1);
  }

  /** 2024-01-01 was a Monday: the weekday offset agrees with the calendar. */
  lemma KnownMonday()
    ensures ToDay(CivilDate(2024, 1, 1)) == 19723
    ensures Weekday(ToDay(CivilDate(2024, 1, 1))) == 1
  {
  }

  /** A moment in time given by its calendar date and the milliseconds since
      that day's midnight. */
  datatype Instant = Instant(date: CivilDate, msOfDay: int) {
    predicate Valid() {
      date.Valid() && 0 <= msOfDay < MsPerDay
    }

    /** `getTime()`. */
    function Time(): int
      requires Valid()
    {
      ToDay(date) * MsPerDay + msOfDay
    }

    function Day(): int
      requires Valid()
    {
      ToDay(date)
    }
  }

  lemma InstantDay(i: Instant)
    requires i.Valid()
    ensures DayOf(i.Time()) == i.Day()
  {
  }
}

=== FILE: daily_series.dfy ===
/** The per-day and per-weekday series of the statistics handler
    (src/app/api/stats/route.ts): completions per day and focus minutes per
    day, both seeded with a zero for every day of the window, the average
    focus per day, and energy levels by weekday and mode. Instants are
    milliseconds, days are day numbers, and the window starts at the
    midnight of day `first`. */
module DailySeries {
  import opened Numbers
  import opened Tally
  import opened Calendar
  import opened Schedule
  import opened FocusActivity
  import opened EnergyLevel

  // ---------------------------------------------------------------------
  // Chart days
  // ---------------------------------------------------------------------

  /** The days `byDate` is seeded with: `while (current <= end)` from the
      window's first midnight, one day at a time. */
  function ChartDays(first: int, now: int): (days: seq<int>)
    ensures |days| == Visits(StartOf(first), now)
    ensures first <= DayOf(now) ==> |days| == DayOf(now) - first + 1
    ensures first > DayOf(now) ==> |days| == 0
    ensures forall i :: 0 <= i < |days| ==> days[i] == first + i
  {
    var n := Visits(StartOf(first), now);
    if first <= DayOf(now) then
      VisitsFromMidnight(first, now);
      seq(n, i requires 0 <= i => first + i)
    else
      seq(n, i requires 0 <= i => first + i)
  }

  /** `byDate` after seeding: one zero bucket per day of the window, in
      order. */
  function ChartBuckets(first: int, now: int): (es: seq<Entry<int>>)
    ensures |es| == |ChartDays(first, now)|
    ensures forall i :: 0 <= i < |es| ==> es[i] == Entry(first + i, 0, 0)
    ensures DistinctKeys(es)
    ensures forall k :: k in Keys(es) <==> first <= k <= DayOf(now)
    ensures forall k :: TotalFor(es, k) == 0
    ensures SumBy(es, TotalOf) == 0
  {
    var days := ChartDays(first, now);
    DaysSpan(first, now);
    SeedKeys(days);
    SeedTotals(days);
    Seed(days)
  }

  /** The chart days are exactly the days from `first` to today. */
  lemma DaysSpan(first: int, now: int)
    ensures forall k :: k in ChartDays(first, now) <==> first <= k <= DayOf(now)
  {
    var days := ChartDays(first, now);
    forall d | first <= d <= DayOf(now) ensures d in days {
      assert days[d - first] == d;
    }
  }

  // ---------------------------------------------------------------------
  // Completions per day
  // ---------------------------------------------------------------------

  /** Indices of the instants in `lo..hi` (`date: { gte, lte }`). */
  function InRange(dates: seq<int>, lo: int, hi: int): set<int> {
    set i | 0 <= i < |dates| && lo <= dates[i] <= hi
  }

  /** Indices of the instants in `lo..hi` that fall on day `d`. */
  function OnDay(dates: seq<int>, lo: int, hi: int, d: int): set<int> {
    set i | 0 <= i < |dates| && lo <= dates[i] <= hi && DayOf(dates[i]) == d
  }

  /** One item per instant in range: its day, counted once. */
  function DayItems(dates: seq<int>, lo: int, hi: int): (items: seq<Item<int>>)
    ensures forall i :: 0 <= i < |items| ==> items[i].1 == 1 && DayOf(lo) <= items[i].0 <= DayOf(hi)
  {
    if |dates| == 0 then []
    else
      var prev := DayItems(dates[..|dates| - 1], lo, hi);
      var c := dates[|dates| - 1];
      if lo <= c <= hi then prev + [(DayOf(c), 1)] else prev
  }

  /** The items count the instants in range, day by day. */
  lemma {:induction false} DayItemsCount(dates: seq<int>, lo: int, hi: int)
    ensures |DayItems(dates, lo, hi)| == |InRange(dates, lo, hi)|
    ensures forall d :: AmountFor(DayItems(dates, lo, hi), d) == |OnDay(dates, lo, hi, d)|
  {
    if |dates| > 0 {
      var init := dates[..|dates| - 1];
      DayItemsCount(init, lo, hi);
      RangeStep(dates, lo, hi);
      forall d ensures AmountFor(DayItems(dates, lo, hi), d) == |OnDay(dates, lo, hi, d)| {
        DayStep(dates, lo, hi, d);
      }
    }
  }

  /** One more instant adds one item exactly when it is in range. */
  lemma RangeStep(dates: seq<int>, lo: int, hi: int)
    requires |dates| > 0
    requires |DayItems(dates[..|dates| - 1], lo, hi)| == |InRange(dates[..|dates| - 1], lo, hi)|
    ensures |DayItems(dates, lo, hi)| == |InRange(dates, lo, hi)|
  {
    var n := |dates| - 1;
    var init := dates[..n];
    var c := dates[n];
    assert InRange(dates, lo, hi) == InRange(init, lo, hi) + (if lo <= c <= hi then {n} else {}) by {
      forall i | 0 <= i < n ensures init[i] == dates[i] { }
    }
    assert n !in InRange(init, lo, hi);
  }

  /** One more instant adds one to its own day exactly when it is in range. */
  lemma DayStep(dates: seq<int>, lo: int, hi: int, d: int)
    requires |dates| > 0
    requires AmountFor(DayItems(dates[..|dates| - 1], lo, hi), d) == |OnDay(dates[..|dates| - 1], lo, hi, d)|
    ensures AmountFor(DayItems(dates, lo, hi), d) == |OnDay(dates, lo, hi, d)|
  {
    OnDayStep(dates, lo, hi, d);
    AmountStep(dates, lo, hi, d);
  }

  lemma OnDayStep(dates: seq<int>, lo: int, hi: int, d: int)
    requires |dates| > 0
    ensures var n := |dates| - 1;
            var c := dates[n];
            |OnDay(dates, lo, hi, d)| == |OnDay(dates[..n], lo, hi, d)| + (if lo <= c <= hi && DayOf(c) == d then 1 else 0)
  {
    var n := |dates| - 1;
    var init := dates[..n];
    var c := dates[n];
    assert OnDay(dates, lo, hi, d) == OnDay(init, lo, hi, d) + (if lo <= c <= hi && DayOf(c) == d then {n} else {}) by {
      forall i | 0 <= i < n ensures init[i] == dates[i] { }
    }
    assert n !in OnDay(init, lo, hi, d);
  }

  lemma AmountStep(dates: seq<int>, lo: int, hi: int, d: int)
    requires |dates| > 0
    ensures var n := |dates| - 1;
            var c := dates[n];
            AmountFor(DayItems(dates, lo, hi), d) == AmountFor(DayItems(dates[..n], lo, hi), d) + (if lo <= c <= hi && DayOf(c) == d then 1 else 0)
  {
    var n := |dates| - 1;
    var items := DayItems(dates, lo, hi);
    if lo <= dates[n] <= hi {
      assert items[..|items| - 1] == DayItems(dates[..n], lo, hi);
    }
  }

  lemma {:induction false} DayItemKeys(items: seq<Item<int>>, a: int, b: int)
    requires forall i :: 0 <= i < |items| ==> a <= items[i].0 <= b
    ensures forall k :: k in ItemKeys(items) ==> a <= k <= b
  {
    if |items| > 0 {
      DayItemKeys(items[..|items| - 1], a, b);
    }
  }

  /** `getDailyCompletionData`: one bucket per day of the window, in order,
      holding the number of completions dated that day. */
  function DailyCompletionData(dates: seq<int>, first: int, now: int): (r: seq<Entry<int>>)
    ensures |r| == |ChartDays(first, now)|
    ensures forall i :: 0 <= i < |r| ==> r[i].key == first + i
    ensures forall i :: 0 <= i < |r| ==> r[i].total == |OnDay(dates, StartOf(first), now, first + i)|
    ensures SumBy(r, TotalOf) == |InRange(dates, StartOf(first), now)|
  {
    var es := ChartBuckets(first, now);
    var items := DayItems(dates, StartOf(first), now);
    var r := AddAll(es, items);
    assert |r| == |es| by {
      DayOfStart(first);
      DayItemKeys(items, first, DayOf(now));
    }
    assert forall k :: TotalFor(r, k) == |OnDay(dates, StartOf(first), now, k)| by {
      DayItemsCount(dates, StartOf(first), now);
    }
    assert SumBy(r, TotalOf) == |InRange(dates, StartOf(first), now)| by {
      DayItemsCount(dates, StartOf(first), now);
      SumByOnes(items, ItemAmount);
    }
    BucketTotals(r, first, k => |OnDay(dates, StartOf(first), now, k)|);
    r
  }

  /** Buckets keyed by consecutive days hold, each, the total that the
      lookup by key gives. */
  lemma BucketTotals(r: seq<Entry<int>>, first: int, g: int -> int)
    requires DistinctKeys(r)
    requires forall i :: 0 <= i < |r| ==> r[i].key == first + i
    requires forall k :: TotalFor(r, k) == g(k)
    ensures forall i :: 0 <= i < |r| ==> r[i].total == g(first + i)
  {
    forall p | 0 <= p < |r| ensures r[p].total == g(first + p) {
      DistinctTotalFor(r, p);
    }
  }

  // ---------------------------------------------------------------------
  // Focus minutes per day
  // ---------------------------------------------------------------------

  /** One item per session: its day and its minutes. */
  function FocusItems(sessions: seq<Session>): (items: seq<Item<int>>)
    ensures |items| == |sessions|
    ensures forall i :: 0 <= i < |items| ==> items[i] == (DayOf(sessions[i].completedAt), sessions[i].duration)
  {
    seq(|sessions|, i requires 0 <= i < |sessions| => (DayOf(sessions[i].completedAt), sessions[i].duration))
  }

  /** `getFocusByDay` over the work sessions completed since the window
      started: the window's days first, in order, then, should a session
      lie after today, its day appended. The minutes are all accounted for. */
  function FocusByDay(sessions: seq<Session>, first: int, now: int): (r: seq<Entry<int>>)
    ensures |r| >= |ChartDays(first, now)|
    ensures forall i :: 0 <= i < |ChartDays(first, now)| ==> r[i].key == first + i
    ensures SumBy(r, TotalOf) == SumBy(sessions, Duration)
    ensures (forall i :: 0 <= i < |sessions| ==> StartOf(first) <= sessions[i].completedAt <= now) ==>
              |r| == |ChartDays(first, now)|
  {
    var es := ChartBuckets(first, now);
    var items := FocusItems(sessions);
    DurationSum(sessions, items);
    FocusInWindow(sessions, items, first, now);
    AddAll(es, items)
  }

  lemma FocusInWindow(sessions: seq<Session>, items: seq<Item<int>>, first: int, now: int)
    requires |items| == |sessions|
    requires forall i :: 0 <= i < |items| ==> items[i].0 == DayOf(sessions[i].completedAt)
    ensures (forall i :: 0 <= i < |sessions| ==> StartOf(first) <= sessions[i].completedAt <= now) ==>
              forall k :: k in ItemKeys(items) ==> first <= k <= DayOf(now)
  {
    if forall i :: 0 <= i < |sessions| ==> StartOf(first) <= sessions[i].completedAt <= now {
      DayOfStart(first);
      DayItemKeys(items, first, DayOf(now));
    }
  }

  /** The minutes of day `first + i` are those of the sessions completed on
      that day. */
  lemma FocusOnDay(sessions: seq<Session>, first: int, now: int, i: nat)
    requires i < |ChartDays(first, now)|
    ensures FocusByDay(sessions, first, now)[i].total == AmountFor(FocusItems(sessions), first + i)
  {
    var r := FocusByDay(sessions, first, now);
    assert r == AddAll(ChartBuckets(first, now), FocusItems(sessions));
    DistinctTotalFor(r, i);
  }

  /** `avgMinutesPerDay`: the total over the days from the window's start to
      now, rounded, with at least one day. */
  function AvgMinutesPerDay(totalMinutes: int, first: int, now: int): (avg: int)
    ensures var days := if DaysDiff(StartOf(first), now) > 1 then DaysDiff(StartOf(first), now) else 1;
            2 * days * avg <= 2 * totalMinutes + days < 2 * days * (avg + 1)
  {
    var days := DaysDiff(StartOf(first), now);
    RoundedDiv(totalMinutes, if days > 1 then days else 1)
  }

  // ---------------------------------------------------------------------
  // Energy by weekday
  // ---------------------------------------------------------------------

  /** A stored energy level: its day and mode. */
  datatype Level = Level(day: int, mode: EnergyMode)

  /** The three counters of `{ FULL, RECOVERY, MINIMAL }`. */
  datatype Cell = Cell(full: nat, recovery: nat, minimal: nat)
  {
    function Get(m: EnergyMode): nat {
      match m
      case Full => full
      case Recovery => recovery
      case Minimal => minimal
    }

    /** `result[day][mode]++`. */
    function Bump(m: EnergyMode): (c: Cell)
      ensures c.Get(m) == Get(m) + 1
      ensures forall o :: o != m ==> c.Get(o) == Get(o)
    {
      match m
      case Full => this.(full := full + 1)
      case Recovery => this.(recovery := recovery + 1)
      case Minimal => this.(minimal := minimal + 1)
    }

    function Total(): nat { full + recovery + minimal }
  }

  /** The number of levels with mode `m` (`filter(e => e.mode === m).length`). */
  function ModeCount(levels: seq<Level>, m: EnergyMode): nat {
    if |levels| == 0 then 0
    else ModeCount(levels[..|levels| - 1], m) + (if levels[|levels| - 1].mode == m then 1 else 0)
  }

  /** `energyDistribution`. */
  function Distribution(levels: seq<Level>): (c: Cell)
    ensures c.Total() == |levels|
    ensures forall m :: c.Get(m) == ModeCount(levels, m)
  {
    ModesAddUp(levels);
    Cell(ModeCount(levels, Full), ModeCount(levels, Recovery), ModeCount(levels, Minimal))
  }

  lemma {:induction false} ModesAddUp(levels: seq<Level>)
    ensures ModeCount(levels, Full) + ModeCount(levels, Recovery) + ModeCount(levels, Minimal) == |levels|
  {
    if |levels| > 0 {
      ModesAddUp(levels[..|levels| - 1]);
    }
  }

  /** The levels on weekday `w` with mode `m`, counted directly. */
  function CountAt(levels: seq<Level>, w: int, m: EnergyMode): nat {
    if |levels| == 0 then 0
    else
      var e := levels[|levels| - 1];
      CountAt(levels[..|levels| - 1], w, m) + (if Weekday(e.day) == w && e.mode == m then 1 else 0)
  }

  /** `getEnergyByDayOfWeek`: seven cells, Sunday first, each counting the
      levels of that weekday by mode. */
  function EnergyByDayOfWeek(levels: seq<Level>): (r: seq<Cell>)
    ensures |r| == 7
    ensures forall w, m :: 0 <= w < 7 ==> r[w].Get(m) == CountAt(levels, w, m)
  {
    if |levels| == 0 then [Cell(0, 0, 0), Cell(0, 0, 0), Cell(0, 0, 0), Cell(0, 0, 0), Cell(0, 0, 0), Cell(0, 0, 0), Cell(0, 0, 0)]
    else
      var prev := EnergyByDayOfWeek(levels[..|levels| - 1]);
      var e := levels[|levels| - 1];
      var w := Weekday(e.day);
      prev[w := prev[w].Bump(e.mode)]
  }

  /** The sum of one mode over the seven weekdays. */
  function WeekSum(r: seq<Cell>, m: EnergyMode): nat
    requires |r| == 7
  {
    r[0].Get(m) + r[1].Get(m) + r[2].Get(m) + r[3].Get(m) + r[4].Get(m) + r[5].Get(m) + r[6].Get(m)
  }

  /** Each level is counted under exactly one weekday. */
  lemma {:induction false} CountAtSum(levels: seq<Level>, m: EnergyMode)
    ensures CountAt(levels, 0, m) + CountAt(levels, 1, m) + CountAt(levels, 2, m) + CountAt(levels, 3, m)
            + CountAt(levels, 4, m) + CountAt(levels, 5, m) + CountAt(levels, 6, m) == ModeCount(levels, m)
  {
    if |levels| > 0 {
      CountAtSum(levels[..|levels| - 1], m);
      var w := Weekday(levels[|levels| - 1].day);
      assert 0 <= w < 7;
    }
  }

  /** Seven cells that hold the weekday counts sum to the counts' sum. */
  lemma WeekSumOfCounts(r: seq<Cell>, levels: seq<Level>, m: EnergyMode)
    requires |r| == 7
    requires forall w :: 0 <= w < 7 ==> r[w].Get(m) == CountAt(levels, w, m)
    ensures WeekSum(r, m) == CountAt(levels, 0, m) + CountAt(levels, 1, m) + CountAt(levels, 2, m)
                             + CountAt(levels, 3, m) + CountAt(levels, 4, m) + CountAt(levels, 5, m)
                             + CountAt(levels, 6, m)
  {
  }

  /** Each mode's column over the weekdays adds up to the distribution, so
      every level is counted exactly once. */
  lemma WeekdaysAddUp(levels: seq<Level>, m: EnergyMode)
    ensures WeekSum(EnergyByDayOfWeek(levels), m) == Distribution(levels).Get(m)
  {
    WeekSumOfCounts(EnergyByDayOfWeek(levels), levels, m);
    CountAtSum(levels, m);
  }

  /** Every level lands in the cell of its own weekday. */
  lemma CellsTotal(levels: seq<Level>)
    ensures WeekSum(EnergyByDayOfWeek(levels), Full) + WeekSum(EnergyByDayOfWeek(levels), Recovery)
            + WeekSum(EnergyByDayOfWeek(levels), Minimal) == |levels|
  {
    WeekdaysAddUp(levels, Full);
    WeekdaysAddUp(levels, Recovery);
    WeekdaysAddUp(levels, Minimal);
  }
}

=== FILE: encoding.dfy ===
/** Text encodings, for one recurring defect of the source text: non-ASCII
    characters written into string literals as their UTF-8 bytes read back
    as Windows-1252 (the task route's default emoji, the streak badge of the
    statistics page). */
module Encoding {

  /** UTF-8 (section 3 of RFC 3629): the bytes of one Unicode scalar value. */
  function Utf8(c: char): (b: seq<int>)
    ensures 1 <= |b| <= 4
    ensures forall i :: 0 <= i < |b| ==> 0 <= b[i] < 0x100
    ensures c as int < 0x80 <==> |b| == 1
    ensures |b| == 1 ==> b[0] == c as int
    ensures |b| == 2 ==> (b[0] - 0xC0) * 64 + (b[1] - 0x80) == c as int
    ensures |b| == 3 ==> (b[0] - 0xE0) * 4096 + (b[1] - 0x80) * 64 + (b[2] - 0x80) == c as int
    ensures |b| == 4 ==> (b[0] - 0xF0) * 262144 + (b[1] - 0x80) * 4096 + (b[2] - 0x80) * 64 + (b[3] - 0x80) == c as int
  {
    var n := c as int;
    if n < 0x80 then [n]
    else if n < 0x800 then TwoBytes(n)
    else if n < 0x10000 then ThreeBytes(n)
    else FourBytes(n)
  }

  function TwoBytes(n: int): (b: seq<int>)
    requires 0x80 <= n < 0x800
    ensures |b| == 2 && 0xC0 <= b[0] < 0xE0 && 0x80 <= b[1] < 0xC0
    ensures (b[0] - 0xC0) * 64 + (b[1] - 0x80) == n
  {
    [0xC0 + n / 64, 0x80 + n % 64]
  }

  function ThreeBytes(n: int): (b: seq<int>)
    requires 0x800 <= n < 0x10000
    ensures |b| == 3 && 0xE0 <= b[0] < 0xF0 && 0x80 <= b[1] < 0xC0 && 0x80 <= b[2] < 0xC0
    ensures (b[0] - 0xE0) * 4096 + (b[1] - 0x80) * 64 + (b[2] - 0x80) == n
  {
    [0xE0 + n / 4096, 0x80 + (n / 64) % 64, 0x80 + n % 64]
  }

  function FourBytes(n: int): (b: seq<int>)
    requires 0x10000 <= n < 0x110000
    ensures |b| == 4 && 0xF0 <= b[0] < 0xF8 && 0x80 <= b[1] < 0xC0 && 0x80 <= b[2] < 0xC0 && 0x80 <= b[3] < 0xC0
    ensures (b[0] - 0xF0) * 262144 + (b[1] - 0x80) * 4096 + (b[2] - 0x80) * 64 + (b[3] - 0x80) == n
  {
    var m1 := n / 64;
    var m2 := m1 / 64;
    var m3 := m2 / 64;
    assert n == 64 * m1 + n % 64 && m1 == 64 * m2 + m1 % 64 && m2 == 64 * m3 + m2 % 64;
    [0xF0 + m3, 0x80 + m2 % 64, 0x80 + m1 % 64, 0x80 + n % 64]
  }

  /** Windows-1252 decoding of one byte, with the five unassigned bytes
      mapped to the control characters of the same number, as the WHATWG
      Encoding Standard does. It agrees with ISO-8859-1 outside 0x80-0x9F. */
  function Windows1252(b: int): (c: char)
    requires 0 <= b < 0x100
    ensures !(0x80 <= b < 0xA0) ==> c as int == b
  {
    if b < 0x80 || b >= 0xA0 then b as char
    else
      var high := [
        '€', '\U{81}', '‚', 'ƒ', '„', '…', '†', '‡',
        'ˆ', '‰', 'Š', '‹', 'Œ', '\U{8D}', 'Ž', '\U{8F}',
        '\U{90}', '‘', '’', '“', '”', '•', '–', '—',
        '˜', '™', 'š', '›', 'œ', '\U{9D}', 'ž', 'Ÿ'];
      high[b - 0x80]
  }

  /** Each byte decoded on its own. */
  function DecodeWindows1252(bytes: seq<int>): (s: string)
    requires forall i :: 0 <= i < |bytes| ==> 0 <= bytes[i] < 0x100
    ensures |s| == |bytes|
    ensures forall i :: 0 <= i < |bytes| ==> s[i] == Windows1252(bytes[i])
  {
    if |bytes| == 0 then [] else [Windows1252(bytes[0])] + DecodeWindows1252(bytes[1..])
  }

  /** What a character becomes when its UTF-8 bytes are read as
      Windows-1252: itself for ASCII, two to four characters otherwise. */
  function Misdecoded(c: char): (s: string)
    ensures |s| == |Utf8(c)|
    ensures c as int < 0x80 <==> s == [c]
  {
    DecodeWindows1252(Utf8(c))
  }
}

=== FILE: energy_level.dfy ===
/** The daily energy level (src/app/api/energy-level/route.ts): one mode per
    user and day, read with a FULL default and written by an upsert. A date
    parameter is given as the instant the `Date` constructor makes of it;
    `None` stands for an absent or empty parameter, which means now. */
module EnergyLevel {
  import opened Wrappers
  import opened Js
  import opened Calendar

  datatype EnergyMode = Full | Recovery | Minimal

  function ModeName(m: EnergyMode): string {
    match m
    case Full => "FULL"
    case Recovery => "RECOVERY"
    case Minimal => "MINIMAL"
  }

  /** The stored levels, keyed by (user, day): the store's unique index. */
  type EnergyStore = map<(string, int), EnergyMode>

  /** The day a request is about: the given instant or now, taken back to
      midnight. */
  function RequestDay(date: Option<int>, now: int): (d: int)
    ensures date.Some? ==> d * MsPerDay <= date.value < (d + 1) * MsPerDay
    ensures date.None? ==> d * MsPerDay <= now < (d + 1) * MsPerDay
  {
    DayOf(date.GetOr(now))
  }

  /** GET: the stored mode, or FULL when the day has none. */
  function EnergyGet(store: EnergyStore, user: string, date: Option<int>, now: int): (m: EnergyMode)
    ensures (user, RequestDay(date, now)) in store ==> m == store[(user, RequestDay(date, now))]
    ensures (user, RequestDay(date, now)) !in store ==> m == Full
  {
    var key := (user, RequestDay(date, now));
    if key in store then store[key] else Full
  }

  /** `["FULL", "RECOVERY", "MINIMAL"].includes(mode)`. */
  function ParseMode(v: JsValue): (r: Option<EnergyMode>)
    ensures r.None? ==> forall m :: v != Str(ModeName(m))
    ensures r.Some? ==> v == Str(ModeName(r.value))
  {
    if v == Str("FULL") then Some(Full)
    else if v == Str("RECOVERY") then Some(Recovery)
    else if v == Str("MINIMAL") then Some(Minimal)
    else None
  }

  /** POST: a valid mode is stored for the user's day, replacing any earlier
      one; anything else is refused with 400 and the store is unchanged. */
  function EnergyPost(store: EnergyStore, user: string, mode: JsValue, date: Option<int>, now: int)
    : (r: Result<(EnergyStore, EnergyMode)>)
    ensures r.Err? <==> ParseMode(mode).None?
    ensures r.Err? ==> r.error.status == 400
    ensures r.Ok? ==> mode == Str(ModeName(r.value.1))
    ensures r.Ok? ==> r.value.0 == store[(user, RequestDay(date, now)) := r.value.1]
  {
    var parsed := ParseMode(mode);
    if parsed.None? then Err(HttpError(400, "Invalid mode"))
    else Ok((store[(user, RequestDay(date, now)) := parsed.value], parsed.value))
  }

  /** Reading the day just written gives back the posted mode; every other
      user and day reads as before. */
  lemma PostThenGet(store: EnergyStore, user: string, m: EnergyMode, date: Option<int>, now: int,
                    other: string, odate: Option<int>, onow: int)
    ensures var r := EnergyPost(store, user, Str(ModeName(m)), date, now);
            r.Ok? && EnergyGet(r.value.0, user, date, now) == m
            && ((other, RequestDay(odate, onow)) != (user, RequestDay(date, now)) ==>
                  EnergyGet(r.value.0, other, odate, onow) == EnergyGet(store, other, odate, onow))
  {
    match m
    case Full =>
    case Recovery =>
    case Minimal =>
  }

  /** Posting the same mode twice for a day leaves the store as after the
      first post. */
  lemma PostIdempotent(store: EnergyStore, user: string, mode: JsValue, date: Option<int>, now: int)
    requires EnergyPost(store, user, mode, date, now).Ok?
    ensures var s1 := EnergyPost(store, user, mode, date, now).value.0;
            EnergyPost(s1, user, mode, date, now).Ok? && EnergyPost(s1, user, mode, date, now).value.0 == s1
  {
  }
}

=== FILE: focus_activity.dfy ===
/** Time spent per activity (src/app/api/pomodoro/stats/route.ts): the work
    sessions of a period are classified by what they were attached to, their
    minutes summed per activity, and the activities listed longest first. */
module FocusActivity {
  import opened Wrappers
  import opened Numbers
  import opened Sorting
  import opened Tally
  import opened Calendar

  /** A stored Pomodoro session. `completedAt` is an instant in
      milliseconds; `duration` is in minutes. */
  datatype Session = Session(mode: string, duration: int, habitId: Option<string>,
                             taskId: Option<string>, taskName: Option<string>, completedAt: int)

  function Duration(s: Session): int { s.duration }

  /** The name and emoji of a habit or task. */
  datatype Named = Named(name: string, emoji: string)

  /** What a session is counted towards. */
  datatype Activity = HabitActivity(id: string) | TaskActivity(id: string) | Unnamed(text: string)

  const Stopwatch: string := "⏱️"
  const Untracked: string := "Untracked"

  /** The key of `activityStats`: `habit:<id>`, `task:<id>` or
      `unnamed:<text>`. */
  function Key(a: Activity): string {
    match a
    case HabitActivity(id) => "habit:" + id
    case TaskActivity(id) => "task:" + id
    case Unnamed(text) => "unnamed:" + text
  }

  /** Different activities never share a key, so grouping by activity is
      grouping by key. */
  lemma KeyInjective(a: Activity, b: Activity)
    ensures Key(a) == Key(b) ==> a == b
  {
    if Key(a) == Key(b) {
      assert Key(a)[0] == Key(b)[0];
      match a
      case HabitActivity(x) =>
        assert b.HabitActivity?;
        assert x == Key(a)[6..] == Key(b)[6..] == b.id;
      case TaskActivity(x) =>
        assert b.TaskActivity?;
        assert x == Key(a)[5..] == Key(b)[5..] == b.id;
      case Unnamed(x) =>
        assert b.Unnamed?;
        assert x == Key(a)[8..] == Key(b)[8..] == b.text;
    }
  }

  /** The priority chain: a known habit, else a known task, else the
      free-text label, else "Untracked". An unknown habit id falls through. */
  function Classify(s: Session, habits: map<string, Named>, tasks: map<string, Named>): (a: Activity)
    ensures a.HabitActivity? <==> Truthy(s.habitId) && s.habitId.value in habits
    ensures a.HabitActivity? ==> a.id == s.habitId.value
    ensures a.TaskActivity? <==>
              !(Truthy(s.habitId) && s.habitId.value in habits) && Truthy(s.taskId) && s.taskId.value in tasks
    ensures a.TaskActivity? ==> a.id == s.taskId.value
    ensures a.Unnamed? ==> a.text == if Truthy(s.taskName) then s.taskName.value else Untracked
  {
    if Truthy(s.habitId) && s.habitId.value in habits then HabitActivity(s.habitId.value)
    else if Truthy(s.taskId) && s.taskId.value in tasks then TaskActivity(s.taskId.value)
    else if Truthy(s.taskName) then Unnamed(s.taskName.value)
    else Unnamed(Untracked)
  }

  /** A habit id with no habit behind it is as good as no habit id. */
  lemma UnknownHabitFallsThrough(s: Session, habits: map<string, Named>, tasks: map<string, Named>)
    requires s.habitId.Some? && s.habitId.value !in habits
    ensures Classify(s, habits, tasks) == Classify(s.(habitId := None), habits, tasks)
  {
  }

  /** A session labelled "Untracked" lands in the same bucket as a session
      with no label at all. */
  lemma UntrackedLabelShared(s: Session, habits: map<string, Named>, tasks: map<string, Named>)
    requires !(Truthy(s.habitId) && s.habitId.value in habits)
    requires !(Truthy(s.taskId) && s.taskId.value in tasks)
    ensures Classify(s.(taskName := Some(Untracked)), habits, tasks) == Classify(s.(taskName := None), habits, tasks)
  {
  }

  /** Habit and task activities only name known habits and tasks. */
  predicate Known(a: Activity, habits: map<string, Named>, tasks: map<string, Named>) {
    (a.HabitActivity? ==> a.id in habits) && (a.TaskActivity? ==> a.id in tasks)
  }

  datatype Kind = HabitKind | TaskKind | UnnamedKind

  /** One line of the result. */
  datatype ActivityRow = ActivityRow(activity: Activity, name: string, emoji: string, kind: Kind,
                                     totalMinutes: int, sessionCount: nat)
  {
    function Id(): string { Key(activity) }
  }

  function RowMinutes(r: ActivityRow): int { r.totalMinutes }
  function RowSessions(r: ActivityRow): int { r.sessionCount }
  function RowActivity(r: ActivityRow): Activity { r.activity }

  /** The name, emoji and kind recorded for an activity. */
  function RowOf(e: Entry<Activity>, habits: map<string, Named>, tasks: map<string, Named>): (r: ActivityRow)
    requires Known(e.key, habits, tasks)
    ensures r.activity == e.key && r.totalMinutes == e.total && r.sessionCount == e.count
    ensures r.kind == HabitKind <==> e.key.HabitActivity?
    ensures r.kind == TaskKind <==> e.key.TaskActivity?
  {
    match e.key
    case HabitActivity(id) =>
      ActivityRow(e.key, habits[id].name, habits[id].emoji, HabitKind, e.total, e.count)
    case TaskActivity(id) =>
      ActivityRow(e.key, tasks[id].name, tasks[id].emoji, TaskKind, e.total, e.count)
    case Unnamed(text) =>
      ActivityRow(e.key, text, Stopwatch, UnnamedKind, e.total, e.count)
  }

  function RowsOf(es: seq<Entry<Activity>>, habits: map<string, Named>, tasks: map<string, Named>): (rs: seq<ActivityRow>)
    requires forall i :: 0 <= i < |es| ==> Known(es[i].key, habits, tasks)
    ensures |rs| == |es|
    ensures forall i :: 0 <= i < |es| ==> rs[i] == RowOf(es[i], habits, tasks)
    ensures SumBy(rs, RowMinutes) == SumBy(es, TotalOf)
    ensures SumBy(rs, RowSessions) == SumBy(es, CountOf)
  {
    if |es| == 0 then []
    else
      var prefix := es[..|es| - 1];
      assert forall i :: 0 <= i < |prefix| ==> prefix[i] == es[i];
      var init := RowsOf(prefix, habits, tasks);
      var row := RowOf(es[|es| - 1], habits, tasks);
      assert es == prefix + [es[|es| - 1]];
      RowSums(prefix, es[|es| - 1], init, row);
      init + [row]
  }

  /** One more row carries the minutes and sessions of its bucket. */
  lemma RowSums(prefix: seq<Entry<Activity>>, e: Entry<Activity>, init: seq<ActivityRow>, row: ActivityRow)
    requires SumBy(init, RowMinutes) == SumBy(prefix, TotalOf) && SumBy(init, RowSessions) == SumBy(prefix, CountOf)
    requires row.totalMinutes == e.total && row.sessionCount == e.count
    ensures SumBy(init + [row], RowMinutes) == SumBy(prefix + [e], TotalOf)
    ensures SumBy(init + [row], RowSessions) == SumBy(prefix + [e], CountOf)
  {
    assert (init + [row])[..|init|] == init;
    assert (prefix + [e])[..|prefix|] == prefix;
  }

  // ---------------------------------------------------------------------
  // The period and the report
  // ---------------------------------------------------------------------

  /** The first day of the period: `period || "week"`, then 7 days back for
      "week", 30 for "month", and today for "day" or any other value. */
  function PeriodStart(period: Option<string>, today: int): (start: int)
    ensures start == today - 7 <==> !Truthy(period) || period.value == "week"
    ensures start == today - 30 <==> Truthy(period) && period.value == "month"
    ensures start == today <==> Truthy(period) && period.value != "week" && period.value != "month"
  {
    var p := if Truthy(period) then period.value else "week";
    if p == "week" then today - 7
    else if p == "month" then today - 30
    else today
  }

  function CompletedAt(s: Session): int { s.completedAt }

  /** A work session completed from midnight of day `first` up to `now`. */
  predicate InPeriod(s: Session, first: int, now: int) {
    s.mode == "work" && StartOf(first) <= s.completedAt <= now
  }

  /** The work sessions from midnight of the first day up to now, most
      recent first; sessions completed at the same instant keep their
      stored order. */
  function InWindow(sessions: seq<Session>, first: int, now: int): (r: seq<Session>)
    ensures forall i :: 0 <= i < |r| ==> InPeriod(r[i], first, now) && r[i] in sessions
    ensures forall i :: 0 <= i < |sessions| ==> (InPeriod(sessions[i], first, now) ==> sessions[i] in r)
    ensures multiset(r) == multiset(Filter(sessions, (s: Session) => InPeriod(s, first, now)))
    ensures SortedDesc(r, CompletedAt)
  {
    var kept := Filter(sessions, (s: Session) => InPeriod(s, first, now));
    var r := SortDesc(kept, CompletedAt);
    KeepsAll(kept, r, (s: Session) => InPeriod(s, first, now) && s in sessions);
    assert forall x :: x in kept ==> x in r by {
      assert forall x :: x in kept ==> x in multiset(r);
    }
    r
  }

  function ItemOf(s: Session, habits: map<string, Named>, tasks: map<string, Named>): Item<Activity> {
    (Classify(s, habits, tasks), s.duration)
  }

  /** Each session as an (activity, minutes) pair. */
  function ItemsOf(win: seq<Session>, habits: map<string, Named>, tasks: map<string, Named>): (items: seq<Item<Activity>>)
    ensures |items| == |win|
    ensures forall i :: 0 <= i < |win| ==> items[i] == ItemOf(win[i], habits, tasks)
    ensures SumBy(items, ItemAmount) == SumBy(win, Duration)
  {
    var items := seq(|win|, i requires 0 <= i < |win| => ItemOf(win[i], habits, tasks));
    DurationSum(win, items);
    items
  }

  /** Pairs that carry the sessions' minutes carry their total. */
  lemma {:induction false} DurationSum<K>(sessions: seq<Session>, items: seq<Item<K>>)
    requires |items| == |sessions|
    requires forall i :: 0 <= i < |items| ==> items[i].1 == sessions[i].duration
    ensures SumBy(items, ItemAmount) == SumBy(sessions, Duration)
  {
    if |items| > 0 {
      DurationSum(sessions[..|sessions| - 1], items[..|items| - 1]);
    }
  }

  datatype Report = Report(totalMinutes: int, totalSessions: nat, activities: seq<ActivityRow>)

  /** One row per activity, in the order the activities first appear. */
  function Buckets(win: seq<Session>, habits: map<string, Named>, tasks: map<string, Named>): (rows: seq<ActivityRow>)
    ensures SumBy(rows, RowMinutes) == SumBy(win, Duration)
    ensures SumBy(rows, RowSessions) == |win|
    ensures DistinctBy(rows, RowActivity)
    ensures forall i :: 0 <= i < |rows| ==> Known(rows[i].activity, habits, tasks)
    ensures forall i :: 0 <= i < |rows| ==>
              rows[i].totalMinutes == AmountFor(ItemsOf(win, habits, tasks), rows[i].activity)
  {
    var items := ItemsOf(win, habits, tasks);
    var es := AddAll([], items);
    assert forall i :: 0 <= i < |es| ==> Known(es[i].key, habits, tasks) by {
      ClassifiedKnown(items, win, habits, tasks);
      KeysContains(es);
    }
    var rows := RowsOf(es, habits, tasks);
    assert SumBy(rows, RowMinutes) == SumBy(win, Duration) && SumBy(rows, RowSessions) == |win| by {
      assert SumBy(es, TotalOf) == SumBy(items, ItemAmount) && SumBy(es, CountOf) == |items|;
    }
    RowsFacts(es, items, rows, habits, tasks);
    rows
  }

  lemma RowsFacts(es: seq<Entry<Activity>>, items: seq<Item<Activity>>, rows: seq<ActivityRow>,
                  habits: map<string, Named>, tasks: map<string, Named>)
    requires DistinctKeys(es)
    requires forall k :: TotalFor(es, k) == AmountFor(items, k)
    requires |rows| == |es|
    requires forall i :: 0 <= i < |es| ==> rows[i].activity == es[i].key && rows[i].totalMinutes == es[i].total
    ensures DistinctBy(rows, RowActivity)
    ensures forall i :: 0 <= i < |rows| ==> rows[i].totalMinutes == AmountFor(items, rows[i].activity)
  {
    DistinctKeysPairwise(es);
    forall p | 0 <= p < |es|
      ensures rows[p].totalMinutes == AmountFor(items, rows[p].activity)
    {
      DistinctTotalFor(es, p);
    }
  }

  /** The buckets, longest total first. */
  function Activities(win: seq<Session>, habits: map<string, Named>, tasks: map<string, Named>): (rows: seq<ActivityRow>)
    ensures SumBy(rows, RowMinutes) == SumBy(win, Duration)
    ensures SumBy(rows, RowSessions) == |win|
    ensures SortedDesc(rows, RowMinutes)
    ensures DistinctBy(rows, RowActivity)
    ensures forall i :: 0 <= i < |rows| ==> Known(rows[i].activity, habits, tasks)
    ensures forall i :: 0 <= i < |rows| ==>
              rows[i].totalMinutes == AmountFor(ItemsOf(win, habits, tasks), rows[i].activity)
  {
    var buckets := Buckets(win, habits, tasks);
    var sorted := SortDesc(buckets, RowMinutes);
    KeepsDistinct(buckets, sorted, RowActivity);
    SumByPermutation(sorted, buckets, RowMinutes);
    SumByPermutation(sorted, buckets, RowSessions);
    KeepsAll(buckets, sorted, (r: ActivityRow) =>
      Known(r.activity, habits, tasks) && r.totalMinutes == AmountFor(ItemsOf(win, habits, tasks), r.activity));
    sorted
  }

  /** The handler's response for the sessions, habits and tasks of one user. */
  function PomodoroStats(sessions: seq<Session>, habits: map<string, Named>, tasks: map<string, Named>,
                         period: Option<string>, now: int): (r: Report)
    ensures var win := InWindow(sessions, PeriodStart(period, DayOf(now)), now);
            r.totalMinutes == SumBy(win, Duration) && r.totalSessions == |win|
            && r.activities == Activities(win, habits, tasks)
    ensures SumBy(r.activities, RowMinutes) == r.totalMinutes
    ensures SumBy(r.activities, RowSessions) == r.totalSessions
  {
    var win := InWindow(sessions, PeriodStart(period, DayOf(now)), now);
    Report(SumBy(win, Duration), |win|, Activities(win, habits, tasks))
  }

  /** Two habits with 25 minutes each: the one worked on most recently is
      listed first, although its session was stored last. */
  lemma NewerFirstOnTie()
    ensures var older := Session("work", 25, Some("h1"), None, None, 1000);
            var newer := Session("work", 25, Some("h2"), None, None, 2000);
            var habits := map["h1" := Named("Read", "📚"), "h2" := Named("Run", "🏃")];
            var r := PomodoroStats([older, newer], habits, map[], Some("day"), 3000);
            |r.activities| == 2
            && r.activities[0].activity == HabitActivity("h2")
            && r.activities[1].activity == HabitActivity("h1")
  {
    var older := Session("work", 25, Some("h1"), None, None, 1000);
    var newer := Session("work", 25, Some("h2"), None, None, 2000);
    var habits := map["h1" := Named("Read", "📚"), "h2" := Named("Run", "🏃")];
    assert PeriodStart(Some("day"), DayOf(3000)) == 0 by {
      assert DayOf(3000) == 0;
    }
    TieWindow(older, newer);
    TieActivities(newer, older, habits);
  }

  lemma TieWindow(older: Session, newer: Session)
    requires older == Session("work", 25, Some("h1"), None, None, 1000)
    requires newer == Session("work", 25, Some("h2"), None, None, 2000)
    ensures InWindow([older, newer], 0, 3000) == [newer, older]
  {
    TieFilter(older, newer);
    TwoInOrder(InWindow([older, newer], 0, 3000), newer, older);
  }

  /** Two sessions completed at different instants, newest first. */
  lemma TwoInOrder(s: seq<Session>, a: Session, b: Session)
    requires |s| == 2 && multiset(s) == multiset{b, a}
    requires SortedDesc(s, CompletedAt) && a.completedAt > b.completedAt
    ensures s == [a, b]
  {
    assert s == [s[0]] + [s[1]];
    assert s[0] in multiset(s);
  }

  lemma TieFilter(older: Session, newer: Session)
    requires older == Session("work", 25, Some("h1"), None, None, 1000)
    requires newer == Session("work", 25, Some("h2"), None, None, 2000)
    ensures Filter([older, newer], (s: Session) => InPeriod(s, 0, 3000)) == [older, newer]
  {
    assert StartOf(0) == 0;
    var p := (s: Session) => InPeriod(s, 0, 3000);
    assert p(older) && p(newer);
    assert [older, newer][..1] == [older];
    assert [older][..0] == [];
    assert Filter([older], p) == [older];
  }

  lemma TieActivities(newer: Session, older: Session, habits: map<string, Named>)
    requires older == Session("work", 25, Some("h1"), None, None, 1000)
    requires newer == Session("work", 25, Some("h2"), None, None, 2000)
    requires habits == map["h1" := Named("Read", "📚"), "h2" := Named("Run", "🏃")]
    ensures var rows := Activities([newer, older], habits, map[]);
            |rows| == 2 && rows[0].activity == HabitActivity("h2") && rows[1].activity == HabitActivity("h1")
  {
    TieBuckets(newer, older, habits);
    var buckets := Buckets([newer, older], habits, map[]);
    SortDescKeepsSorted(buckets, RowMinutes);
  }

  lemma TieBuckets(newer: Session, older: Session, habits: map<string, Named>)
    requires older == Session("work", 25, Some("h1"), None, None, 1000)
    requires newer == Session("work", 25, Some("h2"), None, None, 2000)
    requires habits == map["h1" := Named("Read", "📚"), "h2" := Named("Run", "🏃")]
    ensures var b := Buckets([newer, older], habits, map[]);
            |b| == 2 && b[0].activity == HabitActivity("h2") && b[1].activity == HabitActivity("h1")
            && b[0].totalMinutes == b[1].totalMinutes
  {
    var items := ItemsOf([newer, older], habits, map[]);
    assert items == [(HabitActivity("h2"), 25), (HabitActivity("h1"), 25)];
    var es := AddAll([], items);
    assert es == [Entry(HabitActivity("h2"), 25, 1), Entry(HabitActivity("h1"), 25, 1)] by {
      assert items[..1] == [(HabitActivity("h2"), 25)];
      assert AddAll([], items[..1]) == [Entry(HabitActivity("h2"), 25, 1)] by {
        assert items[..1][..0] == [];
      }
      assert HabitActivity("h1") != HabitActivity("h2");
    }
  }

  lemma {:induction false} ClassifiedKnown(items: seq<Item<Activity>>, win: seq<Session>,
                                           habits: map<string, Named>, tasks: map<string, Named>)
    requires |items| == |win|
    requires forall i :: 0 <= i < |win| ==> items[i] == ItemOf(win[i], habits, tasks)
    ensures forall a :: a in ItemKeys(items) ==> Known(a, habits, tasks)
    decreases |items|
  {
    if |items| > 0 {
      ClassifiedKnown(items[..|items| - 1], win[..|win| - 1], habits, tasks);
    }
  }
}

=== FILE: habit_stats.dfy ===
/** Per-habit completion rates, trends and the overall rate of the statistics
    handler (src/app/api/stats/route.ts). A habit's completions are the set
    of days on which it was completed: the store keeps at most one
    completion per habit and day. */
module HabitStats {
  import opened Wrappers
  import opened Numbers
  import opened Sorting
  import opened Calendar
  import opened Schedule
  import opened StatsWindow

  /** The fields of an active habit that the statistics read. */
  datatype Habit = Habit(id: string, name: string, emoji: string, identity: Option<string>,
                         rule: Rule, done: set<int>)

  datatype HabitStat = HabitStat(id: string, name: string, emoji: string, identity: Option<string>,
                                 completedDays: nat, expectedDays: int, completionRate: int, trend: int)

  /** Completions on or after day `start` (`date: { gte: startDate }`; there
      is no upper bound). */
  function CompletedSince(done: set<int>, start: int): set<int> {
    set d | d in done && start <= d
  }

  /** Completions from day `a` to day `b` inclusive (`gte`, `lte`). */
  function CompletedWithin(done: set<int>, a: int, b: int): set<int> {
    set d | d in done && a <= d <= b
  }

  /** A set of days inside `a..b` has at most `b - a + 1` elements. */
  lemma {:induction false} IntervalCard(s: set<int>, a: int, b: int)
    requires a <= b + 1
    requires forall d :: d in s ==> a <= d <= b
    ensures |s| <= b - a + 1
    decreases b - a
  {
    if a <= b {
      IntervalCard(s - {b}, a, b - 1);
    } else {
      assert forall d :: d !in s;
      assert s == {};
    }
  }

  // ---------------------------------------------------------------------
  // Expected occurrences in the previous period
  // ---------------------------------------------------------------------

  /** `countExpectedDays(..., previousStartDate, previousEndDate)` as the
      handler computes it: both bounds are midnights, so the day difference
      leaves out the last day of the period, while the completion count
      (`lte: previousEndDate`) includes it. */
  function PrevExpectedAsWritten(rule: Rule, w: Window): int {
    CountExpectedDays(rule, StartOf(w.prevStart), StartOf(w.prevEnd))
  }

  /** The expected occurrences over the whole previous period, last day
      included: the period is measured up to the last millisecond of
      `previousEndDate`. This is the count StatForCorrected uses. */
  function PrevExpected(rule: Rule, w: Window): (e: int)
    ensures w.prevStart <= w.prevEnd && !rule.frequency.XPerWeek? ==>
              e == ScheduledDaysIn(rule, w.prevStart, w.prevEnd - w.prevStart + 1)
  {
    var start := StartOf(w.prevStart);
    var end := StartOf(w.prevEnd + 1) - 1;
    var e := CountExpectedDays(rule, start, end);
    if w.prevStart <= w.prevEnd && !rule.frequency.XPerWeek? then
      WholeDaysExpected(rule, w.prevStart, w.prevEnd);
      e
    else
      e
  }

  lemma WholeDaysExpected(rule: Rule, a: int, b: int)
    requires a <= b && !rule.frequency.XPerWeek?
    ensures CountExpectedDays(rule, StartOf(a), StartOf(b + 1) - 1) == ScheduledDaysIn(rule, a, b - a + 1)
  {
    var end := StartOf(b + 1) - 1;
    assert DayOf(end) == b;
    VisitsFromMidnight(a, end);
    DaysDiffFromMidnight(a, end);
    assert DayOf(StartOf(a)) == a;
    if rule.frequency.Daily? || rule.frequency.Other? {
      EveryDayDue(rule, a, b - a + 1);
    } else {
      ExpectedCountsDueDays(rule, StartOf(a), end);
    }
  }

  lemma {:induction false} EveryDayDue(rule: Rule, first: int, n: nat)
    requires rule.frequency.Daily? || rule.frequency.Other? || rule.frequency.XPerWeek?
    ensures ScheduledDaysIn(rule, first, n) == n
  {
    if n > 0 {
      EveryDayDue(rule, first, n - 1);
    }
  }

  /** The two definitions agree for the rules that count days with a loop:
      the loops already visit the last midnight. */
  lemma LoopRulesAgree(rule: Rule, w: Window)
    requires w.prevStart <= w.prevEnd
    requires rule.frequency.Weekdays? || rule.frequency.Weekends? || rule.frequency.SpecificDays?
    ensures PrevExpectedAsWritten(rule, w) == PrevExpected(rule, w)
  {
    var n := w.prevEnd - w.prevStart + 1;
    ExpectedCountsDueDays(rule, StartOf(w.prevStart), StartOf(w.prevEnd));
    VisitsFromMidnight(w.prevStart, StartOf(w.prevEnd));
    assert DayOf(StartOf(w.prevStart)) == w.prevStart;
  }

  /** As written, a DAILY habit completed on each of the seven days of the
      previous week is expected on 6 of them, counted on all 7, and scores
      117% for that week: its trend is its current rate minus 117. */
  lemma PrevWeekAsWritten(h: Habit, now: Instant)
    requires now.Valid()
    requires h.rule == Rule(Daily, [], None)
    requires forall d :: WindowFor(Week, now).prevStart <= d <= WindowFor(Week, now).prevEnd ==> d in h.done
    ensures var w := WindowFor(Week, now);
            PrevExpectedAsWritten(h.rule, w) == 6
            && |CompletedWithin(h.done, w.prevStart, w.prevEnd)| == 7
            && StatFor(h, w, now.Time()).trend == StatFor(h, w, now.Time()).completionRate - 117
  {
    var w := WindowFor(Week, now);
    assert w.prevEnd == w.prevStart + 6;
    FullWeek(h.done, w.prevStart);
    DailyWeekAsWritten(w.prevStart);
  }

  /** With the whole last day counted, the same perfect week scores 100%. */
  lemma PrevWeekCorrected(h: Habit, now: Instant)
    requires now.Valid()
    requires h.rule == Rule(Daily, [], None)
    requires forall d :: WindowFor(Week, now).prevStart <= d <= WindowFor(Week, now).prevEnd ==> d in h.done
    ensures var w := WindowFor(Week, now);
            PrevExpected(h.rule, w) == 7
            && StatForCorrected(h, w, now.Time()).trend == StatForCorrected(h, w, now.Time()).completionRate - 100
  {
    var w := WindowFor(Week, now);
    assert w.prevEnd == w.prevStart + 6;
    FullWeek(h.done, w.prevStart);
    EveryDayDue(h.rule, w.prevStart, 7);
    assert Rate(7, 7) == 100;
  }

  /** Completions on each of the seven days from day `s` count seven. */
  lemma FullWeek(done: set<int>, s: int)
    requires forall d :: s <= d <= s + 6 ==> d in done
    ensures |CompletedWithin(done, s, s + 6)| == 7
  {
    var week := {s, s + 1, s + 2, s + 3, s + 4, s + 5, s + 6};
    assert CompletedWithin(done, s, s + 6) == week;
  }

  /** The previous-week numbers for the seven days from day `s`. */
  lemma DailyWeekAsWritten(s: int)
    ensures CountExpectedDays(Rule(Daily, [], None), StartOf(s), StartOf(s + 6)) == 6
    ensures Rate(7, 6) == 117
  {
    assert DaysDiff(StartOf(s), StartOf(s + 6)) == 6;
  }

  /** With the whole last day counted, a DAILY (or unrecognised) habit can
      never score above 100% for the previous period, whatever its
      completions. */
  lemma PrevRateWithinPercent(rule: Rule, w: Window, done: set<int>)
    requires w.prevStart <= w.prevEnd
    requires rule.frequency.Daily? || rule.frequency.Other?
    ensures 0 <= Rate(|CompletedWithin(done, w.prevStart, w.prevEnd)|, PrevExpected(rule, w)) <= 100
  {
    var n := w.prevEnd - w.prevStart + 1;
    EveryDayDue(rule, w.prevStart, n);
    IntervalCard(CompletedWithin(done, w.prevStart, w.prevEnd), w.prevStart, w.prevEnd);
    RateWithinPercent(|CompletedWithin(done, w.prevStart, w.prevEnd)|, n);
  }

  // ---------------------------------------------------------------------
  // Per-habit figures, order and overall rate
  // ---------------------------------------------------------------------

  /** The figures for one habit as the handler computes them, with `now`
      the current instant: the previous rate divides by the as-written
      previous-period count. */
  function StatFor(h: Habit, w: Window, now: int): (s: HabitStat)
    ensures s.id == h.id && s.name == h.name && s.emoji == h.emoji && s.identity == h.identity
    ensures s.completedDays == |CompletedSince(h.done, w.start)|
    ensures s.expectedDays == CountExpectedDays(h.rule, StartOf(w.start), now)
    ensures s.expectedDays <= 0 ==> s.completionRate == 0
    ensures s.expectedDays > 0 ==>
              2 * s.expectedDays * s.completionRate <= 200 * s.completedDays + s.expectedDays
                < 2 * s.expectedDays * (s.completionRate + 1)
    ensures s.completionRate - s.trend
              == Rate(|CompletedWithin(h.done, w.prevStart, w.prevEnd)|, PrevExpectedAsWritten(h.rule, w))
  {
    var expected := CountExpectedDays(h.rule, StartOf(w.start), now);
    var completed := |CompletedSince(h.done, w.start)|;
    var rate := Rate(completed, expected);
    var prevRate := Rate(|CompletedWithin(h.done, w.prevStart, w.prevEnd)|, PrevExpectedAsWritten(h.rule, w));
    HabitStat(h.id, h.name, h.emoji, h.identity, completed, expected, rate, rate - prevRate)
  }

  /** The figures with the previous period counted whole, last day included. */
  function StatForCorrected(h: Habit, w: Window, now: int): (s: HabitStat)
    ensures s.id == h.id && s.name == h.name && s.emoji == h.emoji && s.identity == h.identity
    ensures s.completedDays == |CompletedSince(h.done, w.start)|
    ensures s.expectedDays == CountExpectedDays(h.rule, StartOf(w.start), now)
    ensures s.expectedDays <= 0 ==> s.completionRate == 0
    ensures s.expectedDays > 0 ==>
              2 * s.expectedDays * s.completionRate <= 200 * s.completedDays + s.expectedDays
                < 2 * s.expectedDays * (s.completionRate + 1)
    ensures s.completionRate - s.trend
              == Rate(|CompletedWithin(h.done, w.prevStart, w.prevEnd)|, PrevExpected(h.rule, w))
  {
    var stat := StatFor(h, w, now);
    var prevRate := Rate(|CompletedWithin(h.done, w.prevStart, w.prevEnd)|, PrevExpected(h.rule, w));
    stat.(trend := stat.completionRate - prevRate)
  }

  /** The two computations differ only in the trend, and only for the
      rules whose count does not loop over the days: for WEEKDAYS, WEEKENDS
      and SPECIFIC_DAYS they agree on every field. */
  lemma StatForLoopRulesAgree(h: Habit, w: Window, now: int)
    requires w.prevStart <= w.prevEnd
    requires h.rule.frequency.Weekdays? || h.rule.frequency.Weekends? || h.rule.frequency.SpecificDays?
    ensures StatForCorrected(h, w, now) == StatFor(h, w, now)
  {
    LoopRulesAgree(h.rule, w);
  }

  function RateOf(s: HabitStat): int { s.completionRate }
  function CompletedOf(s: HabitStat): int { s.completedDays }
  function ExpectedOf(s: HabitStat): int { s.expectedDays }

  /** `habitStats`, best completion rate first. */
  function StatsByHabit(habits: seq<Habit>, w: Window, now: int): (r: seq<HabitStat>)
    ensures SortedDesc(r, RateOf)
    ensures multiset(r) == multiset(MapSeq(habits, h => StatFor(h, w, now)))
    ensures |r| == |habits|
  {
    SortDesc(MapSeq(habits, h => StatFor(h, w, now)), RateOf)
  }

  datatype Overall = Overall(totalCompleted: int, totalExpected: int, overallRate: int)

  /** `totalExpected`, `totalCompleted` and `overallRate`. */
  function OverallOf(stats: seq<HabitStat>): (o: Overall)
    ensures o.totalCompleted == SumBy(stats, CompletedOf)
    ensures o.totalExpected == SumBy(stats, ExpectedOf)
    ensures o.totalExpected <= 0 ==> o.overallRate == 0
    ensures o.totalExpected > 0 ==>
              2 * o.totalExpected * o.overallRate <= 200 * o.totalCompleted + o.totalExpected
                < 2 * o.totalExpected * (o.overallRate + 1)
  {
    var expected := SumBy(stats, ExpectedOf);
    var completed := SumBy(stats, CompletedOf);
    Overall(completed, expected, Rate(completed, expected))
  }

  /** Sorting before summing does not change the overall figures. */
  lemma OverallIgnoresOrder(habits: seq<Habit>, w: Window, now: int)
    ensures OverallOf(StatsByHabit(habits, w, now)) == OverallOf(MapSeq(habits, h => StatFor(h, w, now)))
  {
    var plain := MapSeq(habits, h => StatFor(h, w, now));
    var sorted := StatsByHabit(habits, w, now);
    SumByPermutation(sorted, plain, CompletedOf);
    SumByPermutation(sorted, plain, ExpectedOf);
  }

  /** With no habits every figure is 0. */
  lemma NoHabitsOverall()
    ensures OverallOf([]) == Overall(0, 0, 0)
  {
  }

  /** When no habit has more completions than expected occurrences, the
      overall rate stays within 0..100. */
  lemma OverallWithinPercent(stats: seq<HabitStat>)
    requires forall i :: 0 <= i < |stats| ==> stats[i].completedDays <= stats[i].expectedDays
    ensures 0 <= OverallOf(stats).overallRate <= 100
  {
    SumByLe(stats, CompletedOf, ExpectedOf);
    SumByNonNegative(stats, CompletedOf);
    RateWithinPercent(SumBy(stats, CompletedOf), SumBy(stats, ExpectedOf));
  }

  lemma {:induction false} SumByLe<T>(s: seq<T>, f: T -> int, g: T -> int)
    requires forall i :: 0 <= i < |s| ==> f(s[i]) <= g(s[i])
    ensures SumBy(s, f) <= SumBy(s, g)
    decreases |s|
  {
    if |s| > 0 {
      SumByLe(s[..|s| - 1], f, g);
    }
  }
}

=== FILE: habits.dfy ===
/** The habit list and habit creation (src/app/api/habits/route.ts). GET
    lists the user's active habits by display position; POST validates the
    name and the linked identity and appends the habit after every position
    the user has used. The store is the habit table in insertion order. */
module Habits {
  import opened Wrappers
  import opened Numbers
  import opened Sorting
  import opened Records

  datatype Habit = Habit(id: string, userId: string, name: string, emoji: string, order: int,
                         isActive: bool, identityId: Option<string>, fullDescription: Option<string>,
                         recoveryDescription: Option<string>, minimalDescription: Option<string>)

  const DefaultEmoji: string := "✅"

  function OrderOf(h: Habit): int { h.order }

  /** The GET filter: the user's habits that were not deleted. */
  function Listed(user: string): Habit -> bool {
    (h: Habit) => h.userId == user && h.isActive
  }

  /** GET: the user's active habits, ascending by display position. */
  function HabitsGet(store: seq<Habit>, user: string): (r: seq<Habit>)
    ensures forall i :: 0 <= i < |r| ==> r[i] in store && r[i].userId == user && r[i].isActive
    ensures forall i :: 0 <= i < |store| && store[i].userId == user && store[i].isActive ==> store[i] in r
    ensures SortedAsc(r, OrderOf)
    ensures multiset(r) == multiset(Filter(store, Listed(user)))
  {
    Listing(store, Listed(user), OrderOf)
  }

  /** The display positions of every habit of the user, deleted ones
      included (the aggregate does not filter on the active flag). */
  function UserOrders(store: seq<Habit>, user: string): (orders: seq<int>)
    ensures forall i :: 0 <= i < |store| && store[i].userId == user ==> store[i].order in orders
    ensures forall k :: 0 <= k < |orders| ==> exists i :: 0 <= i < |store| && store[i].userId == user && store[i].order == orders[k]
  {
    if |store| == 0 then []
    else
      var prev := UserOrders(store[..|store| - 1], user);
      var last := store[|store| - 1];
      assert forall i :: 0 <= i < |store| - 1 ==> store[..|store| - 1][i] == store[i];
      if last.userId == user then prev + [last.order] else prev
  }

  /** The POST body's fields; `None` for absent or `null`. */
  datatype HabitInput = HabitInput(name: TextField, emoji: TextField, identityId: TextField,
                                   fullDescription: TextField, recoveryDescription: TextField,
                                   minimalDescription: TextField)

  /** POST: 400 without a name, 404 for an identity the user does not own,
      otherwise a new active habit placed after all of the user's habits. */
  function HabitsPost(store: seq<Habit>, identities: seq<Identity>, user: string, input: HabitInput,
                      freshId: string): (r: Result<(seq<Habit>, Habit)>)
    ensures r.Err? <==> !Truthy(input.name) || (Truthy(input.identityId) && !OwnsIdentity(identities, user, input.identityId.value))
    ensures !Truthy(input.name) ==> r.Err? && r.error.status == 400
    ensures Truthy(input.name) && r.Err? ==> r.error.status == 404
    ensures r.Ok? ==> r.value.0 == store + [r.value.1]
    ensures r.Ok? ==> var h := r.value.1;
              h.id == freshId && h.userId == user && h.name == input.name.value && h.isActive
              && h.emoji == OrDefault(input.emoji, DefaultEmoji)
              && h.identityId == OrNull(input.identityId)
              && h.fullDescription == OrNull(input.fullDescription)
              && h.recoveryDescription == OrNull(input.recoveryDescription)
              && h.minimalDescription == OrNull(input.minimalDescription)
    ensures r.Ok? ==> forall i :: 0 <= i < |store| && store[i].userId == user ==> store[i].order < r.value.1.order
    ensures r.Ok? && (forall i :: 0 <= i < |store| ==> store[i].userId != user) ==> r.value.1.order == 0
    ensures r.Ok? && (exists i :: 0 <= i < |store| && store[i].userId == user) ==>
              exists i :: 0 <= i < |store| && store[i].userId == user && r.value.1.order == store[i].order + 1
  {
    if !Truthy(input.name) then Err(HttpError(400, "Name is required"))
    else if Truthy(input.identityId) && !OwnsIdentity(identities, user, input.identityId.value) then
      Err(HttpError(404, "Identity not found"))
    else
      var h := Habit(freshId, user, input.name.value, OrDefault(input.emoji, DefaultEmoji),
                     NextOrder(UserOrders(store, user)), true, OrNull(input.identityId),
                     OrNull(input.fullDescription), OrNull(input.recoveryDescription),
                     OrNull(input.minimalDescription));
      Ok((store + [h], h))
  }

  /** A new habit shows up at the end of the creator's list, after the
      habits that were listed before. */
  lemma PostThenGet(store: seq<Habit>, identities: seq<Identity>, user: string, input: HabitInput, freshId: string)
    requires HabitsPost(store, identities, user, input, freshId).Ok?
    ensures var (next, h) := HabitsPost(store, identities, user, input, freshId).value;
            var r := HabitsGet(next, user);
            |r| == |HabitsGet(store, user)| + 1 && r[|r| - 1] == h
            && multiset(r[..|r| - 1]) == multiset(HabitsGet(store, user))
  {
    var (next, h) := HabitsPost(store, identities, user, input, freshId).value;
    AppendGreatest(store, h, Listed(user), OrderOf);
  }

  /** Creating a habit leaves every other user's list as it was. */
  lemma PostKeepsOthers(store: seq<Habit>, identities: seq<Identity>, user: string, input: HabitInput,
                        freshId: string, other: string)
    requires other != user
    requires HabitsPost(store, identities, user, input, freshId).Ok?
    ensures HabitsGet(HabitsPost(store, identities, user, input, freshId).value.0, other) == HabitsGet(store, other)
  {
    var h := HabitsPost(store, identities, user, input, freshId).value.1;
    AppendUnlisted(store, h, Listed(other), OrderOf);
  }
}

=== FILE: js.dfy ===
/** The JSON values a request body can carry, and JavaScript truthiness on
    them. Numbers are integers here. */
module Js {

  datatype JsValue =
    | Undefined
    | Null
    | Bool(b: bool)
    | Num(n: int)
    | Str(s: string)
    | Arr(items: seq<JsValue>)
    | Obj

  /** `!!v`: `undefined`, `null`, `false`, `0` and `""` are falsy. */
  predicate JsTruthy(v: JsValue) {
    match v
    case Undefined => false
    case Null => false
    case Bool(b) => b
    case Num(n) => n != 0
    case Str(s) => s != ""
    case Arr(_) => true
    case Obj => true
  }
}

=== FILE: numbers.dfy ===
/** Integer helpers shared by the handlers: the rounded percentage that the
    source computes as `Math.round((part / whole) * 100)`, sums over
    sequences, and decimal digit strings (`n.toString()`, `padStart`,
    `parseInt`). */
module Numbers {
  import opened Wrappers

  // ---------------------------------------------------------------------
  // Rounded percentages
  // ---------------------------------------------------------------------

  /** `Math.round(part / whole * 100)` computed exactly: the integer nearest
      to 100*part/whole, halves rounded up. */
  function RoundedPercent(part: int, whole: int): (r: int)
    requires whole > 0
    ensures 2 * whole * r <= 200 * part + whole < 2 * whole * (r + 1)
  {
    var q := (200 * part + whole) / (2 * whole);
    DivBounds(200 * part + whole, 2 * whole);
    q
  }

  /** The `expected > 0 ? Math.round(done / expected * 100) : 0` guard that
      every rate in the source uses. */
  function Rate(done: int, expected: int): (r: int)
    ensures expected <= 0 ==> r == 0
    ensures expected > 0 ==> 2 * expected * r <= 200 * done + expected < 2 * expected * (r + 1)
  {
    if expected > 0 then RoundedPercent(done, expected) else 0
  }

  /** `Math.round(a / b)` computed exactly for b > 0: the integer nearest to
      a/b, halves rounded up. */
  function RoundedDiv(a: int, b: int): (r: int)
    requires b > 0
    ensures 2 * b * r <= 2 * a + b < 2 * b * (r + 1)
  {
    DivBounds(2 * a + b, 2 * b);
    (2 * a + b) / (2 * b)
  }

  lemma DivBounds(a: int, b: int)
    requires b > 0
    ensures b * (a / b) <= a < b * (a / b + 1)
  {
  }

  /** A rate never leaves 0..100 while the numerator stays within the
      denominator. */
  lemma RateWithinPercent(done: int, expected: int)
    requires 0 <= done <= expected
    ensures 0 <= Rate(done, expected) <= 100
  {
    if expected > 0 {
      var r := Rate(done, expected);
      MulMonotone(2 * expected, r, 100);
      MulMonotone(2 * expected, 0, r + 1);
    }
  }

  /** Doing everything that was expected rates exactly 100. */
  lemma RateFull(n: int)
    requires n > 0
    ensures Rate(n, n) == 100
  {
    var r := Rate(n, n);
    MulMonotone(2 * n, r, 100);
    MulMonotone(2 * n, 100, r);
  }

  /** Multiplication by a non-negative factor is monotone; stated as an
      implication so that it can be applied before the case is known. */
  lemma MulMonotone(a: int, b: int, c: int)
    requires a >= 0
    ensures b > c ==> a * b >= a * (c + 1)
  {
    if b > c {
      assert a * b == a * (c + 1) + a * (b - c - 1);
    }
  }

  // ---------------------------------------------------------------------
  // Sums
  // ---------------------------------------------------------------------

  /** The sum of `f` over the elements of `s` (the source's
      `reduce((sum, x) => sum + f(x), 0)`). */
  function SumBy<T>(s: seq<T>, f: T -> int): int
  {
    if |s| == 0 then 0 else SumBy(s[..|s| - 1], f) + f(s[|s| - 1])
  }

  lemma {:induction false} SumByAppend<T>(a: seq<T>, b: seq<T>, f: T -> int)
    ensures SumBy(a + b, f) == SumBy(a, f) + SumBy(b, f)
    decreases |b|
  {
    if |b| == 0 {
      assert a + b == a;
    } else {
      assert (a + b)[..|a + b| - 1] == a + b[..|b| - 1];
      SumByAppend(a, b[..|b| - 1], f);
    }
  }

  /** A sum does not depend on the order of its terms. */
  lemma {:induction false} SumByPermutation<T>(s: seq<T>, r: seq<T>, f: T -> int)
    requires multiset(s) == multiset(r)
    ensures SumBy(s, f) == SumBy(r, f)
    decreases |s|
  {
    if |s| == 0 {
      assert |r| == |multiset(r)| == 0;
    } else {
      var x := s[|s| - 1];
      assert x in multiset(r);
      var i :| 0 <= i < |r| && r[i] == x;
      var rest := r[..i] + r[i + 1..];
      assert r == r[..i] + [x] + r[i + 1..];
      assert s == s[..|s| - 1] + [x];
      assert multiset(s[..|s| - 1]) == multiset(rest) by {
        calc {
          multiset(s[..|s| - 1]) + multiset{x};
          multiset(s[..|s| - 1] + [x]);
          multiset(r);
          multiset(r[..i] + [x] + r[i + 1..]);
          multiset(r[..i]) + multiset{x} + multiset(r[i + 1..]);
        }
        assert multiset(rest) == multiset(r[..i]) + multiset(r[i + 1..]);
        assert multiset(rest) == multiset(r) - multiset{x};
        assert multiset(s[..|s| - 1]) == multiset(s) - multiset{x};
      }
      SumByPermutation(s[..|s| - 1], rest, f);
      SumByAppend(r[..i] + [x], r[i + 1..], f);
      SumByAppend(r[..i], [x], f);
      SumByAppend(r[..i], r[i + 1..], f);
      assert SumBy([x], f) == f(x) by {
        assert [x][..0] == [];
      }
    }
  }

  /** Terms that agree pointwise give the same sum. */
  lemma {:induction false} SumByPointwise<T>(s: seq<T>, f: T -> int, g: T -> int)
    requires forall i :: 0 <= i < |s| ==> f(s[i]) == g(s[i])
    ensures SumBy(s, f) == SumBy(s, g)
    decreases |s|
  {
    if |s| > 0 {
      SumByPointwise(s[..|s| - 1], f, g);
    }
  }

  /** `s.map(f)`. */
  function MapSeq<A, B>(s: seq<A>, f: A -> B): (r: seq<B>)
    ensures |r| == |s|
    ensures forall i :: 0 <= i < |s| ==> r[i] == f(s[i])
  {
    seq(|s|, i requires 0 <= i < |s| => f(s[i]))
  }

  /** Summing over a mapped sequence is summing the composed function. */
  lemma {:induction false} SumByMapSeq<A, B>(s: seq<A>, g: A -> B, f: B -> int)
    ensures SumBy(MapSeq(s, g), f) == SumBy(s, x => f(g(x)))
    decreases |s|
  {
    if |s| > 0 {
      var m := MapSeq(s, g);
      assert m[..|m| - 1] == MapSeq(s[..|s| - 1], g);
      SumByMapSeq(s[..|s| - 1], g, f);
    }
  }

  /** Summing ones counts the elements. */
  lemma {:induction false} SumByOnes<T>(s: seq<T>, f: T -> int)
    requires forall i :: 0 <= i < |s| ==> f(s[i]) == 1
    ensures SumBy(s, f) == |s|
    decreases |s|
  {
    if |s| > 0 {
      SumByOnes(s[..|s| - 1], f);
    }
  }

  /** Every term non-negative makes the sum non-negative. */
  lemma {:induction false} SumByNonNegative<T>(s: seq<T>, f: T -> int)
    requires forall i :: 0 <= i < |s| ==> f(s[i]) >= 0
    ensures SumBy(s, f) >= 0
    decreases |s|
  {
    if |s| > 0 {
      SumByNonNegative(s[..|s| - 1], f);
    }
  }

  /** The number of elements of `s` that satisfy `p`. */
  function CountWhere<T>(s: seq<T>, p: T -> bool): (n: nat)
    ensures n <= |s|
  {
    if |s| == 0 then 0
    else CountWhere(s[..|s| - 1], p) + (if p(s[|s| - 1]) then 1 else 0)
  }

  /** The elements of `s` that satisfy `p`, in order (`s.filter(p)`). */
  function Filter<T>(s: seq<T>, p: T -> bool): (r: seq<T>)
    ensures |r| == CountWhere(s, p)
    ensures forall i :: 0 <= i < |r| ==> r[i] in s && p(r[i])
    ensures forall i :: 0 <= i < |s| && p(s[i]) ==> s[i] in r
  {
    if |s| == 0 then []
    else
      var x := s[|s| - 1];
      assert s == s[..|s| - 1] + [x];
      Filter(s[..|s| - 1], p) + (if p(x) then [x] else [])
  }

  /** The filter keeps elements of `s` only, each no more often than `s`
      holds it. */
  lemma {:induction false} FilterSubMultiset<T>(s: seq<T>, p: T -> bool)
    ensures multiset(Filter(s, p)) <= multiset(s)
  {
    if |s| > 0 {
      var init := s[..|s| - 1];
      FilterSubMultiset(init, p);
      FilterAppend(init, s[|s| - 1], p);
      assert s == init + [s[|s| - 1]];
    }
  }

  /** When every element before one that passes also passes, the filter
      keeps a prefix and drops the rest. */
  lemma {:induction false} FilterPrefix<T>(s: seq<T>, p: T -> bool)
    requires forall i, j :: 0 <= i < j < |s| && p(s[j]) ==> p(s[i])
    ensures Filter(s, p) == s[..|Filter(s, p)|]
    ensures forall i :: |Filter(s, p)| <= i < |s| ==> !p(s[i])
  {
    if |s| > 0 {
      var init := s[..|s| - 1];
      assert forall i, j :: 0 <= i < j < |init| && p(init[j]) ==> p(init[i]) by {
        assert forall k :: 0 <= k < |init| ==> init[k] == s[k];
      }
      FilterPrefix(init, p);
      if p(s[|s| - 1]) {
        PassingLast(s, p);
      } else {
        assert Filter(s, p) == Filter(init, p);
        FailingLast(s, init, Filter(init, p), p);
      }
    }
  }

  /** The step of `FilterPrefix` when the last element fails: a prefix of
      all but the last element, followed only by failing elements, is
      still such a prefix of the whole. */
  lemma FailingLast<T>(s: seq<T>, init: seq<T>, a: seq<T>, p: T -> bool)
    requires |s| > 0 && init == s[..|s| - 1] && !p(s[|s| - 1])
    requires |a| <= |init| && a == init[..|a|]
    requires forall i :: |a| <= i < |init| ==> !p(init[i])
    ensures a == s[..|a|]
    ensures forall i :: |a| <= i < |s| ==> !p(s[i])
  {
    forall i | |a| <= i < |s| ensures !p(s[i]) {
      if i < |init| {
        assert init[i] == s[i];
      }
    }
  }

  /** The step of `FilterPrefix` when the last element passes: then all do. */
  lemma PassingLast<T>(s: seq<T>, p: T -> bool)
    requires |s| > 0 && p(s[|s| - 1])
    requires forall i, j :: 0 <= i < j < |s| && p(s[j]) ==> p(s[i])
    ensures Filter(s, p) == s
    ensures Filter(s, p) == s[..|Filter(s, p)|]
  {
    FilterAll(s, p);
    assert s[..|s|] == s;
  }

  /** Nothing is dropped when everything passes. */
  lemma {:induction false} FilterAll<T>(s: seq<T>, p: T -> bool)
    requires forall i :: 0 <= i < |s| ==> p(s[i])
    ensures Filter(s, p) == s
  {
    if |s| > 0 {
      var init := s[..|s| - 1];
      assert forall i :: 0 <= i < |init| ==> p(init[i]) by {
        assert forall i :: 0 <= i < |init| ==> init[i] == s[i];
      }
      FilterAll(init, p);
      KeptLast(s, init, p);
    }
  }

  /** The step of `FilterAll`: a passing last element is kept after the
      kept rest. */
  lemma KeptLast<T>(s: seq<T>, init: seq<T>, p: T -> bool)
    requires |s| > 0 && init == s[..|s| - 1] && p(s[|s| - 1])
    requires Filter(init, p) == init
    ensures Filter(s, p) == s
  {
    var x := s[|s| - 1];
    assert s == init + [x];
    FilterAppend(init, x, p);
  }

  /** Filtering a sequence with one more element at the end. */
  lemma FilterAppend<T>(s: seq<T>, x: T, p: T -> bool)
    ensures Filter(s + [x], p) == Filter(s, p) + (if p(x) then [x] else [])
  {
    assert (s + [x])[..|s|] == s;
  }

  // ---------------------------------------------------------------------
  // Decimal strings
  // ---------------------------------------------------------------------

  predicate IsDigit(c: char) {
    '0' <= c <= '9'
  }

  predicate AllDigits(s: string) {
    forall i :: 0 <= i < |s| ==> IsDigit(s[i])
  }

  function DigitChar(d: nat): (c: char)
    requires d < 10
    ensures IsDigit(c)
  {
    "0123456789"[d]
  }

  function DigitValue(c: char): nat
    requires IsDigit(c)
  {
    (c as int - '0' as int) as nat
  }

  /** The value of a string of decimal digits (the empty string reads 0). */
  function DigitsValue(s: string): nat
    requires AllDigits(s)
  {
    if |s| == 0 then 0 else DigitsValue(s[..|s| - 1]) * 10 + DigitValue(s[|s| - 1])
  }

  /** `n.toString()` for a non-negative integer: no leading zeros. */
  function NatToString(n: nat): (s: string)
    ensures AllDigits(s) && |s| >= 1
    ensures |s| > 1 ==> s[0] != '0'
  {
    if n < 10 then [DigitChar(n)]
    else NatToString(n / 10) + [DigitChar(n % 10)]
  }

  /** `i.toString()` for an integer: a leading `-` for negatives. */
  function IntToString(i: int): string
  {
    if i < 0 then "-" + NatToString(-i) else NatToString(i)
  }

  /** `s.padStart(width, c)` for a single padding character. */
  function PadStart(s: string, width: nat, c: char): (r: string)
    ensures |r| == if |s| >= width then |s| else width
    ensures r[|r| - |s|..] == s
    ensures forall i :: 0 <= i < |r| - |s| ==> r[i] == c
    decreases width - |s|
  {
    if |s| >= width then s else PadStart([c] + s, width, c)
  }

  lemma {:induction false} NatToStringValue(n: nat)
    ensures DigitsValue(NatToString(n)) == n
  {
    if n >= 10 {
      var s := NatToString(n);
      assert s[..|s| - 1] == NatToString(n / 10);
      NatToStringValue(n / 10);
    }
  }

  /** Leading zeros do not change a digit string's value. */
  lemma {:induction false} LeadingZerosValue(z: string, s: string)
    requires forall i :: 0 <= i < |z| ==> z[i] == '0'
    requires AllDigits(s)
    ensures AllDigits(z + s)
    ensures DigitsValue(z + s) == DigitsValue(s)
    decreases |s|
  {
    if |s| == 0 {
      assert z + s == z;
      ZerosValue(z);
    } else {
      assert (z + s)[..|z + s| - 1] == z + s[..|s| - 1];
      LeadingZerosValue(z, s[..|s| - 1]);
    }
  }

  lemma {:induction false} ZerosValue(z: string)
    requires forall i :: 0 <= i < |z| ==> z[i] == '0'
    ensures AllDigits(z) && DigitsValue(z) == 0
  {
    if |z| > 0 {
      ZerosValue(z[..|z| - 1]);
    }
  }

  /** Zero-padding a decimal string keeps its value. */
  lemma PaddedValue(n: nat, width: nat)
    ensures AllDigits(PadStart(NatToString(n), width, '0'))
    ensures DigitsValue(PadStart(NatToString(n), width, '0')) == n
  {
    var s := NatToString(n);
    var r := PadStart(s, width, '0');
    var z := r[..|r| - |s|];
    assert r == z + s;
    LeadingZerosValue(z, s);
    NatToStringValue(n);
  }

  // ---------------------------------------------------------------------
  // parseInt
  // ---------------------------------------------------------------------

  /** The length of the longest prefix of `s` made of digits. */
  function DigitPrefixLength(s: string): (k: nat)
    ensures k <= |s| && AllDigits(s[..k])
    ensures k < |s| ==> !IsDigit(s[k])
  {
    if |s| == 0 || !IsDigit(s[0]) then 0
    else
      var k := 1 + DigitPrefixLength(s[1..]);
      assert s[..k] == [s[0]] + s[1..][..k - 1];
      k
  }

  /** The digit prefix of digits followed by a non-digit is the digits. */
  lemma {:induction false} DigitsThenStop(a: string, b: string)
    requires AllDigits(a) && |b| > 0 && !IsDigit(b[0])
    ensures DigitPrefixLength(a + b) == |a|
  {
    if |a| > 0 {
      assert (a + b)[1..] == a[1..] + b;
      DigitsThenStop(a[1..], b);
    }
  }

  /** `parseInt(s)` for a decimal string: an optional sign, then the longest
      run of digits; `NaN` (here `None`) when there is no digit at all. */
  function ParseInt(s: string): (r: Option<int>)
    ensures r.None? <==> DigitPrefixLength(if |s| > 0 && s[0] in "+-" then s[1..] else s) == 0
  {
    var negative := |s| > 0 && s[0] == '-';
    var body := if |s| > 0 && s[0] in "+-" then s[1..] else s;
    var k := DigitPrefixLength(body);
    if k == 0 then None
    else
      var v: int := DigitsValue(body[..k]);
      Some(if negative then -v else v)
  }

  /** `parseInt` reads back what `toString` wrote. */
  lemma ParseIntOfToString(n: nat)
    ensures ParseInt(NatToString(n)) == Some(n)
  {
    var s := NatToString(n);
    assert s[0] !in "+-" by {
      assert IsDigit(s[0]);
    }
    AllDigitsPrefix(s);
    assert s[..|s|] == s;
    NatToStringValue(n);
  }

  lemma {:induction false} AllDigitsPrefix(s: string)
    requires AllDigits(s)
    ensures DigitPrefixLength(s) == |s|
  {
    if |s| > 0 {
      AllDigitsPrefix(s[1..]);
    }
  }
}

=== FILE: pomodoro_timer.dfy ===
/** The Pomodoro timer of the Pomodoro page (src/app/pomodoro/page.tsx): a
    small state machine that counts a focus period or a break down one
    second at a time, records each finished period, and cycles from work to
    a short or long break and back. Browser storage, sound and rendering are
    not modelled; the instant of completion and the new session's id are
    parameters. */
module PomodoroTimer {
  import opened Wrappers
  import opened Numbers
  import opened Calendar

  datatype Mode = Work | ShortBreak | LongBreak

  /** Durations are in minutes. */
  datatype TimerSettings = TimerSettings(workDuration: int, shortBreakDuration: int, longBreakDuration: int,
                                         sessionsUntilLongBreak: int, autoStartBreaks: bool,
                                         autoStartWork: bool, soundEnabled: bool)

  const DefaultSettings: TimerSettings := TimerSettings(25, 5, 15, 4, false, false, true)

  /** A finished period as the page keeps it. */
  datatype LocalSession = LocalSession(id: string, mode: Mode, duration: int, completedAt: int,
                                       taskName: Option<string>)

  /** The page's timer state; `timeLeft` is in seconds. */
  datatype Timer = Timer(mode: Mode, timeLeft: int, isRunning: bool, completedSessions: int,
                         currentTask: string, settings: TimerSettings, todaySessions: seq<LocalSession>)

  /** `getDuration`. */
  function GetDuration(s: TimerSettings, m: Mode): (minutes: int)
    ensures m == Work ==> minutes == s.workDuration
    ensures m == ShortBreak ==> minutes == s.shortBreakDuration
    ensures m == LongBreak ==> minutes == s.longBreakDuration
  {
    match m
    case Work => s.workDuration
    case ShortBreak => s.shortBreakDuration
    case LongBreak => s.longBreakDuration
  }

  /** `switchMode`: stop, change mode, and load that mode's full period. */
  function SwitchMode(t: Timer, m: Mode): (r: Timer)
    ensures !r.isRunning && r.mode == m && r.timeLeft == GetDuration(t.settings, m) * 60
    ensures r.(isRunning := t.isRunning, mode := t.mode, timeLeft := t.timeLeft) == t
  {
    t.(isRunning := false, mode := m, timeLeft := GetDuration(t.settings, m) * 60)
  }

  /** `resetTimer`: stop and reload the current mode's full period. */
  function ResetTimer(t: Timer): (r: Timer)
    ensures !r.isRunning && r.mode == t.mode && r.timeLeft == GetDuration(t.settings, t.mode) * 60
    ensures r.(isRunning := t.isRunning, timeLeft := t.timeLeft) == t
  {
    t.(isRunning := false, timeLeft := GetDuration(t.settings, t.mode) * 60)
  }

  /** Resetting is switching to the mode the timer is already in. */
  lemma ResetIsSwitchToSelf(t: Timer)
    ensures ResetTimer(t) == SwitchMode(t, t.mode)
  {
  }

  /** `saveSettings`: adopt the edited settings; a stopped timer reloads the
      current mode's full period under them, a running one keeps counting. */
  function SaveSettings(t: Timer, edited: TimerSettings): (r: Timer)
    ensures r.settings == edited
    ensures !t.isRunning ==> r.timeLeft == GetDuration(edited, t.mode) * 60
    ensures t.isRunning ==> r.timeLeft == t.timeLeft
    ensures r.(settings := t.settings, timeLeft := t.timeLeft) == t
  {
    if t.isRunning then t.(settings := edited)
    else
      var seconds := if t.mode == Work then edited.workDuration * 60
                     else if t.mode == ShortBreak then edited.shortBreakDuration * 60
                     else edited.longBreakDuration * 60;
      t.(settings := edited, timeLeft := seconds)
  }

  /** Saving unchanged settings while stopped is a reset. */
  lemma SaveUnchangedResets(t: Timer)
    requires !t.isRunning
    ensures SaveSettings(t, t.settings) == ResetTimer(t)
  {
  }

  /** Whether the `newCount`-th finished focus period earns a long break
      (`newCount % sessionsUntilLongBreak === 0`; a modulus of 0 gives NaN,
      which never equals 0). */
  predicate IsLongBreak(s: TimerSettings, newCount: int) {
    s.sessionsUntilLongBreak != 0 && newCount % s.sessionsUntilLongBreak == 0
  }

  /** `currentTask || undefined`. */
  function TaskLabel(task: string): (r: Option<string>)
    ensures r.None? <==> task == ""
    ensures r.Some? ==> r.value == task
  {
    if task == "" then None else Some(task)
  }

  /** `handleTimerComplete`: stop, record the period just finished, then
      move on to the next period. */
  function Complete(t: Timer, now: int, id: string): (r: Timer)
    ensures r.todaySessions ==
              t.todaySessions + [LocalSession(id, t.mode, GetDuration(t.settings, t.mode), now, TaskLabel(t.currentTask))]
    ensures r.settings == t.settings && r.currentTask == t.currentTask
    ensures t.mode == Work ==> r.completedSessions == t.completedSessions + 1
    ensures t.mode == Work ==> (r.mode == LongBreak <==> IsLongBreak(t.settings, t.completedSessions + 1))
    ensures t.mode == Work ==> r.mode != Work
    ensures t.mode == Work ==> r.timeLeft == GetDuration(t.settings, r.mode) * 60
    ensures t.mode == Work ==> r.isRunning == t.settings.autoStartBreaks
    ensures t.mode != Work ==> r.completedSessions == t.completedSessions
    ensures t.mode != Work ==> r.mode == Work && r.timeLeft == t.settings.workDuration * 60
    ensures t.mode != Work ==> r.isRunning == t.settings.autoStartWork
  {
    var s := LocalSession(id, t.mode, GetDuration(t.settings, t.mode), now, TaskLabel(t.currentTask));
    var recorded := t.(isRunning := false, todaySessions := t.todaySessions + [s]);
    if t.mode == Work then
      var newCount := t.completedSessions + 1;
      var next := if IsLongBreak(t.settings, newCount) then LongBreak else ShortBreak;
      recorded.(completedSessions := newCount, mode := next,
                timeLeft := (if next == LongBreak then t.settings.longBreakDuration else t.settings.shortBreakDuration) * 60,
                isRunning := t.settings.autoStartBreaks)
    else
      recorded.(mode := Work, timeLeft := t.settings.workDuration * 60, isRunning := t.settings.autoStartWork)
  }

  /** The timer effect, once per second: a running timer with time left
      ticks down by one; a running timer at zero completes; otherwise
      nothing happens. */
  function Step(t: Timer, now: int, id: string): (r: Timer)
    ensures t.isRunning && t.timeLeft > 0 ==> r == t.(timeLeft := t.timeLeft - 1)
    ensures t.isRunning && t.timeLeft == 0 ==> r == Complete(t, now, id)
    ensures !t.isRunning || t.timeLeft < 0 ==> r == t
  {
    if t.isRunning && t.timeLeft > 0 then t.(timeLeft := t.timeLeft - 1)
    else if t.timeLeft == 0 && t.isRunning then Complete(t, now, id)
    else t
  }

  /** `k` seconds of the timer effect. */
  function Steps(t: Timer, k: nat, now: int, id: string): Timer
    decreases k
  {
    if k == 0 then t else Steps(Step(t, now, id), k - 1, now, id)
  }

  /** A running timer with `n` seconds left reaches zero after `n` ticks,
      with nothing else changed, and completes on the next one. */
  lemma {:induction false} Countdown(t: Timer, n: nat, now: int, id: string)
    requires t.isRunning && t.timeLeft == n
    ensures Steps(t, n, now, id) == t.(timeLeft := 0)
    ensures Steps(t, n + 1, now, id) == Complete(t.(timeLeft := 0), now, id)
    decreases n
  {
    if n > 0 {
      Countdown(t.(timeLeft := n - 1), n - 1, now, id);
      assert Step(t, now, id) == t.(timeLeft := n - 1);
      assert t.(timeLeft := n - 1).(timeLeft := 0) == t.(timeLeft := 0);
    }
  }

  // ---------------------------------------------------------------------
  // Today's sessions
  // ---------------------------------------------------------------------

  /** The number of focus periods among `ss`. */
  function WorkCount(ss: seq<LocalSession>): nat {
    if |ss| == 0 then 0 else WorkCount(ss[..|ss| - 1]) + (if ss[|ss| - 1].mode == Work then 1 else 0)
  }

  /** `getTodayFocusTime`: the minutes of the focus periods among `ss`. */
  function TodayFocusTime(ss: seq<LocalSession>): int {
    if |ss| == 0 then 0
    else TodayFocusTime(ss[..|ss| - 1]) + (if ss[|ss| - 1].mode == Work then ss[|ss| - 1].duration else 0)
  }

  /** The sessions completed on day `today`. */
  function OnDay(ss: seq<LocalSession>, today: int): (r: seq<LocalSession>)
    ensures |r| <= |ss|
    ensures forall i :: 0 <= i < |r| ==> DayOf(r[i].completedAt) == today && r[i] in ss
    ensures forall i :: 0 <= i < |ss| && DayOf(ss[i].completedAt) == today ==> ss[i] in r
  {
    if |ss| == 0 then []
    else
      var prev := OnDay(ss[..|ss| - 1], today);
      var last := ss[|ss| - 1];
      if DayOf(last.completedAt) == today then prev + [last] else prev
  }

  /** The "Today's Sessions" card: the latest five sessions, newest first. */
  function ShownSessions(ss: seq<LocalSession>): (r: seq<LocalSession>)
    ensures |r| == if |ss| < 5 then |ss| else 5
    ensures forall i :: 0 <= i < |r| ==> r[i] == ss[|ss| - 1 - i]
  {
    var n := if |ss| < 5 then |ss| else 5;
    seq(n, i requires 0 <= i < n => ss[|ss| - 1 - i])
  }

  /** A new session heads the card, ahead of what was shown before. */
  lemma NewestShownFirst(ss: seq<LocalSession>, s: LocalSession)
    ensures var r := ShownSessions(ss + [s]);
            r[0] == s && r[1..] == ShownSessions(ss)[..|r| - 1]
  {
  }

  /** The counter shown on the page matches the focus periods kept for
      today. */
  predicate Consistent(t: Timer) {
    t.completedSessions == WorkCount(t.todaySessions)
  }

  /** The state the page starts in: the stored settings (if any) with a full
      focus period, and today's stored sessions (if any) with their focus
      periods counted. */
  function Load(savedSettings: Option<TimerSettings>, savedSessions: Option<seq<LocalSession>>, now: int): (t: Timer)
    ensures Consistent(t)
    ensures t.mode == Work && !t.isRunning && t.timeLeft == t.settings.workDuration * 60
    ensures t.settings == savedSettings.GetOr(DefaultSettings)
    ensures forall i :: 0 <= i < |t.todaySessions| ==> DayOf(t.todaySessions[i].completedAt) == DayOf(now)
  {
    var settings := savedSettings.GetOr(DefaultSettings);
    var today := if savedSessions.Some? then OnDay(savedSessions.value, DayOf(now)) else [];
    Timer(Work, settings.workDuration * 60, false, WorkCount(today), "", settings, today)
  }

  /** Every transition keeps the counter in step with the recorded focus
      periods. */
  lemma StepKeepsConsistent(t: Timer, now: int, id: string)
    requires Consistent(t)
    ensures Consistent(Step(t, now, id))
    ensures Consistent(SwitchMode(t, Work)) && Consistent(SwitchMode(t, ShortBreak)) && Consistent(SwitchMode(t, LongBreak))
    ensures Consistent(ResetTimer(t))
  {
    var r := Step(t, now, id);
    if t.isRunning && t.timeLeft == 0 {
      assert r.todaySessions[..|r.todaySessions| - 1] == t.todaySessions;
    }
  }

  /** Finishing a focus period adds its minutes to today's focus time;
      finishing a break adds nothing. */
  lemma CompleteAddsFocus(t: Timer, now: int, id: string)
    ensures TodayFocusTime(Complete(t, now, id).todaySessions) ==
            TodayFocusTime(t.todaySessions) + (if t.mode == Work then t.settings.workDuration else 0)
  {
    var ss := Complete(t, now, id).todaySessions;
    assert ss[..|ss| - 1] == t.todaySessions;
  }

  /** With the default settings, the fourth focus period of the day earns
      the long break and the first three a short one. */
  lemma FourthIsLong(t: Timer, now: int, id: string)
    requires t.settings == DefaultSettings && t.mode == Work
    requires 0 <= t.completedSessions < 4
    ensures Complete(t, now, id).mode == (if t.completedSessions == 3 then LongBreak else ShortBreak)
    ensures Complete(t, now, id).timeLeft == (if t.completedSessions == 3 then 900 else 300)
  {
  }

  /** What the page writes back to storage: the sessions of the last seven
      days, then the new one. */
  function Retained(all: seq<LocalSession>, s: LocalSession, now: int): (r: seq<LocalSession>)
    ensures |r| >= 1 && r[|r| - 1] == s
    ensures forall i :: 0 <= i < |r| - 1 ==> r[i] in all && r[i].completedAt > now - 7 * MsPerDay
    ensures forall i :: 0 <= i < |all| && all[i].completedAt > now - 7 * MsPerDay ==> all[i] in r
  {
    Recent(all, now - 7 * MsPerDay) + [s]
  }

  function Recent(all: seq<LocalSession>, since: int): (r: seq<LocalSession>)
    ensures forall i :: 0 <= i < |r| ==> r[i] in all && r[i].completedAt > since
    ensures forall i :: 0 <= i < |all| && all[i].completedAt > since ==> all[i] in r
  {
    if |all| == 0 then []
    else
      var prev := Recent(all[..|all| - 1], since);
      var last := all[|all| - 1];
      if last.completedAt > since then prev + [last] else prev
  }

  // ---------------------------------------------------------------------
  // Clock display and settings inputs
  // ---------------------------------------------------------------------

  /** A number padded with zeros to at least two digits. */
  function Padded(n: nat): (r: string)
    ensures |r| >= 2 && AllDigits(r) && DigitsValue(r) == n
    ensures n < 100 ==> |r| == 2
  {
    PaddedValue(n, 2);
    if n < 100 then ShortNumber(n); PadStart(NatToString(n), 2, '0')
    else PadStart(NatToString(n), 2, '0')
  }

  lemma ShortNumber(n: nat)
    requires n < 100
    ensures |NatToString(n)| <= 2
  {
    if n >= 10 {
      assert NatToString(n) == NatToString(n / 10) + [DigitChar(n % 10)];
    }
  }

  /** `formatTime`: whole minutes and the remaining seconds, each padded to
      two digits, for a non-negative number of seconds. The display reads
      back as the number it shows, with the seconds field below 60. */
  function FormatTime(seconds: nat): (r: string)
    ensures ParseClock(r) == Some(seconds)
    ensures |r| >= 5 && r[|r| - 3] == ':' && AllDigits(r[|r| - 2..]) && DigitsValue(r[|r| - 2..]) < 60
    ensures seconds < 6000 ==> |r| == 5
  {
    var minutes, rest := seconds / 60, seconds % 60;
    assert seconds < 6000 ==> minutes < 100;
    var m := Padded(minutes);
    var s := Padded(rest);
    ReadsBack(m, s, seconds);
    Joined(m, s);
    m + ":" + s
  }

  /** Padded minutes and seconds of `total` read back as `total`. */
  lemma ReadsBack(m: string, s: string, total: nat)
    requires AllDigits(m) && |m| > 0 && DigitsValue(m) == total / 60
    requires AllDigits(s) && |s| > 0 && DigitsValue(s) == total % 60
    ensures ParseClock(m + ":" + s) == Some(total)
  {
    var minutes, seconds := DigitsValue(m), DigitsValue(s);
    assert minutes * 60 + seconds == total by { MinutesAndSeconds(total, minutes, seconds); }
    ParseJoined(m, s);
  }

  lemma MinutesAndSeconds(total: nat, minutes: int, seconds: int)
    requires minutes == total / 60 && seconds == total % 60
    ensures minutes * 60 + seconds == total
  {
  }

  lemma Joined(m: string, s: string)
    requires |s| == 2
    ensures var r := m + ":" + s; r[|r| - 2..] == s && r[|r| - 3] == ':'
  {
  }

  /** Reads a clock display back: the digits before the colon as minutes,
      the digits after it as seconds. */
  function ParseClock(t: string): Option<int> {
    var k := DigitPrefixLength(t);
    if 0 < k < |t| && t[k] == ':' then
      var rest := t[k + 1..];
      if |rest| > 0 && AllDigits(rest) then Some(DigitsValue(t[..k]) * 60 + DigitsValue(rest)) else None
    else None
  }

  /** Two digit strings joined by a colon read back as minutes and seconds. */
  lemma ParseJoined(m: string, s: string)
    requires AllDigits(m) && |m| > 0 && AllDigits(s) && |s| > 0
    ensures ParseClock(m + ":" + s) == Some(DigitsValue(m) * 60 + DigitsValue(s))
  {
    var tail := ":" + s;
    var r := m + tail;
    assert m + ":" + s == r;
    assert tail[0] == ':' && !IsDigit(tail[0]);
    DigitsThenStop(m, tail);
    assert r[..|m|] == m;
    assert r[|m| + 1..] == s by { assert r[|m|..] == tail; }
    ParseSplit(r, m, s);
  }

  lemma ParseSplit(r: string, m: string, s: string)
    requires AllDigits(m) && |m| > 0 && AllDigits(s) && |s| > 0
    requires DigitPrefixLength(r) == |m| && |r| == |m| + 1 + |s| && r[|m|] == ':'
    requires r[..|m|] == m && r[|m| + 1..] == s
    ensures ParseClock(r) == Some(DigitsValue(m) * 60 + DigitsValue(s))
  {
    var k := DigitPrefixLength(r);
    assert 0 < k < |r| && r[k] == ':';
    var rest := r[k + 1..];
    assert rest == s;
    assert |rest| > 0 && AllDigits(rest);
    assert DigitsValue(r[..k]) == DigitsValue(m);
  }

  /** `parseInt(v) || fallback`: the parsed number, or the fallback when the
      input has no number or reads 0. */
  function ParseSetting(input: string, fallback: int): (v: int)
    ensures ParseInt(input).None? || ParseInt(input) == Some(0) ==> v == fallback
    ensures ParseInt(input).Some? && ParseInt(input) != Some(0) ==> v == ParseInt(input).value
    ensures fallback != 0 ==> v != 0
  {
    var p := ParseInt(input);
    if p.Some? && p.value != 0 then p.value else fallback
  }

  /** The four number inputs of the settings dialog. */
  datatype Field = WorkField | ShortField | LongField | SessionsField

  function FieldValue(s: TimerSettings, f: Field): int {
    match f
    case WorkField => s.workDuration
    case ShortField => s.shortBreakDuration
    case LongField => s.longBreakDuration
    case SessionsField => s.sessionsUntilLongBreak
  }

  /** The fallback of each input's `parseInt(...) || default`. */
  function FieldDefault(f: Field): int {
    match f
    case WorkField => 25
    case ShortField => 5
    case LongField => 15
    case SessionsField => 4
  }

  /** One `onChange`: the edited input's field takes the parsed text, and
      every other field and switch of the draft is kept (`...prev`). */
  function EditField(prev: TimerSettings, f: Field, text: string): (s: TimerSettings)
    ensures FieldValue(s, f) == ParseSetting(text, FieldDefault(f)) && FieldValue(s, f) != 0
    ensures forall g :: g != f ==> FieldValue(s, g) == FieldValue(prev, g)
    ensures s.autoStartBreaks == prev.autoStartBreaks && s.autoStartWork == prev.autoStartWork
    ensures s.soundEnabled == prev.soundEnabled
  {
    var v := ParseSetting(text, FieldDefault(f));
    match f
    case WorkField => prev.(workDuration := v)
    case ShortField => prev.(shortBreakDuration := v)
    case LongField => prev.(longBreakDuration := v)
    case SessionsField => prev.(sessionsUntilLongBreak := v)
  }

  /** The two "Behavior" switches of the dialog. */
  datatype Switch = AutoBreaks | AutoWork

  function SwitchValue(s: TimerSettings, w: Switch): bool {
    match w
    case AutoBreaks => s.autoStartBreaks
    case AutoWork => s.autoStartWork
  }

  /** One click on a switch: it flips (`!prev.autoStartBreaks`), and every
      field and the other switch are kept. */
  function ToggleSwitch(prev: TimerSettings, w: Switch): (s: TimerSettings)
    ensures SwitchValue(s, w) == !SwitchValue(prev, w)
    ensures forall v :: v != w ==> SwitchValue(s, v) == SwitchValue(prev, v)
    ensures forall f :: FieldValue(s, f) == FieldValue(prev, f)
    ensures s.soundEnabled == prev.soundEnabled
  {
    match w
    case AutoBreaks => prev.(autoStartBreaks := !prev.autoStartBreaks)
    case AutoWork => prev.(autoStartWork := !prev.autoStartWork)
  }

  /** What the user does in the dialog: type into a number input, or click
      a switch. */
  datatype Edit = Typed(field: Field, text: string) | Toggled(switch: Switch)

  function ApplyEdit(prev: TimerSettings, e: Edit): TimerSettings {
    match e
    case Typed(f, text) => EditField(prev, f, text)
    case Toggled(w) => ToggleSwitch(prev, w)
  }

  /** The text of the last edit typed into field `f`, if any. */
  function LastEdit(edits: seq<Edit>, f: Field): Option<string> {
    if |edits| == 0 then None
    else
      var last := edits[|edits| - 1];
      if last.Typed? && last.field == f then Some(last.text)
      else LastEdit(edits[..|edits| - 1], f)
  }

  /** How many times switch `w` was clicked. */
  function Clicks(edits: seq<Edit>, w: Switch): nat {
    if |edits| == 0 then 0
    else
      var last := edits[|edits| - 1];
      Clicks(edits[..|edits| - 1], w) + (if last.Toggled? && last.switch == w then 1 else 0)
  }

  /** The draft after a run of edits, starting from the settings the dialog
      opened with (`setTempSettings(settings)`): a field nobody touched keeps
      its value, zero included; an edited field holds its last text, parsed
      with its default; a switch is flipped when it was clicked an odd
      number of times; the sound switch is not in the dialog. */
  function EditSettings(prev: TimerSettings, edits: seq<Edit>): (s: TimerSettings)
    ensures forall f :: LastEdit(edits, f).None? ==> FieldValue(s, f) == FieldValue(prev, f)
    ensures forall f :: LastEdit(edits, f).Some? ==>
              FieldValue(s, f) == ParseSetting(LastEdit(edits, f).value, FieldDefault(f)) && FieldValue(s, f) != 0
    ensures forall w :: SwitchValue(s, w) == (SwitchValue(prev, w) != (Clicks(edits, w) % 2 == 1))
    ensures s.soundEnabled == prev.soundEnabled
  {
    if |edits| == 0 then prev
    else
      ApplyEdit(EditSettings(prev, edits[..|edits| - 1]), edits[|edits| - 1])
  }

  /** Clicking a switch twice leaves the draft as it was. */
  lemma ToggleTwice(prev: TimerSettings, edits: seq<Edit>, w: Switch)
    ensures EditSettings(prev, edits + [Toggled(w), Toggled(w)]) == EditSettings(prev, edits)
  {
    var mid := edits + [Toggled(w)];
    assert (edits + [Toggled(w), Toggled(w)])[..|mid|] == mid;
    assert mid[..|edits|] == edits;
  }

  /** The header's sound button: the setting flips, nothing else changes,
      and the stored settings are the new ones (`{...settings, soundEnabled:
      !settings.soundEnabled}`). */
  function ToggleSound(t: Timer): (r: (Timer, TimerSettings))
    ensures r.0.settings.soundEnabled == !t.settings.soundEnabled
    ensures r.0.settings.(soundEnabled := t.settings.soundEnabled) == t.settings
    ensures r.0.(settings := t.settings) == t
    ensures r.1 == r.0.settings
  {
    var s := t.settings.(soundEnabled := !t.settings.soundEnabled);
    (t.(settings := s), s)
  }

  /** Two clicks on the sound button restore the timer. */
  lemma SoundTwice(t: Timer)
    ensures ToggleSound(ToggleSound(t).0).0 == t
  {
  }

  /** Typing a field's own positive value back into it changes nothing. */
  lemma RetypeKeeps(prev: TimerSettings, f: Field)
    requires FieldValue(prev, f) > 0
    ensures EditField(prev, f, NatToString(FieldValue(prev, f))) == prev
  {
    ParseIntOfToString(FieldValue(prev, f));
  }

  /** Clearing the field or typing 0 restores the default. */
  lemma EmptyInputFallsBack()
    ensures ParseSetting("", 25) == 25 && ParseSetting("0", 4) == 4
  {
    assert DigitPrefixLength("0") == 1;
    assert "0"[..1] == "0";
  }
}

=== FILE: radar.dfy ===
/** The weekly life radar: five life areas each rated RED, YELLOW or GREEN.
    The handler (src/app/api/radar/route.ts) keeps one check-in per user and
    week, validates and merges posted statuses; the page
    (src/app/radar/page.tsx) counts statuses, edits one area at a time and
    posts the whole radar back. */
module Radar {
  import opened Wrappers
  import opened Js
  import opened Week

  datatype Status = Red | Yellow | Green

  function StatusName(s: Status): string {
    match s
    case Red => "RED"
    case Yellow => "YELLOW"
    case Green => "GREEN"
  }

  /** `validStatuses.includes(v)`: only the three exact strings. */
  function ParseStatus(v: JsValue): (r: Option<Status>)
    ensures r.Some? ==> v == Str(StatusName(r.value))
    ensures r.None? ==> forall s :: v != Str(StatusName(s))
  {
    if v == Str("RED") then Some(Red)
    else if v == Str("YELLOW") then Some(Yellow)
    else if v == Str("GREEN") then Some(Green)
    else None
  }

  lemma ParseStatusName(s: Status)
    ensures ParseStatus(Str(StatusName(s))) == Some(s)
  {
  }

  datatype Area = Body | Mind | Profession | Projects | Environment

  /** The five statuses of a check-in. */
  datatype Statuses = Statuses(body: Status, mind: Status, profession: Status, projects: Status, environment: Status)
  {
    function Get(a: Area): Status {
      match a
      case Body => body
      case Mind => mind
      case Profession => profession
      case Projects => projects
      case Environment => environment
    }

    /** `{ ...radar, [area]: status }`. */
    function With(a: Area, s: Status): (r: Statuses)
      ensures r.Get(a) == s
      ensures forall b :: b != a ==> r.Get(b) == Get(b)
    {
      match a
      case Body => this.(body := s)
      case Mind => this.(mind := s)
      case Profession => this.(profession := s)
      case Projects => this.(projects := s)
      case Environment => this.(environment := s)
    }
  }

  const AllGreen: Statuses := Statuses(Green, Green, Green, Green, Green)

  /** A stored check-in. */
  datatype RadarRecord = RadarRecord(id: string, weekStart: int, statuses: Statuses, notes: Option<string>)

  /** The check-ins, keyed by (user, weekStart): the store's unique index. */
  type RadarStore = map<(string, int), RadarRecord>

  /** What GET returns and the page holds. */
  datatype RadarView = RadarView(id: Option<string>, weekStart: int, statuses: Statuses, notes: Option<string>, isNew: bool)

  /** GET: this week's check-in, or an unsaved all-GREEN default. */
  function RadarGet(store: RadarStore, user: string, now: int): (v: RadarView)
    ensures v.weekStart == GetWeekStart(now)
    ensures (user, GetWeekStart(now)) !in store ==>
              v.id.None? && v.statuses == AllGreen && v.notes.None? && v.isNew
    ensures (user, GetWeekStart(now)) in store ==>
              var rec := store[(user, GetWeekStart(now))];
              v.id == Some(rec.id) && v.statuses == rec.statuses && v.notes == rec.notes && !v.isNew
  {
    var weekStart := GetWeekStart(now);
    if (user, weekStart) in store then
      var rec := store[(user, weekStart)];
      RadarView(Some(rec.id), weekStart, rec.statuses, rec.notes, false)
    else
      RadarView(None, weekStart, AllGreen, None, true)
  }

  /** The `notes` field of a request body: absent, `null`, or a string. */
  datatype NotesInput = NotesMissing | NotesGiven(value: Option<string>)

  /** A POST body. */
  datatype RadarInput = RadarInput(body: JsValue, mind: JsValue, profession: JsValue, projects: JsValue,
                                   environment: JsValue, notes: NotesInput)
  {
    function Status(a: Area): JsValue {
      match a
      case Body => body
      case Mind => mind
      case Profession => profession
      case Projects => projects
      case Environment => environment
    }
  }

  /** A posted status passes when it is falsy (not provided) or one of the
      three names. */
  predicate Acceptable(v: JsValue) {
    !JsTruthy(v) || ParseStatus(v).Some?
  }

  /** The validation loop over the five posted statuses. */
  predicate AllAcceptable(input: RadarInput) {
    Acceptable(input.body) && Acceptable(input.mind) && Acceptable(input.profession)
    && Acceptable(input.projects) && Acceptable(input.environment)
  }

  lemma AllAcceptableMeans(input: RadarInput)
    ensures AllAcceptable(input) <==> forall a :: Acceptable(input.Status(a))
  {
    if !AllAcceptable(input) {
      assert !Acceptable(input.Status(Body)) || !Acceptable(input.Status(Mind))
        || !Acceptable(input.Status(Profession)) || !Acceptable(input.Status(Projects))
        || !Acceptable(input.Status(Environment));
    }
  }

  /** The status stored for an area on creation: the posted one, or GREEN. */
  function CreatedStatus(v: JsValue): (s: Status)
    requires Acceptable(v)
    ensures JsTruthy(v) ==> v == Str(StatusName(s))
    ensures !JsTruthy(v) ==> s == Green
  {
    if JsTruthy(v) then ParseStatus(v).value else Green
  }

  /** The status after an update: the posted one if provided, else the prior. */
  function MergedStatus(v: JsValue, prior: Status): (s: Status)
    requires Acceptable(v)
    ensures JsTruthy(v) ==> v == Str(StatusName(s))
    ensures !JsTruthy(v) ==> s == prior
  {
    if JsTruthy(v) then ParseStatus(v).value else prior
  }

  /** The check-in a first save of the week creates. */
  function Created(input: RadarInput, id: string, weekStart: int): (rec: RadarRecord)
    requires AllAcceptable(input)
    ensures rec.id == id && rec.weekStart == weekStart
    ensures forall a :: JsTruthy(input.Status(a)) ==> input.Status(a) == Str(StatusName(rec.statuses.Get(a)))
    ensures forall a :: !JsTruthy(input.Status(a)) ==> rec.statuses.Get(a) == Green
    ensures input.notes.NotesGiven? ==> rec.notes == OrNull(input.notes.value)
    ensures input.notes.NotesMissing? ==> rec.notes.None?
  {
    var notes := if input.notes.NotesGiven? then OrNull(input.notes.value) else None;
    RadarRecord(id, weekStart,
      Statuses(CreatedStatus(input.body), CreatedStatus(input.mind), CreatedStatus(input.profession),
               CreatedStatus(input.projects), CreatedStatus(input.environment)),
      notes)
  }

  /** A later save of the week merged into the stored check-in. */
  function Merged(input: RadarInput, prior: RadarRecord): (rec: RadarRecord)
    requires AllAcceptable(input)
    ensures rec.id == prior.id && rec.weekStart == prior.weekStart
    ensures forall a :: JsTruthy(input.Status(a)) ==> input.Status(a) == Str(StatusName(rec.statuses.Get(a)))
    ensures forall a :: !JsTruthy(input.Status(a)) ==> rec.statuses.Get(a) == prior.statuses.Get(a)
    ensures input.notes.NotesGiven? ==> rec.notes == OrNull(input.notes.value)
    ensures input.notes.NotesMissing? ==> rec.notes == prior.notes
  {
    var s := prior.statuses;
    var notes := if input.notes.NotesGiven? then OrNull(input.notes.value) else prior.notes;
    prior.(statuses := Statuses(MergedStatus(input.body, s.body), MergedStatus(input.mind, s.mind),
                              MergedStatus(input.profession, s.profession), MergedStatus(input.projects, s.projects),
                              MergedStatus(input.environment, s.environment)),
         notes := notes)
  }

  /** POST: validate, then create this week's check-in (with id `freshId`)
      or merge into it. */
  function RadarPost(store: RadarStore, user: string, input: RadarInput, now: int, freshId: string)
    : (r: Result<(RadarStore, RadarRecord)>)
    ensures r.Err? <==> exists a :: !Acceptable(input.Status(a))
    ensures r.Err? ==> r.error.status == 400
    ensures r.Ok? ==> var key := (user, GetWeekStart(now));
                      r.value.0 == store[key := r.value.1]
    ensures r.Ok? && (user, GetWeekStart(now)) !in store ==>
              var rec := r.value.1;
              rec.id == freshId && rec.weekStart == GetWeekStart(now)
              && (forall a :: JsTruthy(input.Status(a)) ==> input.Status(a) == Str(StatusName(rec.statuses.Get(a))))
              && (forall a :: !JsTruthy(input.Status(a)) ==> rec.statuses.Get(a) == Green)
              && (input.notes.NotesGiven? ==> rec.notes == OrNull(input.notes.value))
              && (input.notes.NotesMissing? ==> rec.notes.None?)
    ensures r.Ok? && (user, GetWeekStart(now)) in store ==>
              var prior := store[(user, GetWeekStart(now))];
              var rec := r.value.1;
              rec.id == prior.id && rec.weekStart == prior.weekStart
              && (forall a :: JsTruthy(input.Status(a)) ==> input.Status(a) == Str(StatusName(rec.statuses.Get(a))))
              && (forall a :: !JsTruthy(input.Status(a)) ==> rec.statuses.Get(a) == prior.statuses.Get(a))
              && (input.notes.NotesGiven? ==> rec.notes == OrNull(input.notes.value))
              && (input.notes.NotesMissing? ==> rec.notes == prior.notes)
  {
    AllAcceptableMeans(input);
    if !AllAcceptable(input) then Err(HttpError(400, "Invalid status value"))
    else
      var key := (user, GetWeekStart(now));
      var rec := if key in store then Merged(input, store[key]) else Created(input, freshId, key.1);
      Ok((store[key := rec], rec))
  }

  /** Saving twice in the same week leaves one check-in for that week: the
      second save updates the first. */
  lemma SecondSaveUpdates(store: RadarStore, user: string, a: RadarInput, b: RadarInput, t: int, u: int,
                          id1: string, id2: string)
    requires RadarPost(store, user, a, t, id1).Ok?
    requires GetWeekStart(t) <= u < GetWeekStart(t) + 7 * Calendar.MsPerDay
    requires RadarPost(RadarPost(store, user, a, t, id1).value.0, user, b, u, id2).Ok?
    ensures var s1 := RadarPost(store, user, a, t, id1).value.0;
            var s2 := RadarPost(s1, user, b, u, id2).value.0;
            s2.Keys == s1.Keys && s2[(user, GetWeekStart(t))].id == s1[(user, GetWeekStart(t))].id
  {
    SameWeekStart(t, u);
  }

  // ---------------------------------------------------------------------
  // The page
  // ---------------------------------------------------------------------

  datatype Counts = Counts(red: nat, yellow: nat, green: nat)

  function Hit(b: bool): nat { if b then 1 else 0 }

  /** How many of the five areas have status `s`. */
  function CountStatus(st: Statuses, s: Status): (n: nat)
    ensures n <= 5
  {
    Hit(st.body == s) + Hit(st.mind == s) + Hit(st.profession == s) + Hit(st.projects == s) + Hit(st.environment == s)
  }

  /** `getStatusCounts`. */
  function StatusCounts(radar: Option<RadarView>): (c: Counts)
    ensures radar.None? ==> c == Counts(0, 0, 0)
    ensures radar.Some? ==> c.red + c.yellow + c.green == 5
    ensures radar.Some? ==> c.red == CountStatus(radar.value.statuses, Red)
                            && c.yellow == CountStatus(radar.value.statuses, Yellow)
                            && c.green == CountStatus(radar.value.statuses, Green)
  {
    if radar.None? then Counts(0, 0, 0)
    else
      var st := radar.value.statuses;
      Counts(CountStatus(st, Red), CountStatus(st, Yellow), CountStatus(st, Green))
  }

  /** Five GREEN areas exactly when every area is GREEN. */
  lemma AllGreenCount(st: Statuses)
    ensures CountStatus(st, Green) == 5 <==> st == AllGreen
  {
  }

  /** The "multiple areas need attention" card. */
  predicate ShowWarning(c: Counts) { c.red >= 2 }

  /** The "all areas balanced" card. */
  predicate ShowAllBalanced(c: Counts) { c.green == 5 }

  /** The two cards never show together, and neither shows before the radar
      is loaded. */
  lemma CardsExclusive(radar: Option<RadarView>)
    ensures !(ShowWarning(StatusCounts(radar)) && ShowAllBalanced(StatusCounts(radar)))
    ensures radar.None? ==> !ShowWarning(StatusCounts(radar)) && !ShowAllBalanced(StatusCounts(radar))
  {
  }

  /** `updateStatus`: sets one area; nothing happens without a radar. */
  function UpdateStatus(radar: Option<RadarView>, a: Area, s: Status): (r: Option<RadarView>)
    ensures radar.None? <==> r.None?
    ensures r.Some? ==> r.value.statuses.Get(a) == s
    ensures r.Some? ==> forall b :: b != a ==> r.value.statuses.Get(b) == radar.value.statuses.Get(b)
    ensures r.Some? ==> r.value.(statuses := radar.value.statuses) == radar.value
  {
    if radar.None? then None
    else Some(radar.value.(statuses := radar.value.statuses.With(a, s)))
  }

  /** The body `saveRadar` posts: the five statuses by name and the notes. */
  function SavePayload(v: RadarView): (input: RadarInput)
    ensures forall a :: input.Status(a) == Str(StatusName(v.statuses.Get(a)))
    ensures input.notes == NotesGiven(v.notes)
  {
    RadarInput(Str(StatusName(v.statuses.body)), Str(StatusName(v.statuses.mind)),
               Str(StatusName(v.statuses.profession)), Str(StatusName(v.statuses.projects)),
               Str(StatusName(v.statuses.environment)), NotesGiven(v.notes))
  }

  /** Saving what the page shows is always accepted and stores exactly the
      five statuses shown, whether the check-in is new or not; notes are kept
      unless empty. */
  lemma SaveRoundTrip(store: RadarStore, user: string, v: RadarView, now: int, freshId: string)
    ensures var r := RadarPost(store, user, SavePayload(v), now, freshId);
            r.Ok? && r.value.1.statuses == v.statuses && r.value.1.notes == OrNull(v.notes)
  {
    var input := SavePayload(v);
    NamesAccepted(input, v.statuses);
    var st := RadarPost(store, user, input, now, freshId).value.1.statuses;
    SameNames(st, v.statuses);
  }

  /** The five names of a radar pass validation and are all provided. */
  lemma NamesAccepted(input: RadarInput, st: Statuses)
    requires forall a :: input.Status(a) == Str(StatusName(st.Get(a)))
    ensures forall a :: Acceptable(input.Status(a)) && JsTruthy(input.Status(a))
  {
    forall a: Area ensures Acceptable(input.Status(a)) && JsTruthy(input.Status(a)) {
      ParseStatusName(st.Get(a));
    }
  }

  /** Two radars whose areas carry the same names are the same radar. */
  lemma SameNames(s: Statuses, t: Statuses)
    requires forall a :: Str(StatusName(s.Get(a))) == Str(StatusName(t.Get(a)))
    ensures s == t
  {
    forall a: Area ensures s.Get(a) == t.Get(a) {
      StatusNameInjective(s.Get(a), t.Get(a));
    }
    assert s.Get(Body) == t.Get(Body) && s.Get(Mind) == t.Get(Mind) && s.Get(Profession) == t.Get(Profession)
      && s.Get(Projects) == t.Get(Projects) && s.Get(Environment) == t.Get(Environment);
  }

  lemma StatusNameInjective(s: Status, t: Status)
    ensures StatusName(s) == StatusName(t) ==> s == t
  {
    if StatusName(s) == StatusName(t) {
      assert StatusName(s)[0] == StatusName(t)[0];
    }
  }
}

=== FILE: records.dfy ===
/** What the two create routes (src/app/api/habits/route.ts and
    src/app/api/tasks/route.ts) share: the next display position, the
    identity ownership check, and the `||` defaults for optional text. */
module Records {
  import opened Wrappers
  import opened Numbers
  import opened Sorting

  /** `(max(orders) ?? -1) + 1`: one past the largest position, 0 when there
      is none. */
  function NextOrder(orders: seq<int>): (n: int)
    ensures |orders| == 0 ==> n == 0
    ensures forall i :: 0 <= i < |orders| ==> orders[i] < n
    ensures |orders| > 0 ==> exists i :: 0 <= i < |orders| && n == orders[i] + 1
  {
    if |orders| == 0 then 0
    else
      var prev := NextOrder(orders[..|orders| - 1]);
      var last := orders[|orders| - 1];
      if |orders| > 1 && prev > last + 1 then
        assert forall i :: 0 <= i < |orders| - 1 ==> orders[..|orders| - 1][i] == orders[i];
        prev
      else last + 1
  }

  /** A text field of a JSON body: `None` when absent or `null`. */
  type TextField = Option<string>

  /** `v || fallback`. */
  function OrDefault(v: TextField, fallback: string): (r: string)
    ensures Truthy(v) ==> r == v.value
    ensures !Truthy(v) ==> r == fallback
  {
    if Truthy(v) then v.value else fallback
  }

  /** An identity (a grouping label) and its owner. */
  datatype Identity = Identity(id: string, userId: string)

  /** `prisma.identity.findFirst({ where: { id, userId } })` found one. */
  predicate OwnsIdentity(identities: seq<Identity>, user: string, id: string) {
    exists i :: 0 <= i < |identities| && identities[i] == Identity(id, user)
  }

  /** In an ascending order of the old elements plus `x`, an `x` whose key is
      larger than every old key comes last, after the old elements in some
      order. */
  lemma GreatestIsLast<T>(r: seq<T>, prev: seq<T>, x: T, key: T -> int)
    requires SortedAsc(r, key)
    requires multiset(r) == multiset(prev) + multiset{x}
    requires forall i :: 0 <= i < |prev| ==> key(prev[i]) < key(x)
    ensures |r| == |prev| + 1 && r[|r| - 1] == x
    ensures multiset(r[..|r| - 1]) == multiset(prev)
  {
    assert |r| == |multiset(r)| == |prev| + 1;
    LastIsGreatest(r, prev, x, key);
    DropLast(r, prev, x);
  }

  /** The largest key of a sorted sequence sits at its end. */
  lemma LastIsGreatest<T>(r: seq<T>, prev: seq<T>, x: T, key: T -> int)
    requires SortedAsc(r, key)
    requires multiset(r) == multiset(prev) + multiset{x}
    requires forall i :: 0 <= i < |prev| ==> key(prev[i]) < key(x)
    ensures |r| > 0 && r[|r| - 1] == x
  {
    assert x in multiset(r);
    var p :| 0 <= p < |r| && r[p] == x;
    if r[|r| - 1] != x {
      LastOfPrev(r, prev, x);
      assert false;
    }
  }

  /** Removing the last element `x` removes one `x` from the multiset. */
  lemma DropLast<T>(r: seq<T>, prev: seq<T>, x: T)
    requires |r| > 0 && r[|r| - 1] == x
    requires multiset(r) == multiset(prev) + multiset{x}
    ensures multiset(r[..|r| - 1]) == multiset(prev)
  {
    var init := r[..|r| - 1];
    assert r == init + [x];
    assert multiset(r) == multiset(init) + multiset{x};
    forall y ensures multiset(init)[y] == multiset(prev)[y] {
      assert multiset(r)[y] == multiset(init)[y] + multiset{x}[y];
    }
  }

  lemma LastOfPrev<T>(r: seq<T>, prev: seq<T>, x: T)
    requires |r| > 0 && r[|r| - 1] != x
    requires multiset(r) == multiset(prev) + multiset{x}
    ensures exists j :: 0 <= j < |prev| && prev[j] == r[|r| - 1]
  {
    assert r[|r| - 1] in multiset(r);
  }

  /** The records of `store` that satisfy `p`, ascending by `key`: a
      `findMany` with a `where` and an `orderBy`. */
  function Listing<T>(store: seq<T>, p: T -> bool, key: T -> int): (r: seq<T>)
    ensures forall i :: 0 <= i < |r| ==> r[i] in store && p(r[i])
    ensures forall i :: 0 <= i < |store| && p(store[i]) ==> store[i] in r
    ensures SortedAsc(r, key)
    ensures multiset(r) == multiset(Filter(store, p))
  {
    var r := SortAsc(Filter(store, p), key);
    KeepsAll(Filter(store, p), r, p);
    forall i | 0 <= i < |r| ensures r[i] in store {
      assert r[i] in multiset(Filter(store, p));
    }
    forall i | 0 <= i < |store| && p(store[i]) ensures store[i] in r {
      assert store[i] in multiset(Filter(store, p));
    }
    r
  }

  /** A record appended with a key past every listed one ends the listing;
      the records listed before stay, in some order, ahead of it. */
  lemma AppendGreatest<T>(store: seq<T>, x: T, p: T -> bool, key: T -> int)
    requires p(x)
    requires forall i :: 0 <= i < |store| && p(store[i]) ==> key(store[i]) < key(x)
    ensures var before := Listing(store, p, key);
            var after := Listing(store + [x], p, key);
            |after| == |before| + 1 && after[|after| - 1] == x
            && multiset(after[..|after| - 1]) == multiset(before)
  {
    var before := Listing(store, p, key);
    FilterAppend(store, x, p);
    forall i | 0 <= i < |before| ensures key(before[i]) < key(x) {
      var j :| 0 <= j < |store| && store[j] == before[i];
    }
    GreatestIsLast(Listing(store + [x], p, key), before, x, key);
  }

  /** A record appended that the filter rejects changes nothing. */
  lemma AppendUnlisted<T>(store: seq<T>, x: T, p: T -> bool, key: T -> int)
    requires !p(x)
    ensures Listing(store + [x], p, key) == Listing(store, p, key)
  {
    FilterAppend(store, x, p);
    assert Filter(store + [x], p) == Filter(store, p);
  }
}

=== FILE: schedule.dfy ===
/** Habit scheduling in the statistics handler (src/app/api/stats/route.ts):
    whether a habit is due on a day, the day-by-day counting loops, the
    rounded-up day difference and the expected number of occurrences in a
    period. */
module Schedule {
  import opened Wrappers
  import opened Calendar

  /** `habit.frequency`. `Other` stands for any value outside the five named
      ones, which every `switch` sends to its `default:` branch. */
  datatype Frequency = Daily | Weekdays | Weekends | SpecificDays | XPerWeek | Other(name: string)

  /** The scheduling fields of a habit: `frequency`, `scheduledDays` and
      `targetPerWeek` (nullable). */
  datatype Rule = Rule(frequency: Frequency, scheduledDays: seq<int>, targetPerWeek: Option<int>)

  /** The weekdays on which a rule is due, written as sets: an independent
      statement of the schedule that `IsDayScheduled` must agree with. */
  function DueWeekdays(rule: Rule): set<int> {
    match rule.frequency
    case Weekdays => {1, 2, 3, 4, 5}
    case Weekends => {0, 6}
    case SpecificDays => set w | 0 <= w < 7 && w in rule.scheduledDays
    case _ => {0, 1, 2, 3, 4, 5, 6}
  }

  /** `isDayScheduled(frequency, scheduledDays, date)`. X_PER_WEEK and unknown
      frequencies are due every day. */
  function IsDayScheduled(rule: Rule, d: int): (due: bool)
    ensures due <==> Weekday(d) in DueWeekdays(rule)
    ensures rule.frequency.Daily? || rule.frequency.XPerWeek? || rule.frequency.Other? ==> due
  {
    var dayOfWeek := Weekday(d);
    match rule.frequency
    case Daily => true
    case Weekdays => dayOfWeek >= 1 && dayOfWeek <= 5
    case Weekends => dayOfWeek == 0 || dayOfWeek == 6
    case SpecificDays => dayOfWeek in rule.scheduledDays
    case XPerWeek => true
    case Other(_) => true
  }

  // ---------------------------------------------------------------------
  // The counting loops
  // ---------------------------------------------------------------------

  /** The test each counting loop applies to `current.getDay()`. */
  datatype DayFilter = WeekdayFilter | WeekendFilter | InList(days: seq<int>)

  predicate Matches(f: DayFilter, w: int) {
    match f
    case WeekdayFilter => w != 0 && w != 6
    case WeekendFilter => w == 0 || w == 6
    case InList(days) => w in days
  }

  /** How many of the `n` days starting at day `first` pass the filter. */
  function CountDays(f: DayFilter, first: int, n: nat): (c: nat)
    ensures c <= n
  {
    if n == 0 then 0
    else CountDays(f, first, n - 1) + (if Matches(f, Weekday(first + n - 1)) then 1 else 0)
  }

  /** How many times `while (current <= end)` runs when `current` starts at
      instant `start` and advances one day per iteration. */
  function Visits(start: int, end: int): (v: nat)
    ensures v == 0 <==> end < start
    ensures v > 0 ==> start + (v - 1) * MsPerDay <= end < start + v * MsPerDay
  {
    if end < start then 0 else (end - start) / MsPerDay + 1
  }

  /** From a midnight up to an instant, the loop visits each calendar day of
      the range once. */
  lemma VisitsFromMidnight(s: int, t: int)
    requires s <= DayOf(t)
    ensures Visits(StartOf(s), t) == DayOf(t) - s + 1
  {
  }

  /** `countWeekdays`, `countWeekends` and `countSpecificDays`: the three
      loops differ only in the test applied to each day. */
  method CountMatchingDays(f: DayFilter, start: int, end: int) returns (count: nat)
    ensures count == CountDays(f, DayOf(start), Visits(start, end))
  {
    count := 0;
    var current := start;
    ghost var k: nat := 0;
    while current <= end
      invariant current == start + k * MsPerDay
      invariant k == 0 || start + (k - 1) * MsPerDay <= end
      invariant count == CountDays(f, DayOf(start), k)
      decreases end - current
    {
      assert DayOf(current) == DayOf(start) + k;
      var day := Weekday(DayOf(current));
      if Matches(f, day) {
        count := count + 1;
      }
      current := current + MsPerDay;
      k := k + 1;
    }
    assert k == Visits(start, end);
  }

  /** Over any range the weekday and weekend loops split the visited days
      between them. */
  lemma {:induction false} WeekdaysPlusWeekends(first: int, n: nat)
    ensures CountDays(WeekdayFilter, first, n) + CountDays(WeekendFilter, first, n) == n
  {
    if n > 0 {
      WeekdaysPlusWeekends(first, n - 1);
    }
  }

  /** Listing all seven weekdays counts every visited day. */
  lemma {:induction false} AllSpecificDays(first: int, n: nat)
    ensures CountDays(InList([0, 1, 2, 3, 4, 5, 6]), first, n) == n
  {
    if n > 0 {
      AllSpecificDays(first, n - 1);
    }
  }

  /** Listing no weekday counts nothing. */
  lemma {:induction false} NoSpecificDays(first: int, n: nat)
    ensures CountDays(InList([]), first, n) == 0
  {
    if n > 0 {
      NoSpecificDays(first, n - 1);
    }
  }

  /** Any seven consecutive days contain five weekdays and two weekend days. */
  lemma SevenDayWindow(first: int)
    ensures CountDays(WeekdayFilter, first, 7) == 5
    ensures CountDays(WeekendFilter, first, 7) == 2
  {
    WeekOfWeekdays(first);
    UnrollWeek(WeekdayFilter, first);
    UnrollWeek(WeekendFilter, first);
  }

  function Hit(b: bool): nat { if b then 1 else 0 }

  lemma UnrollWeek(f: DayFilter, first: int)
    ensures CountDays(f, first, 7) ==
      Hit(Matches(f, Weekday(first))) + Hit(Matches(f, Weekday(first + 1)))
      + Hit(Matches(f, Weekday(first + 2))) + Hit(Matches(f, Weekday(first + 3)))
      + Hit(Matches(f, Weekday(first + 4))) + Hit(Matches(f, Weekday(first + 5)))
      + Hit(Matches(f, Weekday(first + 6)))
  {
    assert CountDays(f, first, 1) == Hit(Matches(f, Weekday(first)));
    assert CountDays(f, first, 2) == CountDays(f, first, 1) + Hit(Matches(f, Weekday(first + 1)));
    assert CountDays(f, first, 3) == CountDays(f, first, 2) + Hit(Matches(f, Weekday(first + 2)));
    assert CountDays(f, first, 4) == CountDays(f, first, 3) + Hit(Matches(f, Weekday(first + 3)));
    assert CountDays(f, first, 5) == CountDays(f, first, 4) + Hit(Matches(f, Weekday(first + 4)));
    assert CountDays(f, first, 6) == CountDays(f, first, 5) + Hit(Matches(f, Weekday(first + 5)));
  }

  lemma UnrollScheduledWeek(rule: Rule, first: int)
    ensures ScheduledDaysIn(rule, first, 7) ==
      Hit(IsDayScheduled(rule, first)) + Hit(IsDayScheduled(rule, first + 1))
      + Hit(IsDayScheduled(rule, first + 2)) + Hit(IsDayScheduled(rule, first + 3))
      + Hit(IsDayScheduled(rule, first + 4)) + Hit(IsDayScheduled(rule, first + 5))
      + Hit(IsDayScheduled(rule, first + 6))
  {
    assert ScheduledDaysIn(rule, first, 1) == Hit(IsDayScheduled(rule, first));
    assert ScheduledDaysIn(rule, first, 2) == ScheduledDaysIn(rule, first, 1) + Hit(IsDayScheduled(rule, first + 1));
    assert ScheduledDaysIn(rule, first, 3) == ScheduledDaysIn(rule, first, 2) + Hit(IsDayScheduled(rule, first + 2));
    assert ScheduledDaysIn(rule, first, 4) == ScheduledDaysIn(rule, first, 3) + Hit(IsDayScheduled(rule, first + 3));
    assert ScheduledDaysIn(rule, first, 5) == ScheduledDaysIn(rule, first, 4) + Hit(IsDayScheduled(rule, first + 4));
    assert ScheduledDaysIn(rule, first, 6) == ScheduledDaysIn(rule, first, 5) + Hit(IsDayScheduled(rule, first + 5));
  }

  /** The weekdays of seven consecutive days, one by one. */
  lemma WeekOfWeekdays(first: int)
    ensures var w := Weekday(first);
            && Weekday(first + 1) == (w + 1) % 7 && Weekday(first + 2) == (w + 2) % 7
            && Weekday(first + 3) == (w + 3) % 7 && Weekday(first + 4) == (w + 4) % 7
            && Weekday(first + 5) == (w + 5) % 7 && Weekday(first + 6) == (w + 6) % 7
  {
    WeekdayAfter(first, 1);
    WeekdayAfter(first, 2);
    WeekdayAfter(first, 3);
    WeekdayAfter(first, 4);
    WeekdayAfter(first, 5);
    WeekdayAfter(first, 6);
  }

  /** `k` days later the weekday has moved `k` places, modulo seven. */
  lemma WeekdayAfter(d: int, k: int)
    ensures Weekday(d + k) == (Weekday(d) + k) % 7
  {
    var q := (d + 4) / 7;
    assert d + 4 == 7 * q + Weekday(d);
    assert d + k + 4 == 7 * q + (Weekday(d) + k);
  }

  // ---------------------------------------------------------------------
  // Expected occurrences
  // ---------------------------------------------------------------------

  /** `getDaysDiff`: the absolute difference of two instants in days, rounded
      up (`Math.ceil`). */
  function DaysDiff(start: int, end: int): (days: nat)
    ensures var diff := if end >= start then end - start else start - end;
            days * MsPerDay >= diff && (days == 0 || (days - 1) * MsPerDay < diff)
  {
    var diff := if end >= start then end - start else start - end;
    (diff + MsPerDay - 1) / MsPerDay
  }

  lemma DaysDiffSymmetric(a: int, b: int)
    ensures DaysDiff(a, b) == DaysDiff(b, a)
    ensures DaysDiff(a, a) == 0
  {
  }

  /** From a midnight to a later instant, the day difference counts the
      instant's own day only when it is past midnight. */
  lemma DaysDiffFromMidnight(s: int, t: int)
    requires s <= DayOf(t)
    ensures DaysDiff(StartOf(s), t) == DayOf(t) - s + (if t % MsPerDay > 0 then 1 else 0)
  {
  }

  /** `targetPerWeek || 1`: a null or zero target counts as one. */
  function TargetOrOne(target: Option<int>): (t: int)
    ensures t != 0
  {
    if target.None? || target.value == 0 then 1 else target.value
  }

  /** `Math.max(1, Math.ceil(days / 7))`. */
  function WeeksSpanned(days: nat): (weeks: nat)
    ensures weeks >= 1
    ensures weeks * 7 >= days
    ensures weeks == 1 || (weeks - 1) * 7 < days
  {
    var w := (days + 6) / 7;
    if w < 1 then 1 else w
  }

  /** `countExpectedDays(frequency, scheduledDays, targetPerWeek, start, end)`. */
  function CountExpectedDays(rule: Rule, start: int, end: int): (expected: int)
    ensures !rule.frequency.XPerWeek? ==> expected >= 0
    ensures rule.frequency.XPerWeek? && TargetOrOne(rule.targetPerWeek) > 0 ==>
              expected >= 1 && expected >= TargetOrOne(rule.targetPerWeek)
  {
    var days := DaysDiff(start, end);
    var first := DayOf(start);
    var n := Visits(start, end);
    match rule.frequency
    case Daily => days
    case Weekdays => CountDays(WeekdayFilter, first, n)
    case Weekends => CountDays(WeekendFilter, first, n)
    case SpecificDays => CountDays(InList(rule.scheduledDays), first, n)
    case XPerWeek =>
      var t := TargetOrOne(rule.targetPerWeek);
      var weeks := WeeksSpanned(days);
      AtLeastOneTimes(weeks, t);
      weeks * t
    case Other(_) => days
  }

  /** The day-difference count is symmetric in its arguments for every rule
      that uses it. */
  lemma ExpectedDaysSymmetric(rule: Rule, a: int, b: int)
    requires rule.frequency.Daily? || rule.frequency.Other? || rule.frequency.XPerWeek?
    ensures CountExpectedDays(rule, a, b) == CountExpectedDays(rule, b, a)
  {
  }

  /** How many of the `n` days starting at `first` the rule is due on. */
  function ScheduledDaysIn(rule: Rule, first: int, n: nat): (c: nat)
    ensures c <= n
  {
    if n == 0 then 0
    else ScheduledDaysIn(rule, first, n - 1) + (if IsDayScheduled(rule, first + n - 1) then 1 else 0)
  }

  /** For the weekday-based rules the expected count is the number of visited
      days on which the habit is due. */
  lemma {:induction false} ExpectedCountsDueDays(rule: Rule, start: int, end: int)
    requires rule.frequency.Weekdays? || rule.frequency.Weekends? || rule.frequency.SpecificDays?
    ensures CountExpectedDays(rule, start, end) == ScheduledDaysIn(rule, DayOf(start), Visits(start, end))
  {
    var f := match rule.frequency
      case Weekdays => WeekdayFilter
      case Weekends => WeekendFilter
      case _ => InList(rule.scheduledDays);
    FilterAgreesWithSchedule(rule, f, DayOf(start), Visits(start, end));
  }

  lemma {:induction false} FilterAgreesWithSchedule(rule: Rule, f: DayFilter, first: int, n: nat)
    requires rule.frequency.Weekdays? ==> f == WeekdayFilter
    requires rule.frequency.Weekends? ==> f == WeekendFilter
    requires rule.frequency.SpecificDays? ==> f == InList(rule.scheduledDays)
    requires rule.frequency.Weekdays? || rule.frequency.Weekends? || rule.frequency.SpecificDays?
    ensures CountDays(f, first, n) == ScheduledDaysIn(rule, first, n)
  {
    if n > 0 {
      FilterAgreesWithSchedule(rule, f, first, n - 1);
    }
  }

  lemma AtLeastOneTimes(weeks: int, t: int)
    requires weeks >= 1
    ensures t > 0 ==> weeks * t >= t
  {
    if t > 0 {
      assert weeks * t == t + (weeks - 1) * t;
    }
  }

  /** In a Monday-to-Sunday week, WEEKDAYS marks exactly Monday to Friday,
      WEEKENDS exactly Saturday and Sunday, SPECIFIC_DAYS exactly the listed
      weekdays, and the other rules every day. */
  lemma DueDaysOfWeek(rule: Rule, monday: int, j: int)
    requires Weekday(monday) == 1 && 0 <= j < 7
    ensures rule.frequency.Weekdays? ==> (IsDayScheduled(rule, monday + j) <==> j < 5)
    ensures rule.frequency.Weekends? ==> (IsDayScheduled(rule, monday + j) <==> j >= 5)
    ensures rule.frequency.SpecificDays? ==>
              (IsDayScheduled(rule, monday + j) <==> (j + 1) % 7 in rule.scheduledDays)
  {
    WeekOfWeekdays(monday);
  }

  /** Due days in a Monday-to-Sunday week: 5 for WEEKDAYS, 2 for WEEKENDS,
      7 for DAILY, X_PER_WEEK and unknown frequencies. */
  lemma DueDaysPerWeek(rule: Rule, monday: int)
    requires Weekday(monday) == 1
    ensures rule.frequency.Weekdays? ==> ScheduledDaysIn(rule, monday, 7) == 5
    ensures rule.frequency.Weekends? ==> ScheduledDaysIn(rule, monday, 7) == 2
    ensures !(rule.frequency.Weekdays? || rule.frequency.Weekends? || rule.frequency.SpecificDays?) ==>
              ScheduledDaysIn(rule, monday, 7) == 7
  {
    WeekOfWeekdays(monday);
    UnrollScheduledWeek(rule, monday);
  }
}

=== FILE: settings.dfy ===
/** The user settings (src/app/api/settings/route.ts): rest days (weekday
    numbers 0 to 6), the vacation switch and its dates. GET creates the
    defaults on first use; PATCH validates the rest days and changes only
    the fields the body carries, creating the settings when needed. */
module Settings {
  import opened Wrappers
  import opened Js

  datatype Settings = Settings(restDays: seq<int>, vacationMode: bool,
                               vacationStart: Option<int>, vacationEnd: Option<int>)

  /** One settings record per user. */
  type SettingsStore = map<string, Settings>

  const Defaults: Settings := Settings([], false, None, None)

  /** Every rest day is a weekday number. */
  predicate ValidRestDays(days: seq<int>) {
    forall i :: 0 <= i < |days| ==> 0 <= days[i] <= 6
  }

  predicate StoreValid(store: SettingsStore) {
    forall u :: u in store ==> ValidRestDays(store[u].restDays)
  }

  /** GET: the user's settings, created with the defaults when missing. */
  function SettingsGet(store: SettingsStore, user: string): (r: (SettingsStore, Settings))
    ensures user in r.0 && r.1 == r.0[user]
    ensures user in store ==> r.0 == store && r.1 == store[user]
    ensures user !in store ==> r.0 == store[user := Defaults] && r.1 == Defaults
  {
    if user in store then (store, store[user]) else (store[user := Defaults], Defaults)
  }

  /** A vacation date in the body: absent, falsy (cleared), or an instant. */
  datatype DateInput = DateAbsent | DateFalsy | DateAt(t: int)

  /** The PATCH body; `restDays` is whatever JSON value was sent
      (`Undefined` when absent), `vacationMode` is `None` when absent. */
  datatype SettingsPatch = SettingsPatch(restDays: JsValue, vacationMode: Option<bool>,
                                         vacationStart: DateInput, vacationEnd: DateInput)

  predicate IsRestDay(v: JsValue) { v.Num? && 0 <= v.n <= 6 }

  /** The weekday numbers of an array whose elements all pass. */
  function RestDayNumbers(items: seq<JsValue>): (days: seq<int>)
    requires forall i :: 0 <= i < |items| ==> IsRestDay(items[i])
    ensures |days| == |items|
    ensures forall i :: 0 <= i < |items| ==> items[i] == Num(days[i])
    ensures ValidRestDays(days)
  {
    if |items| == 0 then []
    else
      var last := items[|items| - 1];
      assert IsRestDay(last);
      RestDayNumbers(items[..|items| - 1]) + [last.n]
  }

  /** `new Date(v)` for a truthy date, `null` for a falsy one. */
  function DateValue(d: DateInput): (r: Option<int>)
    ensures r.Some? <==> d.DateAt?
    ensures r.Some? ==> r.value == d.t
  {
    if d.DateAt? then Some(d.t) else None
  }

  /** The update: the fields the body carries, nothing else. */
  function Patched(s: Settings, p: SettingsPatch, days: Option<seq<int>>): Settings {
    Settings(if days.Some? then days.value else s.restDays,
             if p.vacationMode.Some? then p.vacationMode.value else s.vacationMode,
             if p.vacationStart.DateAbsent? then s.vacationStart else DateValue(p.vacationStart),
             if p.vacationEnd.DateAbsent? then s.vacationEnd else DateValue(p.vacationEnd))
  }

  /** The create branch: `restDays || []`, `vacationMode || false`, and a
      date only when one was given. */
  function CreatedFrom(p: SettingsPatch, days: Option<seq<int>>): Settings {
    Settings(if days.Some? then days.value else [],
             p.vacationMode.Some? && p.vacationMode.value,
             DateValue(p.vacationStart), DateValue(p.vacationEnd))
  }

  /** PATCH. A `restDays` that is present must be an array of weekday
      numbers, otherwise 400 and nothing is written. */
  function SettingsPatchApply(store: SettingsStore, user: string, p: SettingsPatch): (r: Result<(SettingsStore, Settings)>)
    ensures r.Err? <==> p.restDays != Undefined &&
                        (!p.restDays.Arr? || exists i :: 0 <= i < |p.restDays.items| && !IsRestDay(p.restDays.items[i]))
    ensures r.Err? ==> r.error.status == 400
    ensures r.Ok? ==> r.value.0 == store[user := r.value.1]
    ensures r.Ok? && p.restDays.Arr? ==> r.value.1.restDays == RestDayNumbers(p.restDays.items)
    ensures r.Ok? && p.restDays == Undefined ==>
              r.value.1.restDays == (if user in store then store[user].restDays else [])
    ensures r.Ok? && p.vacationMode.Some? ==> r.value.1.vacationMode == p.vacationMode.value
    ensures r.Ok? && p.vacationMode.None? ==>
              r.value.1.vacationMode == (user in store && store[user].vacationMode)
    ensures r.Ok? && !p.vacationStart.DateAbsent? ==> r.value.1.vacationStart == DateValue(p.vacationStart)
    ensures r.Ok? && p.vacationStart.DateAbsent? ==>
              r.value.1.vacationStart == (if user in store then store[user].vacationStart else None)
    ensures r.Ok? && !p.vacationEnd.DateAbsent? ==> r.value.1.vacationEnd == DateValue(p.vacationEnd)
    ensures r.Ok? && p.vacationEnd.DateAbsent? ==>
              r.value.1.vacationEnd == (if user in store then store[user].vacationEnd else None)
  {
    if p.restDays != Undefined && !p.restDays.Arr? then Err(HttpError(400, "restDays must be an array"))
    else if p.restDays.Arr? && exists i :: 0 <= i < |p.restDays.items| && !IsRestDay(p.restDays.items[i]) then
      Err(HttpError(400, "restDays must contain values 0-6"))
    else
      var days := if p.restDays.Arr? then Some(RestDayNumbers(p.restDays.items)) else None;
      var s := if user in store then Patched(store[user], p, days) else CreatedFrom(p, days);
      Ok((store[user := s], s))
  }

  /** PATCH keeps every stored rest day a weekday number. */
  lemma PatchKeepsValid(store: SettingsStore, user: string, p: SettingsPatch)
    requires StoreValid(store)
    requires SettingsPatchApply(store, user, p).Ok?
    ensures StoreValid(SettingsPatchApply(store, user, p).value.0)
  {
  }

  /** An empty body changes nothing for a user who has settings. */
  lemma EmptyPatchIsNoOp(store: SettingsStore, user: string)
    requires user in store
    ensures SettingsPatchApply(store, user, SettingsPatch(Undefined, None, DateAbsent, DateAbsent))
            == Ok((store, store[user]))
  {
    var s := store[user];
    assert store[user := s] == store;
  }

  /** Patching a user who has no settings yet gives what GET would have
      created, patched. */
  lemma PatchAfterGet(store: SettingsStore, user: string, p: SettingsPatch)
    requires user !in store
    requires SettingsPatchApply(store, user, p).Ok?
    ensures var s1 := SettingsGet(store, user).0;
            SettingsPatchApply(s1, user, p).Ok?
            && SettingsPatchApply(s1, user, p).value.1 == SettingsPatchApply(store, user, p).value.1
  {
  }
}

=== FILE: sorting.dfy ===
/** The one sort the model uses: a stable insertion sort on an integer key.
    The source sorts with `Array.prototype.sort` (stable) by a numeric
    difference such as `b.completionRate - a.completionRate`, and with
    Prisma's `orderBy`; both are this function with an ascending or a
    descending key. */
module Sorting {

  predicate SortedAsc<T>(s: seq<T>, key: T -> int) {
    forall i, j :: 0 <= i < j < |s| ==> key(s[i]) <= key(s[j])
  }

  predicate SortedDesc<T>(s: seq<T>, key: T -> int) {
    forall i, j :: 0 <= i < j < |s| ==> key(s[i]) >= key(s[j])
  }

  /** Inserts `x` before the first element whose key is not smaller, so that
      elements with equal keys keep their relative order. */
  function Insert<T>(x: T, s: seq<T>, key: T -> int): (r: seq<T>)
    requires SortedAsc(s, key)
    ensures SortedAsc(r, key)
    ensures multiset(r) == multiset(s) + multiset{x}
    ensures |r| == |s| + 1
    ensures r[0] == x || (|s| > 0 && r[0] == s[0])
  {
    if |s| == 0 || key(x) <= key(s[0]) then [x] + s
    else
      var rest := Insert(x, s[1..], key);
      assert s == [s[0]] + s[1..];
      assert key(s[0]) <= key(rest[0]);
      [s[0]] + rest
  }

  /** `s` ordered by ascending `key`. */
  function SortAsc<T>(s: seq<T>, key: T -> int): (r: seq<T>)
    ensures SortedAsc(r, key)
    ensures multiset(r) == multiset(s)
    ensures |r| == |s|
  {
    if |s| == 0 then []
    else
      assert s == [s[0]] + s[1..];
      Insert(s[0], SortAsc(s[1..], key), key)
  }

  /** `s` ordered by descending `key` (the source's `(a, b) => key(b) - key(a)`). */
  function SortDesc<T>(s: seq<T>, key: T -> int): (r: seq<T>)
    ensures SortedDesc(r, key)
    ensures multiset(r) == multiset(s)
    ensures |r| == |s|
  {
    var r := SortAsc(s, x => -key(x));
    assert forall i, j :: 0 <= i < j < |r| ==> -key(r[i]) <= -key(r[j]);
    r
  }

  /** The sort is stable: an already ordered sequence, ties included, comes
      back unchanged. */
  lemma {:induction false} SortAscKeepsSorted<T>(s: seq<T>, key: T -> int)
    requires SortedAsc(s, key)
    ensures SortAsc(s, key) == s
  {
    if |s| > 0 {
      assert SortedAsc(s[1..], key);
      SortAscKeepsSorted(s[1..], key);
      assert s == [s[0]] + s[1..];
    }
  }

  lemma SortDescKeepsSorted<T>(s: seq<T>, key: T -> int)
    requires SortedDesc(s, key)
    ensures SortDesc(s, key) == s
  {
    SortAscKeepsSorted(s, x => -key(x));
  }

  /** The elements of `s` whose key is `v`, in their order in `s`. */
  function KeepKey<T>(s: seq<T>, key: T -> int, v: int): seq<T> {
    if |s| == 0 then []
    else (if key(s[0]) == v then [s[0]] else []) + KeepKey(s[1..], key, v)
  }

  /** Inserting `x` places it before every element of its own key. */
  lemma {:induction false} InsertKeep<T>(x: T, s: seq<T>, key: T -> int, v: int)
    requires SortedAsc(s, key)
    ensures KeepKey(Insert(x, s, key), key, v) == (if key(x) == v then [x] else []) + KeepKey(s, key, v)
  {
    if |s| == 0 || key(x) <= key(s[0]) {
      var r := [x] + s;
      assert Insert(x, s, key) == r;
      assert r[0] == x && r[1..] == s;
    } else {
      var head := s[0];
      var rest := Insert(x, s[1..], key);
      assert SortedAsc(s[1..], key);
      InsertKeep(x, s[1..], key, v);
      var r := [head] + rest;
      assert Insert(x, s, key) == r;
      assert r[0] == head && r[1..] == rest;
      assert key(head) == v ==> key(x) != v;
    }
  }

  /** Stability: elements with equal keys keep their relative order. */
  lemma {:induction false} SortAscStable<T>(s: seq<T>, key: T -> int, v: int)
    ensures KeepKey(SortAsc(s, key), key, v) == KeepKey(s, key, v)
  {
    if |s| > 0 {
      SortAscStable(s[1..], key, v);
      InsertKeep(s[0], SortAsc(s[1..], key), key, v);
    }
  }

  lemma {:induction false} KeepNegated<T>(s: seq<T>, key: T -> int, v: int)
    ensures KeepKey(s, x => -key(x), -v) == KeepKey(s, key, v)
  {
    if |s| > 0 {
      KeepNegated(s[1..], key, v);
    }
  }

  /** The descending sort is stable too: for every key value, the elements
      with that key come out in their input order. */
  lemma SortDescStable<T>(s: seq<T>, key: T -> int, v: int)
    ensures KeepKey(SortDesc(s, key), key, v) == KeepKey(s, key, v)
  {
    var r := SortDesc(s, key);
    SortAscStable(s, x => -key(x), -v);
    KeepNegated(r, key, v);
    KeepNegated(s, key, v);
  }

  /** The first `n` elements (`slice(0, n)`). */
  function Take<T>(s: seq<T>, n: nat): (r: seq<T>)
    ensures |r| == if |s| < n then |s| else n
    ensures r == s[..|r|]
  {
    if |s| <= n then s else s[..n]
  }

  /** A prefix keeps the order, the distinct keys and any property every
      element has. */
  lemma PrefixKeeps<T, K>(s: seq<T>, r: seq<T>, key: T -> int, f: T -> K, p: T -> bool)
    requires |r| <= |s| && r == s[..|r|]
    ensures SortedDesc(s, key) ==> SortedDesc(r, key)
    ensures DistinctBy(s, f) ==> DistinctBy(r, f)
    ensures (forall i :: 0 <= i < |s| ==> p(s[i])) ==> forall i :: 0 <= i < |r| ==> p(r[i])
  {
    assert forall i :: 0 <= i < |r| ==> r[i] == s[i];
  }

  /** An element of a descending sequence left out of its first `n` means
      `n` were taken, none with a smaller key. */
  lemma OutsideTake<T>(s: seq<T>, n: nat, x: T, key: T -> int)
    requires SortedDesc(s, key) && x in s && x !in Take(s, n)
    ensures |Take(s, n)| == n
    ensures forall i :: 0 <= i < n ==> key(x) <= key(Take(s, n)[i])
  {
    var j :| 0 <= j < |s| && s[j] == x;
    var top := Take(s, n);
    assert forall i :: 0 <= i < |top| ==> s[i] == top[i];
  }

  /** No two positions of `s` share a key. */
  predicate DistinctBy<T, K(==)>(s: seq<T>, f: T -> K) {
    forall i, j :: 0 <= i < j < |s| ==> f(s[i]) != f(s[j])
  }

  /** Reordering or dropping elements keeps keys distinct. */
  lemma KeepsDistinct<T, K>(s: seq<T>, r: seq<T>, f: T -> K)
    requires multiset(r) <= multiset(s)
    requires DistinctBy(s, f)
    ensures DistinctBy(r, f)
  {
    forall i, j | 0 <= i < j < |r|
      ensures f(r[i]) != f(r[j])
    {
      if f(r[i]) == f(r[j]) {
        assert r[i] in multiset(s) && r[j] in multiset(s);
        var p :| 0 <= p < |s| && s[p] == r[i];
        var q :| 0 <= q < |s| && s[q] == r[j];
        assert p == q;
        DuplicateCounted(r, i, j);
        DistinctCountedOnce(s, f, r[i]);
        assert false;
      }
    }
  }

  /** Whatever holds of every element still holds after reordering or
      dropping elements. */
  lemma KeepsAll<T>(s: seq<T>, r: seq<T>, p: T -> bool)
    requires multiset(r) <= multiset(s)
    requires forall i :: 0 <= i < |s| ==> p(s[i])
    ensures forall i :: 0 <= i < |r| ==> p(r[i])
  {
    forall i | 0 <= i < |r| ensures p(r[i]) {
      assert r[i] in multiset(r);
      var j :| 0 <= j < |s| && s[j] == r[i];
    }
  }

  /** A value at two positions occurs at least twice. */
  lemma DuplicateCounted<T>(r: seq<T>, i: int, j: int)
    requires 0 <= i < j < |r| && r[i] == r[j]
    ensures multiset(r)[r[i]] >= 2
  {
    assert r == r[..j] + r[j..];
    assert r[i] in r[..j];
    assert r[j..][0] == r[j];
  }

  /** In a sequence with distinct keys, each value occurs at most once. */
  lemma {:induction false} DistinctCountedOnce<T, K>(s: seq<T>, f: T -> K, x: T)
    requires DistinctBy(s, f)
    ensures multiset(s)[x] <= 1
    decreases |s|
  {
    if |s| > 0 {
      var init := s[..|s| - 1];
      assert s == init + [s[|s| - 1]];
      assert DistinctBy(init, f);
      DistinctCountedOnce(init, f, x);
      if x == s[|s| - 1] {
        assert x !in init;
      }
    }
  }
}

=== FILE: stats_page.dfy ===
/** The display rules of the statistics page (src/app/stats/page.tsx): the
    minutes label, the trend arrow, the completion-rate colour, the bar
    chart scale and the list of running streaks. Rendering itself is not
    modelled; each rule is a function from the report's numbers to what the
    page shows. */
module StatsPage {
  import opened Wrappers
  import opened Numbers
  import opened Sorting
  import opened Streaks
  import opened Radar
  import opened Encoding

  // ---------------------------------------------------------------------
  // Minutes label
  // ---------------------------------------------------------------------

  /** `formatMinutes`: "45m", "2h", "1h 30m". The label reads back as the
      number it shows; it ends in "h" exactly for whole hours. */
  function FormatMinutes(minutes: nat): (r: string)
    ensures ReadDuration(r) == Some(minutes)
    ensures |r| >= 2
    ensures minutes < 60 ==> r == NatToString(minutes) + "m"
    ensures r[|r| - 1] == 'h' <==> minutes >= 60 && minutes % 60 == 0
    ensures r[|r| - 1] != 'h' ==> r[|r| - 1] == 'm'
  {
    if minutes < 60 then MinutesLabel(minutes)
    else if minutes % 60 == 0 then WholeHoursLabel(minutes)
    else MixedLabel(minutes)
  }

  /** "<n>m" below an hour. */
  function MinutesLabel(minutes: nat): (r: string)
    requires minutes < 60
    ensures ReadDuration(r) == Some(minutes) && |r| >= 2 && r[|r| - 1] == 'm'
    ensures r == NatToString(minutes) + "m"
  {
    NatToStringValue(minutes);
    UnitAfterDigits(NatToString(minutes), "m");
    NatToString(minutes) + "m"
  }

  /** "<h>h" for whole hours. */
  function WholeHoursLabel(minutes: nat): (r: string)
    requires minutes >= 60 && minutes % 60 == 0
    ensures ReadDuration(r) == Some(minutes) && |r| >= 2 && r[|r| - 1] == 'h'
  {
    var hours := minutes / 60;
    NatToStringValue(hours);
    UnitAfterDigits(NatToString(hours), "h");
    assert hours * 60 == minutes;
    NatToString(hours) + "h"
  }

  /** "<h>h <m>m" for hours and some minutes. */
  function MixedLabel(minutes: nat): (r: string)
    requires minutes >= 60 && minutes % 60 > 0
    ensures ReadDuration(r) == Some(minutes) && |r| >= 2 && r[|r| - 1] == 'm'
  {
    var hours, mins := minutes / 60, minutes % 60;
    NatToStringValue(hours);
    NatToStringValue(mins);
    HoursAndMinutes(NatToString(hours), NatToString(mins));
    assert hours * 60 + mins == minutes;
    HoursLabel(NatToString(hours), NatToString(mins))
  }

  /** Reads a minutes label back: "<n>m", "<n>h" or "<n>h <m>m". */
  function ReadDuration(s: string): Option<nat> {
    var k := DigitPrefixLength(s);
    if k == 0 then None else ReadUnit(DigitsValue(s[..k]), s[k..])
  }

  /** What follows the leading number `v` of a minutes label. */
  function ReadUnit(v: nat, rest: string): Option<nat> {
    if rest == "m" then Some(v)
    else if rest == "h" then Some(v * 60)
    else if |rest| > 2 && rest[..2] == "h " then ReadMinutesAfter(v, rest[2..])
    else None
  }

  /** The "<m>m" that follows "<v>h ". */
  function ReadMinutesAfter(v: nat, t: string): Option<nat> {
    var k := DigitPrefixLength(t);
    if k > 0 && |t| == k + 1 && t[k] == 'm' then Some(v * 60 + DigitsValue(t[..k])) else None
  }

  /** Digits followed by a unit split back into the two. */
  lemma UnitAfterDigits(a: string, u: string)
    requires AllDigits(a) && |a| > 0 && |u| > 0 && !IsDigit(u[0])
    ensures ReadDuration(a + u) == ReadUnit(DigitsValue(a), u)
  {
    var s := a + u;
    DigitsThenStop(a, u);
    assert s[..|a|] == a && s[|a|..] == u;
    DurationAt(s, a, u);
  }

  lemma DurationAt(s: string, a: string, u: string)
    requires AllDigits(a) && |a| > 0
    requires DigitPrefixLength(s) == |a| && s[..|a|] == a && s[|a|..] == u
    ensures ReadDuration(s) == ReadUnit(DigitsValue(a), u)
  {
  }

  /** "<m>m" after the hours reads as the minutes past them. */
  lemma MinutesAfterHours(v: nat, m: string)
    requires AllDigits(m) && |m| > 0
    ensures ReadMinutesAfter(v, m + "m") == Some(v * 60 + DigitsValue(m))
  {
    var t := m + "m";
    DigitsThenStop(m, "m");
    assert t[..|m|] == m && t[|m|] == 'm';
    MinutesAt(v, t, m);
  }

  lemma MinutesAt(v: nat, t: string, m: string)
    requires AllDigits(m) && |m| > 0
    requires DigitPrefixLength(t) == |m| && t[..|m|] == m && |t| == |m| + 1 && t[|m|] == 'm'
    ensures ReadMinutesAfter(v, t) == Some(v * 60 + DigitsValue(m))
  {
  }

  /** The label for hours and minutes, "<h>h <m>m". */
  function HoursLabel(h: string, m: string): (r: string)
    ensures |r| == |h| + |m| + 3 && r[|r| - 1] == 'm'
  {
    h + ("h " + (m + "m"))
  }

  lemma HoursAndMinutes(h: string, m: string)
    requires AllDigits(h) && |h| > 0 && AllDigits(m) && |m| > 0
    ensures ReadDuration(HoursLabel(h, m)) == Some(DigitsValue(h) * 60 + DigitsValue(m))
  {
    UnitAfterDigits(h, "h " + (m + "m"));
    HoursThenMinutes(DigitsValue(h), m);
  }

  lemma HoursThenMinutes(v: nat, m: string)
    requires AllDigits(m) && |m| > 0
    ensures ReadUnit(v, "h " + (m + "m")) == Some(v * 60 + DigitsValue(m))
  {
    var tail := "h " + (m + "m");
    assert tail[..2] == "h " && tail[2..] == m + "m";
    HoursAt(v, tail, m + "m");
    MinutesAfterHours(v, m);
  }

  lemma HoursAt(v: nat, tail: string, t: string)
    requires |tail| > 2 && tail[..2] == "h " && tail[2..] == t
    ensures ReadUnit(v, tail) == ReadMinutesAfter(v, t)
  {
    assert tail != "m" && tail != "h";
  }

  // ---------------------------------------------------------------------
  // Trend arrow and colours
  // ---------------------------------------------------------------------

  datatype TrendIcon = TrendingUp | TrendingDown | Level

  /** `getTrendIcon`: an arrow only for a change of more than 5 points. */
  function GetTrendIcon(trend: int): (icon: TrendIcon)
    ensures icon == TrendingUp <==> trend > 5
    ensures icon == TrendingDown <==> trend < -5
    ensures icon == Level <==> -5 <= trend <= 5
  {
    if trend > 5 then TrendingUp else if trend < -5 then TrendingDown else Level
  }

  /** A drop shows the mirror image of the same rise. */
  lemma TrendMirrored(trend: int)
    ensures GetTrendIcon(-trend) == match GetTrendIcon(trend)
                                    case TrendingUp => TrendingDown
                                    case TrendingDown => TrendingUp
                                    case Level => Level
  {
  }

  datatype Colour = GreenBar | YellowBar | RedBar | StoneBar

  /** How good a colour is: red 0, yellow 1, green 2 (stone is unranked). */
  function ColourRank(c: Colour): int {
    match c
    case RedBar => 0
    case YellowBar => 1
    case GreenBar => 2
    case StoneBar => -1
  }

  /** The completion-rate bar: green from 80, yellow from 50, red below. */
  function RateColour(rate: int): (c: Colour)
    ensures c == GreenBar <==> rate >= 80
    ensures c == YellowBar <==> 50 <= rate < 80
    ensures c == RedBar <==> rate < 50
    ensures c != StoneBar
  {
    if rate >= 80 then GreenBar else if rate >= 50 then YellowBar else RedBar
  }

  /** A better rate never shows a worse colour. */
  lemma RateColourMonotone(a: int, b: int)
    requires a <= b
    ensures ColourRank(RateColour(a)) <= ColourRank(RateColour(b))
  {
  }

  /** `getStatusColor`: the radar status names map to their colours, any
      other string to stone. */
  function StatusColour(status: string): (c: Colour)
    ensures status == "GREEN" <==> c == GreenBar
    ensures status == "YELLOW" <==> c == YellowBar
    ensures status == "RED" <==> c == RedBar
  {
    if status == "GREEN" then GreenBar
    else if status == "YELLOW" then YellowBar
    else if status == "RED" then RedBar
    else StoneBar
  }

  /** Every stored radar status gets its own colour, never stone. */
  lemma StatusColours(s: Status)
    ensures StatusColour(StatusName(s)) == match s
                                          case Green => GreenBar
                                          case Yellow => YellowBar
                                          case Red => RedBar
  {
  }

  // ---------------------------------------------------------------------
  // Bar charts
  // ---------------------------------------------------------------------

  /** The chart scale: `Math.max(...values, 1)`, or 1 for no values. */
  function ChartMax(values: seq<int>): (m: int)
    ensures m >= 1
    ensures forall i :: 0 <= i < |values| ==> values[i] <= m
    ensures m == 1 || exists i :: 0 <= i < |values| && values[i] == m
  {
    if |values| == 0 then 1
    else
      var prev := ChartMax(values[..|values| - 1]);
      var last := values[|values| - 1];
      assert forall i :: 0 <= i < |values| - 1 ==> values[..|values| - 1][i] == values[i];
      if last > prev then last else prev
  }

  /** A bar's height in percent: `Math.max(value / max * 100, 4)`. */
  function BarHeight(value: int, max: int): (h: real)
    requires max >= 1
    ensures h >= 4.0
    ensures value <= max ==> h <= 100.0
    ensures value == max ==> h == 100.0
  {
    var share := value as real / max as real * 100.0;
    if share > 4.0 then share else 4.0
  }

  /** A larger value never gets a shorter bar. */
  lemma BarHeightMonotone(a: int, b: int, max: int)
    requires max >= 1 && a <= b
    ensures BarHeight(a, max) <= BarHeight(b, max)
  {
    assert a as real / max as real <= b as real / max as real;
  }

  /** The bars of a chart, scaled to its largest value. */
  function Bars(values: seq<int>): (hs: seq<real>)
    ensures |hs| == |values|
    ensures forall i :: 0 <= i < |hs| ==> 4.0 <= hs[i] <= 100.0
    ensures forall i :: 0 <= i < |values| && values[i] == ChartMax(values) ==> hs[i] == 100.0
  {
    var m := ChartMax(values);
    seq(|values|, i requires 0 <= i < |values| => BarHeight(values[i], m))
  }

  /** A chart with a positive value has a full-height bar. */
  lemma TallestBarIsFull(values: seq<int>, i: int)
    requires 0 <= i < |values| && values[i] >= 1
    ensures exists j :: 0 <= j < |values| && Bars(values)[j] == 100.0
  {
    var m := ChartMax(values);
    var j :| 0 <= j < |values| && values[j] == m;
    assert Bars(values)[j] == 100.0;
  }

  // ---------------------------------------------------------------------
  // Running streaks
  // ---------------------------------------------------------------------

  predicate Running(r: StreakRow) { r.streak > 0 }

  /** The streak cards: the rows whose streak is running, in report order. */
  function ActiveStreaks(rows: seq<StreakRow>): (r: seq<StreakRow>)
    ensures forall i :: 0 <= i < |r| ==> r[i].streak > 0 && r[i] in rows
    ensures forall i :: 0 <= i < |rows| && rows[i].streak > 0 ==> rows[i] in r
  {
    Filter(rows, Running)
  }

  /** The "Current Streaks" card is drawn only for a non-empty report. */
  predicate ShowsStreakCard(rows: seq<StreakRow>) {
    |rows| > 0
  }

  /** The "no active streaks" message sits inside that card and shows when
      none of its rows has a running streak. */
  predicate ShowsNoStreaksMessage(rows: seq<StreakRow>) {
    ShowsStreakCard(rows) && |ActiveStreaks(rows)| == 0
  }

  lemma NoStreaksMessage(rows: seq<StreakRow>)
    ensures ShowsNoStreaksMessage(rows) <==> |rows| > 0 && forall i :: 0 <= i < |rows| ==> rows[i].streak == 0
    ensures !ShowsNoStreaksMessage([])
  {
    if |ActiveStreaks(rows)| > 0 {
      assert ActiveStreaks(rows)[0] in rows;
    }
  }

  /** The report lists the best streaks first, so the cards are a prefix
      of it: the rows up to the first broken streak. */
  lemma ActiveIsPrefix(rows: seq<StreakRow>)
    requires SortedDesc(rows, StreakOf)
    ensures ActiveStreaks(rows) == rows[..|ActiveStreaks(rows)|]
    ensures forall i :: |ActiveStreaks(rows)| <= i < |rows| ==> rows[i].streak == 0
  {
    assert forall i, j :: 0 <= i < j < |rows| && Running(rows[j]) ==> Running(rows[i]) by {
      forall i, j | 0 <= i < j < |rows| && Running(rows[j]) ensures Running(rows[i]) {
        assert StreakOf(rows[i]) >= StreakOf(rows[j]);
      }
    }
    FilterPrefix(rows, Running);
  }

  // ---------------------------------------------------------------------
  // The streak badge
  // ---------------------------------------------------------------------

  /** The fire sign the badge evidently means. */
  const Fire: string := "🔥"

  /** The badge's fire sign as the page spells it: the UTF-8 bytes of the
      fire sign read back as Windows-1252 text. */
  const FireAsWritten: string := "ðŸ”¥"

  /** The badge as the page writes it. */
  function StreakBadgeAsWritten(days: nat): (s: string)
    ensures |FireAsWritten| == 4 && |s| > 4 && s[..4] == FireAsWritten
  {
    FireAsWritten + " " + NatToString(days) + " days"
  }

  /** The badge: the fire sign, the streak length, "days". */
  function StreakBadge(days: nat): (s: string)
    ensures |s| > 2 && s[0] == '🔥' && s[1] == ' '
    ensures var k := DigitPrefixLength(s[2..]); k > 0 && DigitsValue(s[2..][..k]) == days && s[2..][k..] == " days"
  {
    var n := NatToString(days);
    NatToStringValue(days);
    DigitsThenStop(n, " days");
    var tail := n + " days";
    assert tail[..|n|] == n && tail[|n|..] == " days";
    assert (Fire + " ") + tail == Fire + " " + n + " days";
    AfterTwo(Fire + " ", tail);
    var s := (Fire + " ") + tail;
    s
  }

  lemma AfterTwo(p: string, t: string)
    requires |p| == 2
    ensures (p + t)[2..] == t && (p + t)[0] == p[0] && (p + t)[1] == p[1]
  {
  }

  /** The as-written sign is the intended one encoded as UTF-8 and decoded
      as Windows-1252: four characters where one was meant. */
  lemma FireMisdecoded()
    ensures Utf8('🔥') == [0xF0, 0x9F, 0x94, 0xA5]
    ensures FireAsWritten == Misdecoded('🔥')
    ensures Fire == ['🔥'] && FireAsWritten != Fire
  {
    assert Utf8('🔥') == [0xF0, 0x9F, 0x94, 0xA5];
    assert Windows1252(0x9F) == 'Ÿ' && Windows1252(0x94) == '”';
  }
}

=== FILE: stats_summary.dfy ===
/** The life-radar summary and the top focus activities of the statistics
    handler (src/app/api/stats/route.ts). */
module StatsSummary {
  import opened Wrappers
  import opened Numbers
  import opened Sorting
  import opened Tally
  import opened Radar
  import opened FocusActivity

  // ---------------------------------------------------------------------
  // Radar summary
  // ---------------------------------------------------------------------

  /** `statusValues`: GREEN 3, YELLOW 2, RED 1. */
  function StatusValue(s: Status): (v: int)
    ensures 1 <= v <= 3
    ensures v == 3 <==> s == Green
  {
    match s
    case Green => 3
    case Yellow => 2
    case Red => 1
  }

  /** The sum of an area's values over the check-ins. */
  function AreaSum(entries: seq<Statuses>, a: Area): (sum: int)
    ensures |entries| <= sum <= 3 * |entries|
  {
    if |entries| == 0 then 0
    else AreaSum(entries[..|entries| - 1], a) + StatusValue(entries[|entries| - 1].Get(a))
  }

  /** An average per area, in hundredths. */
  datatype Averages = Averages(body: int, mind: int, profession: int, projects: int, environment: int)
  {
    function Get(a: Area): int {
      match a
      case Body => body
      case Mind => mind
      case Profession => profession
      case Projects => projects
      case Environment => environment
    }
  }

  datatype RadarSummary = RadarSummary(weeksTracked: nat, averages: Averages, latest: Statuses)

  /** `Math.round((sum / entries.length) * 100) / 100`, kept in hundredths. */
  function AverageOf(entries: seq<Statuses>, a: Area): (avg: int)
    requires |entries| > 0
    ensures 2 * |entries| * avg <= 200 * AreaSum(entries, a) + |entries| < 2 * |entries| * (avg + 1)
    ensures 100 <= avg <= 300
  {
    var n := |entries|;
    var avg := RoundedPercent(AreaSum(entries, a), n);
    MulMonotone(2 * n, avg, 300);
    MulMonotone(2 * n, 99, avg);
    avg
  }

  /** `getRadarSummary` over the check-ins of the period, newest first. */
  function GetRadarSummary(entries: seq<Statuses>): (r: Option<RadarSummary>)
    ensures r.None? <==> |entries| == 0
    ensures r.Some? ==> r.value.weeksTracked == |entries| && r.value.latest == entries[0]
    ensures r.Some? ==> forall a :: r.value.averages.Get(a) == AverageOf(entries, a)
  {
    if |entries| == 0 then None
    else
      var averages := Averages(AverageOf(entries, Body), AverageOf(entries, Mind), AverageOf(entries, Profession),
                               AverageOf(entries, Projects), AverageOf(entries, Environment));
      Some(RadarSummary(|entries|, averages, entries[0]))
  }

  /** An area that was GREEN every week averages exactly 3.00. */
  lemma AlwaysGreen(entries: seq<Statuses>, a: Area)
    requires |entries| > 0
    requires forall i :: 0 <= i < |entries| ==> entries[i].Get(a) == Green
    ensures GetRadarSummary(entries).value.averages.Get(a) == 300
  {
    AllGreenSum(entries, a);
    var n := |entries|;
    var avg := AverageOf(entries, a);
    MulMonotone(2 * n, avg, 300);
    MulMonotone(2 * n, 300, avg);
  }

  lemma {:induction false} AllGreenSum(entries: seq<Statuses>, a: Area)
    requires forall i :: 0 <= i < |entries| ==> entries[i].Get(a) == Green
    ensures AreaSum(entries, a) == 3 * |entries|
  {
    if |entries| > 0 {
      AllGreenSum(entries[..|entries| - 1], a);
    }
  }

  // ---------------------------------------------------------------------
  // Top activities
  // ---------------------------------------------------------------------

  /** The `groupBy` key: `habitId`, `taskId`, `taskName`. */
  type GroupKey = (Option<string>, Option<string>, Option<string>)

  function GroupKeyOf(s: Session): GroupKey { (s.habitId, s.taskId, s.taskName) }

  function EntryKey(e: Entry<GroupKey>): GroupKey { e.key }

  /** One item per work session of the period: its group and minutes. */
  function GroupItems(sessions: seq<Session>): (items: seq<Item<GroupKey>>)
    ensures |items| == |sessions|
    ensures forall i :: 0 <= i < |items| ==> items[i] == (GroupKeyOf(sessions[i]), sessions[i].duration)
  {
    seq(|sessions|, i requires 0 <= i < |sessions| => (GroupKeyOf(sessions[i]), sessions[i].duration))
  }

  /** The groups with `_sum.duration` as total and `_count` as count. */
  function Groups(sessions: seq<Session>): (gs: seq<Entry<GroupKey>>)
    ensures DistinctBy(gs, EntryKey)
    ensures forall i :: 0 <= i < |gs| ==> gs[i].total == AmountFor(GroupItems(sessions), gs[i].key)
  {
    var gs := AddAll([], GroupItems(sessions));
    DistinctKeysPairwise(gs);
    forall p | 0 <= p < |gs| ensures gs[p].total == AmountFor(GroupItems(sessions), gs[p].key) {
      DistinctTotalFor(gs, p);
    }
    gs
  }

  predicate Positive(e: Entry<GroupKey>) { e.total > 0 }

  /** A positive group whose total is the sum over its sessions. */
  predicate Tallied(sessions: seq<Session>, e: Entry<GroupKey>) {
    e.total > 0 && e.total == AmountFor(GroupItems(sessions), e.key)
  }

  /** `.filter(a => a._sum.duration && a._sum.duration > 0)`. */
  function PositiveGroups(sessions: seq<Session>): (ps: seq<Entry<GroupKey>>)
    ensures DistinctBy(ps, EntryKey)
    ensures forall i :: 0 <= i < |ps| ==> Tallied(sessions, ps[i])
    ensures forall g :: g in Groups(sessions) && Positive(g) ==> g in multiset(ps)
  {
    var gs := Groups(sessions);
    var ps := Filter(gs, Positive);
    FilterSubMultiset(gs, Positive);
    KeepsDistinct(gs, ps, EntryKey);
    ps
  }

  /** The positive groups, longest total first. */
  function SortedGroups(sessions: seq<Session>): (sorted: seq<Entry<GroupKey>>)
    ensures SortedDesc(sorted, TotalOf)
    ensures DistinctBy(sorted, EntryKey)
    ensures forall i :: 0 <= i < |sorted| ==> Tallied(sessions, sorted[i])
    ensures forall g :: g in Groups(sessions) && Positive(g) ==> g in multiset(sorted)
  {
    var ps := PositiveGroups(sessions);
    var sorted := SortDesc(ps, TotalOf);
    KeepsDistinct(ps, sorted, EntryKey);
    KeepsAll(ps, sorted, (e: Entry<GroupKey>) => Tallied(sessions, e));
    sorted
  }

  /** `.slice(0, 5)` of the sorted positive groups. */
  function TopGroups(sessions: seq<Session>): (top: seq<Entry<GroupKey>>)
    ensures |top| <= 5
    ensures SortedDesc(top, TotalOf)
    ensures DistinctBy(top, EntryKey)
    ensures forall i :: 0 <= i < |top| ==> Tallied(sessions, top[i])
  {
    var sorted := SortedGroups(sessions);
    var top := Take(sorted, 5);
    PrefixKeeps(sorted, top, TotalOf, EntryKey,
                (e: Entry<GroupKey>) => Tallied(sessions, e));
    top
  }

  /** No positive group is left out in favour of a shorter one: a group
      that is not shown means five are shown, each at least as long. */
  lemma TopIsTop(sessions: seq<Session>, g: Entry<GroupKey>)
    requires g in Groups(sessions) && Positive(g)
    requires g !in TopGroups(sessions)
    ensures |TopGroups(sessions)| == 5
    ensures forall i :: 0 <= i < 5 ==> g.total <= TopGroups(sessions)[i].total
  {
    var sorted := SortedGroups(sessions);
    assert g in multiset(sorted);
    OutsideTake(sorted, 5, g, TotalOf);
  }

  /** A row of `topActivities`. */
  datatype TopActivity = TopActivity(name: string, emoji: string, kind: string, totalMinutes: int, sessions: nat)

  /** The name lookup for one group: a habit id is looked up among the
      habits and, when set, the task is not looked at even if the habit is
      gone; otherwise the task id is looked up among the tasks. The default
      is the free-text name or "Unnamed", with a stopwatch. */
  function Resolve(g: Entry<GroupKey>, habits: map<string, Named>, tasks: map<string, Named>): (a: TopActivity)
    ensures a.totalMinutes == g.total && a.sessions == g.count
    ensures a.kind == "habit" <==> Truthy(g.key.0) && g.key.0.value in habits
    ensures a.kind == "task" <==> !Truthy(g.key.0) && Truthy(g.key.1) && g.key.1.value in tasks
    ensures a.kind == "habit" ==> a.name == habits[g.key.0.value].name && a.emoji == habits[g.key.0.value].emoji
    ensures a.kind == "task" ==> a.name == tasks[g.key.1.value].name && a.emoji == tasks[g.key.1.value].emoji
    ensures a.kind != "habit" && a.kind != "task" ==>
              a.kind == "custom" && a.emoji == Stopwatch
              && a.name == (if Truthy(g.key.2) then g.key.2.value else "Unnamed")
  {
    var (habitId, taskId, taskName) := g.key;
    var fallback := TopActivity(if Truthy(taskName) then taskName.value else "Unnamed", Stopwatch, "custom", g.total, g.count);
    if Truthy(habitId) then
      if habitId.value in habits then
        fallback.(name := habits[habitId.value].name, emoji := habits[habitId.value].emoji, kind := "habit")
      else fallback
    else if Truthy(taskId) then
      if taskId.value in tasks then
        fallback.(name := tasks[taskId.value].name, emoji := tasks[taskId.value].emoji, kind := "task")
      else fallback
    else fallback
  }

  function RowMinutesOf(a: TopActivity): int { a.totalMinutes }

  function ResolveAll(gs: seq<Entry<GroupKey>>, habits: map<string, Named>, tasks: map<string, Named>)
    : (rows: seq<TopActivity>)
    ensures |rows| == |gs|
    ensures forall i :: 0 <= i < |gs| ==> rows[i] == Resolve(gs[i], habits, tasks)
    ensures forall i :: 0 <= i < |gs| ==> rows[i].totalMinutes == gs[i].total
    ensures SortedDesc(gs, TotalOf) ==> SortedDesc(rows, RowMinutesOf)
  {
    seq(|gs|, i requires 0 <= i < |gs| => Resolve(gs[i], habits, tasks))
  }

  /** `topActivities`: at most five named rows, longest first, each with
      positive minutes. */
  function TopActivities(sessions: seq<Session>, habits: map<string, Named>, tasks: map<string, Named>)
    : (rows: seq<TopActivity>)
    ensures |rows| <= 5
    ensures SortedDesc(rows, RowMinutesOf)
    ensures forall i :: 0 <= i < |rows| ==> rows[i].totalMinutes > 0
    ensures |rows| == |TopGroups(sessions)|
    ensures forall i :: 0 <= i < |rows| ==> rows[i].totalMinutes == AmountFor(GroupItems(sessions), TopGroups(sessions)[i].key)
  {
    var top := TopGroups(sessions);
    ResolveAll(top, habits, tasks)
  }

  /** Row `i` is the `i`-th top group under its resolved name. */
  lemma TopActivityNamed(sessions: seq<Session>, habits: map<string, Named>, tasks: map<string, Named>, i: nat)
    requires i < |TopActivities(sessions, habits, tasks)|
    ensures TopActivities(sessions, habits, tasks)[i] == Resolve(TopGroups(sessions)[i], habits, tasks)
  {
  }

  /** Unlike the Pomodoro statistics, which fall through to the task when a
      session's habit no longer exists, the top-activities lookup stops at
      the habit id and shows the session as a custom activity. */
  lemma MissingHabitHidesTask(s: Session, habits: map<string, Named>, tasks: map<string, Named>)
    requires Truthy(s.habitId) && s.habitId.value !in habits
    requires Truthy(s.taskId) && s.taskId.value in tasks
    ensures Classify(s, habits, tasks) == TaskActivity(s.taskId.value)
    ensures Resolve(Entry(GroupKeyOf(s), s.duration, 1), habits, tasks).kind == "custom"
  {
  }
}

=== FILE: stats_window.dfy ===
/** The reporting windows of the statistics handler
    (src/app/api/stats/route.ts): the `period` query parameter picks the
    current week (Monday to now), month or year, together with the whole
    period before it. Days are day numbers; every bound is taken at midnight. */
module StatsWindow {
  import opened Wrappers
  import opened Calendar

  datatype Period = Week | Month | Year

  /** `searchParams.get("period") || "week"`, then the `if`/`else if`/`else`
      chain: any value other than "week" and "month" selects the year. */
  function PeriodOf(param: Option<string>): (p: Period)
    ensures p.Week? <==> !Truthy(param) || param.value == "week"
    ensures p.Month? <==> Truthy(param) && param.value == "month"
  {
    var period := if Truthy(param) then param.value else "week";
    if period == "week" then Week
    else if period == "month" then Month
    else Year
  }

  /** `startDate`, `previousStartDate` and `previousEndDate`, as days. */
  datatype Window = Window(start: int, prevStart: int, prevEnd: int)

  /** The window for a period, seen from the instant `now`. */
  function WindowFor(p: Period, now: Instant): (w: Window)
    requires now.Valid()
    ensures w.start <= now.Day()
    ensures w.prevEnd + 1 == w.start
    ensures p.Week? ==> Weekday(w.start) == 1 && now.Day() < w.start + 7
    ensures p.Week? ==> w.prevStart == w.start - 7
    ensures p.Month? ==> w.start == ToDay(CivilDate(now.date.year, now.date.month, 1))
    ensures p.Month? ==> var prev := PreviousMonth(now.date.year, now.date.month);
                         w.prevStart == ToDay(CivilDate(prev.0, prev.1, 1))
                         && w.prevEnd - w.prevStart + 1 == DaysInMonth(prev.0, prev.1)
    ensures p.Year? ==> w.start == ToDay(CivilDate(now.date.year, 1, 1))
    ensures p.Year? ==> w.prevStart == ToDay(CivilDate(now.date.year - 1, 1, 1))
                        && w.prevEnd - w.prevStart + 1 == YearLength(now.date.year - 1)
  {
    match p
    case Week => WeekWindow(now.Day())
    case Month => MonthWindow(now.date.year, now.date.month)
    case Year => YearWindow(now.date.year)
  }

  /** Monday of the week of day `d`, and the seven days before it. */
  function WeekWindow(d: int): (w: Window)
    ensures Weekday(w.start) == 1 && w.start <= d < w.start + 7
    ensures w.prevEnd + 1 == w.start && w.prevStart == w.start - 7
  {
    var start := MondayOnOrBefore(d);
    Window(start, start - 7, start - 1)
  }

  /** The first of month `m` of year `y`, and the whole month before it. */
  function MonthWindow(y: int, m: int): (w: Window)
    requires 1 <= m <= 12
    ensures w.start == ToDay(CivilDate(y, m, 1))
    ensures w.prevEnd + 1 == w.start
    ensures var prev := PreviousMonth(y, m);
            w.prevStart == ToDay(CivilDate(prev.0, prev.1, 1))
            && w.prevEnd - w.prevStart + 1 == DaysInMonth(prev.0, prev.1)
  {
    var prev := PreviousMonth(y, m);
    FirstFollowsPreviousMonth(y, m);
    Window(ToDay(CivilDate(y, m, 1)), ToDay(CivilDate(prev.0, prev.1, 1)), ToDay(LastOfMonth(prev.0, prev.1)))
  }

  /** January 1st of year `y`, and the whole year before it. */
  function YearWindow(y: int): (w: Window)
    ensures w.start == ToDay(CivilDate(y, 1, 1))
    ensures w.prevEnd + 1 == w.start
    ensures w.prevStart == ToDay(CivilDate(y - 1, 1, 1))
            && w.prevEnd - w.prevStart + 1 == YearLength(y - 1)
  {
    YearStep(y - 1);
    MonthStep(y - 1, 12);
    MonthsFillYear(y - 1);
    Window(ToDay(CivilDate(y, 1, 1)), ToDay(CivilDate(y - 1, 1, 1)), ToDay(CivilDate(y - 1, 12, 31)))
  }

  /** A Sunday belongs to the week that began six days before it. */
  lemma SundayWeek(now: Instant)
    requires now.Valid() && Weekday(now.Day()) == 0
    ensures WindowFor(Week, now).start == now.Day() - 6
  {
  }
}

=== FILE: stoic.dfy ===
/** The daily Stoic reflection (src/app/api/stoic/route.ts): one of three
    questions chosen by the day of the year, and one answer per user and
    day, at most 300 characters long. */
module Stoic {
  import opened Wrappers
  import opened Js
  import opened Calendar

  const Questions: seq<string> := [
    "O que eu controlei hoje?",
    "Onde reagi mal?",
    "O que fiz apesar da vontade?"
  ]

  const MaxAnswer: nat := 300

  /** The day of the year, 1 for January 1st: the distance from the day
      before January 1st (`new Date(year, 0, 0)`). */
  function DayOfYear(c: CivilDate): (n: int)
    requires c.Valid()
    ensures n == ToDay(c) - ToDay(LastOfMonth(c.year - 1, 12))
    ensures 1 <= n <= YearLength(c.year)
  {
    YearStep(c.year - 1);
    MonthStep(c.year - 1, 12);
    MonthsFillYear(c.year - 1);
    MonthStep(c.year, c.month);
    MonthsFillYear(c.year);
    assert DaysBeforeMonth(c.year, c.month) + c.day <= DaysBeforeMonth(c.year, c.month + 1) by {
      if c.month < 12 { MonthStep(c.year, c.month); }
    }
    assert DaysBeforeMonth(c.year, c.month + 1) <= DaysBeforeMonth(c.year, 13) by {
      MonthsUpToYear(c.year, c.month + 1);
    }
    DaysBeforeMonth(c.year, c.month) + c.day
  }

  lemma MonthsUpToYear(y: int, m: int)
    requires 1 <= m <= 13
    ensures DaysBeforeMonth(y, m) <= DaysBeforeMonth(y, 13)
  {
  }

  /** `getDailyQuestion`. */
  function DailyQuestion(c: CivilDate): (q: string)
    requires c.Valid()
    ensures q == Questions[DayOfYear(c) % 3]
  {
    Questions[DayOfYear(c) % |Questions|]
  }

  /** Within a year the questions follow one another in turn. */
  lemma NextDayNextQuestion(c: CivilDate)
    requires c.Valid() && NextDay(c).year == c.year
    ensures DayOfYear(NextDay(c)) == DayOfYear(c) + 1
    ensures DailyQuestion(NextDay(c)) == Questions[(DayOfYear(c) % 3 + 1) % 3]
  {
    var n := NextDay(c);
    SameYearNext(c, n);
    NextIndex(DayOfYear(c));
  }

  lemma SameYearNext(a: CivilDate, b: CivilDate)
    requires a.Valid() && b.Valid() && a.year == b.year && ToDay(b) == ToDay(a) + 1
    ensures DayOfYear(b) == DayOfYear(a) + 1
  {
  }

  lemma NextIndex(k: int)
    ensures (k + 1) % 3 == (k % 3 + 1) % 3
  {
  }

  /** At the turn of a common year the rotation steps back: December 31st
      asks the third question and January 1st the second. */
  lemma YearTurn(y: int)
    requires !IsLeapYear(y)
    ensures DailyQuestion(CivilDate(y, 12, 31)) == Questions[2]
    ensures DailyQuestion(CivilDate(y + 1, 1, 1)) == Questions[1]
  {
    assert DayOfYear(CivilDate(y, 12, 31)) == 365;
    assert DayOfYear(CivilDate(y + 1, 1, 1)) == 1;
  }

  /** A stored reflection. */
  datatype StoicEntry = StoicEntry(question: string, answer: string)

  /** One entry per (user, day): the store's unique index. */
  type StoicStore = map<(string, int), StoicEntry>

  /** GET: today's entry, if any, and today's question. */
  function StoicGet(store: StoicStore, user: string, today: CivilDate): (r: (Option<StoicEntry>, string))
    requires today.Valid()
    ensures r.0.Some? <==> (user, ToDay(today)) in store
    ensures r.0.Some? ==> r.0.value == store[(user, ToDay(today))]
    ensures r.1 == DailyQuestion(today)
  {
    var key := (user, ToDay(today));
    (if key in store then Some(store[key]) else None, DailyQuestion(today))
  }

  /** POST: the answer must be a non-empty string of at most 300
      characters; a new entry stores today's question, an existing one gets
      only its answer replaced. */
  function StoicPost(store: StoicStore, user: string, answer: JsValue, today: CivilDate)
    : (r: Result<(StoicStore, StoicEntry)>)
    requires today.Valid()
    ensures r.Err? <==> !(answer.Str? && 0 < |answer.s| <= MaxAnswer)
    ensures r.Err? ==> r.error.status == 400
    ensures r.Ok? ==> r.value.0 == store[(user, ToDay(today)) := r.value.1] && r.value.1.answer == answer.s
    ensures r.Ok? && (user, ToDay(today)) in store ==>
              r.value.1.question == store[(user, ToDay(today))].question
    ensures r.Ok? && (user, ToDay(today)) !in store ==> r.value.1.question == DailyQuestion(today)
  {
    if !JsTruthy(answer) || !answer.Str? then Err(HttpError(400, "Answer is required"))
    else if |answer.s| > MaxAnswer then Err(HttpError(400, "Answer must be 300 characters or less"))
    else
      var key := (user, ToDay(today));
      var entry := if key in store then store[key].(answer := answer.s)
                   else StoicEntry(DailyQuestion(today), answer.s);
      Ok((store[key := entry], entry))
  }

  /** The limit is inclusive: 300 characters pass, 301 do not. */
  lemma LengthLimit(store: StoicStore, user: string, a: string, today: CivilDate)
    requires today.Valid()
    ensures |a| == 300 ==> StoicPost(store, user, Str(a), today).Ok?
    ensures |a| == 301 ==> StoicPost(store, user, Str(a), today).Err?
  {
  }

  /** Answering twice on the same day keeps the first question and the last
      answer. */
  lemma AnswerTwice(store: StoicStore, user: string, a: JsValue, b: JsValue, today: CivilDate)
    requires today.Valid()
    requires StoicPost(store, user, a, today).Ok?
    requires StoicPost(StoicPost(store, user, a, today).value.0, user, b, today).Ok?
    ensures var s1 := StoicPost(store, user, a, today).value;
            var s2 := StoicPost(s1.0, user, b, today).value;
            s2.1 == StoicEntry(s1.1.question, b.s) && s2.0.Keys == s1.0.Keys
  {
  }
}

=== FILE: streaks.dfy ===
/** The streak walk of `getCurrentStreaks` (src/app/api/stats/route.ts):
    starting today, go back one day at a time for at most 365 days; a
    scheduled day with a completion extends the streak, a scheduled day
    without one ends the walk, except today, which may still be open.
    Completions are given as the set of day numbers on which the habit was
    completed. */
module Streaks {
  import opened Wrappers
  import opened Calendar
  import opened Schedule
  import opened Sorting

  /** How many days the walk examines at most (`for (let i = 0; i < 365; i++)`). */
  const Horizon: nat := 365

  /** A scheduled day with no completion. */
  predicate Missed(rule: Rule, done: set<int>, d: int) {
    IsDayScheduled(rule, d) && d !in done
  }

  /** A scheduled day with a completion. */
  predicate Kept(rule: Rule, done: set<int>, d: int) {
    IsDayScheduled(rule, d) && d in done
  }

  /** The first offset `k >= i` (counted back from today) at which a scheduled
      day was missed, or the horizon when there is none. */
  function StopAt(rule: Rule, done: set<int>, today: int, i: nat): (k: nat)
    requires 1 <= i <= Horizon
    ensures i <= k <= Horizon
    ensures forall d :: today - k < d <= today - i ==> !Missed(rule, done, d)
    ensures k < Horizon ==> Missed(rule, done, today - k)
    decreases Horizon - i
  {
    if i == Horizon then Horizon
    else if Missed(rule, done, today - i) then i
    else StopAt(rule, done, today, i + 1)
  }

  /** The walk stops at `k` when every scheduled day between offsets `i`
      and `k` was kept and day `k` was missed (or `k` is the horizon). */
  lemma {:induction false} StopAtIs(rule: Rule, done: set<int>, today: int, i: nat, k: nat)
    requires 1 <= i <= k <= Horizon
    requires forall d :: today - k < d <= today - i ==> !Missed(rule, done, d)
    requires k < Horizon ==> Missed(rule, done, today - k)
    ensures StopAt(rule, done, today, i) == k
    decreases k - i
  {
    if i < k {
      assert !Missed(rule, done, today - i);
      StopAtIs(rule, done, today, i + 1, k);
    }
  }

  /** Kept days among the `n` days ending today. */
  function Hits(rule: Rule, done: set<int>, today: int, n: nat): (c: nat)
    ensures c <= n
  {
    if n == 0 then 0
    else Hits(rule, done, today, n - 1) + Hit(Kept(rule, done, today - (n - 1)))
  }

  /** The streak: the kept days from today back to, not including, the first
      missed day before today (or over the whole horizon). */
  function Streak(rule: Rule, done: set<int>, today: int): (s: nat)
    ensures s <= Horizon
  {
    Hits(rule, done, today, StopAt(rule, done, today, 1))
  }

  /** The loop of `getCurrentStreaks` for one habit. */
  method CurrentStreak(rule: Rule, done: set<int>, today: int) returns (streak: nat)
    ensures streak == Streak(rule, done, today)
  {
    streak := 0;
    var checkDate := today;
    var i := 0;
    while i < Horizon
      invariant 0 <= i <= Horizon
      invariant checkDate == today - i
      invariant forall d :: today - i < d < today ==> !Missed(rule, done, d)
      invariant streak == Hits(rule, done, today, i)
    {
      if IsDayScheduled(rule, checkDate) {
        if checkDate in done {
          streak := streak + 1;
        } else if i > 0 {
          StopAtIs(rule, done, today, 1, i);
          break;
        }
      }
      checkDate := checkDate - 1;
      i := i + 1;
    }
    if i == Horizon {
      StopAtIs(rule, done, today, 1, Horizon);
    }
  }

  /** Only the kept and missed days decide the streak: two completion sets
      that agree on the scheduled days give the same streak. */
  lemma {:induction false} StreakIgnoresUnscheduled(rule: Rule, a: set<int>, b: set<int>, today: int)
    requires forall d :: IsDayScheduled(rule, d) ==> (d in a <==> d in b)
    ensures Streak(rule, a, today) == Streak(rule, b, today)
  {
    SameStop(rule, a, b, today, 1);
    SameHits(rule, a, b, today, StopAt(rule, a, today, 1));
  }

  lemma {:induction false} SameStop(rule: Rule, a: set<int>, b: set<int>, today: int, i: nat)
    requires 1 <= i <= Horizon
    requires forall d :: d != today && IsDayScheduled(rule, d) ==> (d in a <==> d in b)
    ensures StopAt(rule, a, today, i) == StopAt(rule, b, today, i)
    decreases Horizon - i
  {
    if i < Horizon {
      assert Missed(rule, a, today - i) == Missed(rule, b, today - i);
      SameStop(rule, a, b, today, i + 1);
    }
  }

  lemma {:induction false} SameHits(rule: Rule, a: set<int>, b: set<int>, today: int, n: nat)
    requires forall d :: IsDayScheduled(rule, d) ==> (d in a <==> d in b)
    ensures Hits(rule, a, today, n) == Hits(rule, b, today, n)
  {
    if n > 0 {
      SameHits(rule, a, b, today, n - 1);
      assert Kept(rule, a, today - (n - 1)) == Kept(rule, b, today - (n - 1));
    }
  }

  /** Today may still be open: removing today's completion lowers the streak
      by exactly the one day it contributed and never cuts the walk short. */
  lemma {:induction false} TodayStaysOpen(rule: Rule, done: set<int>, today: int)
    ensures Streak(rule, done, today) ==
            Streak(rule, done - {today}, today) + Hit(Kept(rule, done, today))
  {
    var open := done - {today};
    SameStop(rule, done, open, today, 1);
    HitsWithoutToday(rule, done, today, StopAt(rule, done, today, 1));
  }

  lemma {:induction false} HitsWithoutToday(rule: Rule, done: set<int>, today: int, n: nat)
    requires n >= 1
    ensures Hits(rule, done, today, n) ==
            Hits(rule, done - {today}, today, n) + Hit(Kept(rule, done, today))
  {
    if n > 1 {
      HitsWithoutToday(rule, done, today, n - 1);
      assert Kept(rule, done, today - (n - 1)) == Kept(rule, done - {today}, today - (n - 1));
    }
  }

  /** A missed scheduled day `k` days ago (k >= 1) caps the streak at `k`:
      nothing before it is counted. */
  lemma MissedDayEndsStreak(rule: Rule, done: set<int>, today: int, k: nat)
    requires 1 <= k < Horizon && Missed(rule, done, today - k)
    ensures Streak(rule, done, today) <= k
  {
    var s := StopAt(rule, done, today, 1);
    assert s <= k;
    HitsMonotone(rule, done, today, s, k);
  }

  lemma {:induction false} HitsMonotone(rule: Rule, done: set<int>, today: int, m: nat, n: nat)
    requires m <= n
    ensures Hits(rule, done, today, m) <= Hits(rule, done, today, n)
    decreases n - m
  {
    if m < n {
      HitsMonotone(rule, done, today, m, n - 1);
    }
  }

  /** For a DAILY habit completed on each of the `n` days ending today and
      not the day before them, the streak is `n`. */
  lemma DailyRun(done: set<int>, today: int, n: nat)
    requires 1 <= n < Horizon
    requires forall d :: today - n < d <= today ==> d in done
    requires today - n !in done
    ensures Streak(Rule(Daily, [], None), done, today) == n
  {
    var rule := Rule(Daily, [], None);
    StopAtIs(rule, done, today, 1, n);
    AllKept(rule, done, today, n);
  }

  /** The same run with today not yet completed still counts the `n` days
      before today. */
  lemma DailyRunOpenToday(done: set<int>, today: int, n: nat)
    requires 1 <= n < Horizon - 1
    requires today !in done
    requires forall d :: today - n <= d < today ==> d in done
    requires today - (n + 1) !in done
    ensures Streak(Rule(Daily, [], None), done, today) == n
  {
    var rule := Rule(Daily, [], None);
    TodayStaysOpen(rule, done + {today}, today);
    assert (done + {today}) - {today} == done;
    DailyRun(done + {today}, today, n + 1);
  }

  lemma {:induction false} AllKept(rule: Rule, done: set<int>, today: int, n: nat)
    requires forall d :: today - n < d <= today ==> Kept(rule, done, d)
    ensures Hits(rule, done, today, n) == n
  {
    if n > 0 {
      AllKept(rule, done, today, n - 1);
    }
  }

  // ---------------------------------------------------------------------
  // The reported list
  // ---------------------------------------------------------------------

  /** The fields of a habit that the streak report uses. */
  datatype Tracked = Tracked(id: string, name: string, emoji: string, rule: Rule, done: set<int>)

  datatype StreakRow = StreakRow(id: string, name: string, emoji: string, streak: nat)

  function StreakOf(r: StreakRow): int { r.streak }

  function RowFor(h: Tracked, today: int): StreakRow {
    StreakRow(h.id, h.name, h.emoji, Streak(h.rule, h.done, today))
  }

  function Rows(hs: seq<Tracked>, today: int): (rs: seq<StreakRow>)
    ensures |rs| == |hs|
    ensures forall i :: 0 <= i < |hs| ==> rs[i] == RowFor(hs[i], today)
  {
    seq(|hs|, i requires 0 <= i < |hs| => RowFor(hs[i], today))
  }

  /** `getCurrentStreaks`: the first five habits, each with its streak,
      best streak first. */
  function CurrentStreaks(habits: seq<Tracked>, today: int): (rs: seq<StreakRow>)
    ensures |rs| == if |habits| < 5 then |habits| else 5
    ensures SortedDesc(rs, StreakOf)
    ensures multiset(rs) == multiset(Rows(Take(habits, 5), today))
    ensures forall i :: 0 <= i < |rs| ==> rs[i].streak <= Horizon
  {
    var rows := Rows(Take(habits, 5), today);
    var rs := SortDesc(rows, StreakOf);
    KeepsAll(rows, rs, (r: StreakRow) => r.streak <= Horizon);
    rs
  }
}

=== FILE: tally.dfy ===
/** An insertion-ordered accumulator keyed by `K`: the JavaScript
    `Map`/object the handlers fill with `map.set(k, (map.get(k) || 0) + x)`
    or `stats[key].totalMinutes += x; stats[key].sessionCount++`, and the
    database `groupBy` with `_sum` and `_count`. A key that is not present
    yet is appended at the end, as a JavaScript `Map` does. */
module Tally {
  import opened Numbers

  /** One bucket: its key, the running sum and the number of additions. */
  datatype Entry<K> = Entry(key: K, total: int, count: nat)

  function TotalOf<K>(e: Entry<K>): int { e.total }
  function CountOf<K>(e: Entry<K>): int { e.count }

  /** The keys that have a bucket. */
  function Keys<K(==)>(es: seq<Entry<K>>): set<K> {
    if |es| == 0 then {} else {es[0].key} + Keys(es[1..])
  }

  /** No key has two buckets. */
  predicate DistinctKeys<K(==)>(es: seq<Entry<K>>) {
    |es| == 0 || (es[0].key !in Keys(es[1..]) && DistinctKeys(es[1..]))
  }

  /** The bucket total for `k`, 0 when there is no bucket (`get(k) || 0`). */
  function TotalFor<K(==)>(es: seq<Entry<K>>, k: K): int {
    if |es| == 0 then 0
    else if es[0].key == k then es[0].total
    else TotalFor(es[1..], k)
  }

  /** The bucket count for `k`, 0 when there is no bucket. */
  function CountFor<K(==)>(es: seq<Entry<K>>, k: K): int {
    if |es| == 0 then 0
    else if es[0].key == k then es[0].count
    else CountFor(es[1..], k)
  }

  lemma {:induction false} SumByCons<T>(x: T, s: seq<T>, f: T -> int)
    ensures SumBy([x] + s, f) == f(x) + SumBy(s, f)
  {
    SumByAppend([x], s, f);
    assert [x][..0] == [];
  }

  /** What a bucket put in front of others contributes to each summary. */
  lemma Cons<K>(e: Entry<K>, rest: seq<Entry<K>>)
    ensures var r := [e] + rest;
            r[1..] == rest && Keys(r) == {e.key} + Keys(rest)
            && (DistinctKeys(r) <==> e.key !in Keys(rest) && DistinctKeys(rest))
            && (forall k' :: TotalFor(r, k') == if e.key == k' then e.total else TotalFor(rest, k'))
            && (forall k' :: CountFor(r, k') == if e.key == k' then e.count else CountFor(rest, k'))
            && SumBy(r, TotalOf) == e.total + SumBy(rest, TotalOf)
            && SumBy(r, CountOf) == e.count + SumBy(rest, CountOf)
  {
    var r := [e] + rest;
    assert r[1..] == rest;
    SumByCons(e, rest, TotalOf);
    SumByCons(e, rest, CountOf);
  }

  /** Adds `amount` to the bucket `k`, creating it at the end if absent. */
  function Add<K(==,!new)>(es: seq<Entry<K>>, k: K, amount: int): (r: seq<Entry<K>>)
    requires DistinctKeys(es)
    ensures DistinctKeys(r)
    ensures Keys(r) == Keys(es) + {k}
    ensures |r| == if k in Keys(es) then |es| else |es| + 1
    ensures forall i :: 0 <= i < |es| ==> r[i].key == es[i].key
    ensures forall k' :: TotalFor(r, k') == TotalFor(es, k') + (if k' == k then amount else 0)
    ensures forall k' :: CountFor(r, k') == CountFor(es, k') + (if k' == k then 1 else 0)
    ensures SumBy(r, TotalOf) == SumBy(es, TotalOf) + amount
    ensures SumBy(r, CountOf) == SumBy(es, CountOf) + 1
  {
    if |es| == 0 then
      Cons(Entry(k, amount, 1), []);
      [Entry(k, amount, 1)] + []
    else
      assert es == [es[0]] + es[1..];
      Cons(es[0], es[1..]);
      if es[0].key == k then
        var e := Entry(k, es[0].total + amount, es[0].count + 1);
        Cons(e, es[1..]);
        [e] + es[1..]
      else
        var rest := Add(es[1..], k, amount);
        Cons(es[0], rest);
        [es[0]] + rest
  }

  /** `(key, amount)` pairs in the order they are added. */
  type Item<K> = (K, int)

  /** The keys of the items. */
  function ItemKeys<K(==)>(items: seq<Item<K>>): set<K> {
    if |items| == 0 then {} else ItemKeys(items[..|items| - 1]) + {items[|items| - 1].0}
  }

  /** The sum of the amounts of the items whose key is `k`. */
  function AmountFor<K(==)>(items: seq<Item<K>>, k: K): int {
    if |items| == 0 then 0
    else AmountFor(items[..|items| - 1], k) + (if items[|items| - 1].0 == k then items[|items| - 1].1 else 0)
  }

  function ItemAmount<K>(item: Item<K>): int { item.1 }

  /** Adds every item in turn (`items.forEach(...)`). */
  function AddAll<K(==,!new)>(es: seq<Entry<K>>, items: seq<Item<K>>): (r: seq<Entry<K>>)
    requires DistinctKeys(es)
    ensures DistinctKeys(r)
    ensures Keys(r) == Keys(es) + ItemKeys(items)
    ensures |r| >= |es|
    ensures ItemKeys(items) <= Keys(es) ==> |r| == |es|
    ensures forall i :: 0 <= i < |es| ==> r[i].key == es[i].key
    ensures forall k :: TotalFor(r, k) == TotalFor(es, k) + AmountFor(items, k)
    ensures SumBy(r, TotalOf) == SumBy(es, TotalOf) + SumBy(items, ItemAmount)
    ensures SumBy(r, CountOf) == SumBy(es, CountOf) + |items|
    decreases |items|
  {
    if |items| == 0 then es
    else
      var last := items[|items| - 1];
      Add(AddAll(es, items[..|items| - 1]), last.0, last.1)
  }

  /** Buckets for `keys`, all starting at zero (`byDate.set(d, 0)`). */
  function Seed<K>(keys: seq<K>): (r: seq<Entry<K>>)
    ensures |r| == |keys|
    ensures forall i :: 0 <= i < |r| ==> r[i] == Entry(keys[i], 0, 0)
  {
    seq(|keys|, i requires 0 <= i < |keys| => Entry(keys[i], 0, 0))
  }

  lemma {:induction false} SeedTotals<K>(keys: seq<K>)
    ensures SumBy(Seed(keys), TotalOf) == 0
    ensures SumBy(Seed(keys), CountOf) == 0
    ensures forall k :: TotalFor(Seed(keys), k) == 0
    decreases |keys|
  {
    var s := Seed(keys);
    if |keys| > 0 {
      SeedTotals(keys[..|keys| - 1]);
      assert s[..|s| - 1] == Seed(keys[..|keys| - 1]);
      ZeroTotals(s);
    }
  }

  /** Seeding with keys that are pairwise distinct gives one bucket per key. */
  lemma {:induction false} SeedKeys<K>(keys: seq<K>)
    requires forall i, j :: 0 <= i < j < |keys| ==> keys[i] != keys[j]
    ensures Keys(Seed(keys)) == set x | x in keys
    ensures DistinctKeys(Seed(keys))
    decreases |keys|
  {
    if |keys| > 0 {
      SeedKeys(keys[1..]);
      assert Seed(keys)[1..] == Seed(keys[1..]);
      assert keys == [keys[0]] + keys[1..];
    }
  }

  /** Distinct keys, stated pairwise by position. */
  lemma {:induction false} DistinctKeysPairwise<K>(es: seq<Entry<K>>)
    requires DistinctKeys(es)
    ensures forall i, j :: 0 <= i < j < |es| ==> es[i].key != es[j].key
  {
    if |es| > 0 {
      DistinctKeysPairwise(es[1..]);
      KeysContains(es[1..]);
    }
  }

  lemma {:induction false} KeysContains<K>(es: seq<Entry<K>>)
    ensures forall i :: 0 <= i < |es| ==> es[i].key in Keys(es)
  {
    if |es| > 0 {
      KeysContains(es[1..]);
    }
  }

  lemma {:induction false} ZeroTotals<K>(es: seq<Entry<K>>)
    requires forall i :: 0 <= i < |es| ==> es[i].total == 0
    ensures forall k :: TotalFor(es, k) == 0
  {
    if |es| > 0 {
      ZeroTotals(es[1..]);
    }
  }

  /** With distinct keys, the total for a bucket's key is that bucket's
      total. */
  lemma {:induction false} DistinctTotalFor<K>(es: seq<Entry<K>>, p: nat)
    requires DistinctKeys(es) && p < |es|
    ensures TotalFor(es, es[p].key) == es[p].total
  {
    if p > 0 {
      KeysContains(es[1..]);
      assert es[p].key == es[1..][p - 1].key;
      DistinctTotalFor(es[1..], p - 1);
    }
  }
}

=== FILE: tasks.dfy ===
/** The task list for today and task creation (src/app/api/tasks/route.ts).
    GET lists the user's open tasks, then the tasks completed since UTC
    midnight, each group by display position; POST validates the name and
    the linked identity and appends the task after every position the user
    has used. The store is the task table in insertion order. */
module Tasks {
  import opened Wrappers
  import opened Numbers
  import opened Sorting
  import opened Calendar
  import opened Records
  import opened Encoding

  datatype Task = Task(id: string, userId: string, name: string, emoji: string, order: int,
                       completed: bool, completedAt: Option<int>, identityId: Option<string>,
                       dueDate: Option<int>)

  function OrderOf(t: Task): int { t.order }

  /** The user's open tasks. */
  function Open(user: string): Task -> bool {
    (t: Task) => t.userId == user && !t.completed
  }

  /** The user's tasks completed at or after `since`. */
  function DoneSince(user: string, since: int): Task -> bool {
    (t: Task) => t.userId == user && t.completed && t.completedAt.Some? && t.completedAt.value >= since
  }

  /** Whether GET shows task `t` to `user` on the day of `now`. */
  predicate Shown(t: Task, user: string, now: int) {
    t.userId == user && (!t.completed || (t.completedAt.Some? && t.completedAt.value >= StartOf(DayOf(now))))
  }

  /** GET: open tasks first, then tasks completed today, each group by
      ascending display position (`orderBy: [completed, order]`). */
  function TasksGet(store: seq<Task>, user: string, now: int): (r: seq<Task>)
    ensures forall i :: 0 <= i < |r| ==> r[i] in store && Shown(r[i], user, now)
    ensures forall i :: 0 <= i < |store| && Shown(store[i], user, now) ==> store[i] in r
    ensures forall i, j :: 0 <= i < j < |r| && r[i].completed ==> r[j].completed
    ensures forall i, j :: 0 <= i < j < |r| && r[i].completed == r[j].completed ==> r[i].order <= r[j].order
    ensures multiset(r) == multiset(Filter(store, Open(user))) + multiset(Filter(store, DoneSince(user, StartOf(DayOf(now)))))
  {
    var a := Listing(store, Open(user), OrderOf);
    var b := Listing(store, DoneSince(user, StartOf(DayOf(now))), OrderOf);
    OpenThenDone(a, b);
    ShownParts(store, user, now, a, b);
    a + b
  }

  /** Open tasks by position followed by completed ones by position are in
      `[completed, order]` order. */
  lemma OpenThenDone(a: seq<Task>, b: seq<Task>)
    requires forall i :: 0 <= i < |a| ==> !a[i].completed
    requires forall i :: 0 <= i < |b| ==> b[i].completed
    requires SortedAsc(a, OrderOf) && SortedAsc(b, OrderOf)
    ensures var r := a + b;
            (forall i, j :: 0 <= i < j < |r| && r[i].completed ==> r[j].completed)
            && (forall i, j :: 0 <= i < j < |r| && r[i].completed == r[j].completed ==> r[i].order <= r[j].order)
  {
    var r := a + b;
    forall i, j | 0 <= i < j < |r| && r[i].completed == r[j].completed
      ensures r[i].order <= r[j].order
    {
      if j < |a| {
        assert r[i] == a[i] && r[j] == a[j];
      } else {
        assert r[j] == b[j - |a|];
        assert r[i] == b[i - |a|];
      }
    }
  }

  /** The two parts hold exactly the tasks GET shows. */
  lemma ShownParts(store: seq<Task>, user: string, now: int, a: seq<Task>, b: seq<Task>)
    requires a == Listing(store, Open(user), OrderOf) && b == Listing(store, DoneSince(user, StartOf(DayOf(now))), OrderOf)
    ensures forall i :: 0 <= i < |a + b| ==> (a + b)[i] in store && Shown((a + b)[i], user, now)
    ensures forall i :: 0 <= i < |store| && Shown(store[i], user, now) ==> store[i] in a + b
  {
    var r := a + b;
    forall i | 0 <= i < |r| ensures r[i] in store && Shown(r[i], user, now) {
      if i < |a| { assert r[i] == a[i]; } else { assert r[i] == b[i - |a|]; }
    }
    forall i | 0 <= i < |store| && Shown(store[i], user, now) ensures store[i] in r {
      if store[i].completed {
        assert DoneSince(user, StartOf(DayOf(now)))(store[i]);
      } else {
        assert Open(user)(store[i]);
      }
    }
  }

  /** The body of POST; `dueDate` is `None` when falsy, otherwise the
      instant it names. */
  datatype TaskInput = TaskInput(name: TextField, emoji: TextField, identityId: TextField, dueDate: Option<int>)

  /** The default emoji the route evidently means: the high-voltage sign. */
  const TaskEmoji: string := "⚡"

  /** The default emoji as the route spells it: the UTF-8 bytes of the
      high-voltage sign read back as Windows-1252 text. */
  const TaskEmojiAsWritten: string := "âš¡"

  /** Creation with a given default emoji. */
  function Create(store: seq<Task>, identities: seq<Identity>, user: string, input: TaskInput,
                  freshId: string, defaultEmoji: string): (r: Result<(seq<Task>, Task)>)
    ensures r.Err? <==> !Truthy(input.name) || (Truthy(input.identityId) && !OwnsIdentity(identities, user, input.identityId.value))
    ensures !Truthy(input.name) ==> r.Err? && r.error.status == 400
    ensures Truthy(input.name) && r.Err? ==> r.error.status == 404
    ensures r.Ok? ==> r.value.0 == store + [r.value.1]
    ensures r.Ok? ==> var t := r.value.1;
              t.id == freshId && t.userId == user && t.name == input.name.value
              && !t.completed && t.completedAt.None?
              && t.emoji == OrDefault(input.emoji, defaultEmoji)
              && t.identityId == OrNull(input.identityId) && t.dueDate == input.dueDate
    ensures r.Ok? ==> forall i :: 0 <= i < |store| && store[i].userId == user ==> store[i].order < r.value.1.order
    ensures r.Ok? && (forall i :: 0 <= i < |store| ==> store[i].userId != user) ==> r.value.1.order == 0
    ensures r.Ok? && (exists i :: 0 <= i < |store| && store[i].userId == user) ==>
              exists i :: 0 <= i < |store| && store[i].userId == user && r.value.1.order == store[i].order + 1
  {
    if !Truthy(input.name) then Err(HttpError(400, "Name is required"))
    else if Truthy(input.identityId) && !OwnsIdentity(identities, user, input.identityId.value) then
      Err(HttpError(404, "Identity not found"))
    else
      var t := Task(freshId, user, input.name.value, OrDefault(input.emoji, defaultEmoji),
                    NextOrder(UserOrders(store, user)), false, None, OrNull(input.identityId), input.dueDate);
      Ok((store + [t], t))
  }

  /** POST as the route is written, with the misspelt default emoji. */
  function TasksPostAsWritten(store: seq<Task>, identities: seq<Identity>, user: string, input: TaskInput,
                              freshId: string): (r: Result<(seq<Task>, Task)>)
    ensures r.Ok? && !Truthy(input.emoji) ==> r.value.1.emoji == TaskEmojiAsWritten && |r.value.1.emoji| == 3
    ensures r.Ok? <==> Create(store, identities, user, input, freshId, TaskEmoji).Ok?
  {
    Create(store, identities, user, input, freshId, TaskEmojiAsWritten)
  }

  /** POST: 400 without a name, 404 for an identity the user does not own,
      otherwise a new open task placed after all of the user's tasks. */
  function TasksPost(store: seq<Task>, identities: seq<Identity>, user: string, input: TaskInput,
                     freshId: string): (r: Result<(seq<Task>, Task)>)
    ensures r.Err? <==> !Truthy(input.name) || (Truthy(input.identityId) && !OwnsIdentity(identities, user, input.identityId.value))
    ensures r.Ok? && !Truthy(input.emoji) ==> r.value.1.emoji == TaskEmoji && |r.value.1.emoji| == 1
    ensures r.Ok? && Truthy(input.emoji) ==> r.value.1.emoji == input.emoji.value
    ensures r.Ok? ==> r.value.0 == store + [r.value.1] && !r.value.1.completed && r.value.1.userId == user
    ensures r.Ok? ==> forall i :: 0 <= i < |store| && store[i].userId == user ==> store[i].order < r.value.1.order
    ensures r.Ok? && (forall i :: 0 <= i < |store| ==> store[i].userId != user) ==> r.value.1.order == 0
    ensures r.Ok? && (exists i :: 0 <= i < |store| && store[i].userId == user) ==>
              exists i :: 0 <= i < |store| && store[i].userId == user && r.value.1.order == store[i].order + 1
  {
    Create(store, identities, user, input, freshId, TaskEmoji)
  }

  /** The display positions of every task of the user. */
  function UserOrders(store: seq<Task>, user: string): (orders: seq<int>)
    ensures forall i :: 0 <= i < |store| && store[i].userId == user ==> store[i].order in orders
    ensures forall k :: 0 <= k < |orders| ==> exists i :: 0 <= i < |store| && store[i].userId == user && store[i].order == orders[k]
    ensures (forall i :: 0 <= i < |store| ==> store[i].userId != user) ==> orders == []
  {
    if |store| == 0 then []
    else
      var prev := UserOrders(store[..|store| - 1], user);
      var last := store[|store| - 1];
      assert forall i :: 0 <= i < |store| - 1 ==> store[..|store| - 1][i] == store[i];
      if last.userId == user then prev + [last.order] else prev
  }

  /** The as-written default is the corrected one encoded as UTF-8 and
      decoded as Windows-1252: three characters where one was meant. */
  lemma DefaultEmojiMisdecoded()
    ensures Utf8('⚡') == [0xE2, 0x9A, 0xA1]
    ensures TaskEmojiAsWritten == Misdecoded('⚡') && |TaskEmojiAsWritten| == 3
    ensures TaskEmoji == ['⚡'] && TaskEmojiAsWritten != TaskEmoji
  {
    assert Utf8('⚡') == [0xE2, 0x9A, 0xA1];
    assert Windows1252(0x9A) == 'š';
  }

  /** The model's POST fills in the single-character default. */
  lemma DefaultEmojiIsLightning(store: seq<Task>, identities: seq<Identity>, user: string, name: string, freshId: string)
    requires name != ""
    ensures var r := TasksPost(store, identities, user, TaskInput(Some(name), None, None, None), freshId);
            r.Ok? && r.value.1.emoji == "⚡"
  {
  }

  /** A new task shows up as the last of the creator's open tasks; the
      tasks completed today follow unchanged. */
  lemma PostThenGet(store: seq<Task>, identities: seq<Identity>, user: string, input: TaskInput,
                    freshId: string, now: int)
    requires TasksPost(store, identities, user, input, freshId).Ok?
    ensures var (next, t) := TasksPost(store, identities, user, input, freshId).value;
            var before := Listing(store, Open(user), OrderOf);
            var r := TasksGet(next, user, now);
            |r| > |before| && r[|before|] == t
            && multiset(r[..|before|]) == multiset(before)
            && r[|before| + 1..] == Listing(store, DoneSince(user, StartOf(DayOf(now))), OrderOf)
  {
    var (next, t) := TasksPost(store, identities, user, input, freshId).value;
    GetAfterAppend(store, t, user, now);
  }

  lemma GetAfterAppend(store: seq<Task>, t: Task, user: string, now: int)
    requires t.userId == user && !t.completed
    requires forall i :: 0 <= i < |store| && store[i].userId == user ==> store[i].order < t.order
    ensures var before := Listing(store, Open(user), OrderOf);
            var r := TasksGet(store + [t], user, now);
            |r| > |before| && r[|before|] == t
            && multiset(r[..|before|]) == multiset(before)
            && r[|before| + 1..] == Listing(store, DoneSince(user, StartOf(DayOf(now))), OrderOf)
  {
    var next := store + [t];
    var before := Listing(store, Open(user), OrderOf);
    var done := DoneSince(user, StartOf(DayOf(now)));
    var after := Listing(next, Open(user), OrderOf);
    AppendGreatest(store, t, Open(user), OrderOf);
    AppendUnlisted(store, t, done, OrderOf);
    assert TasksGet(next, user, now) == after + Listing(next, done, OrderOf);
    LastThenRest(after, Listing(next, done, OrderOf), before, t);
  }

  /** Positions in a sequence that ends with `x`, followed by another. */
  lemma LastThenRest<T>(a: seq<T>, b: seq<T>, before: seq<T>, x: T)
    requires |a| == |before| + 1 && a[|a| - 1] == x && multiset(a[..|a| - 1]) == multiset(before)
    ensures var r := a + b;
            |r| > |before| && r[|before|] == x && multiset(r[..|before|]) == multiset(before)
            && r[|before| + 1..] == b
  {
    var r := a + b;
    assert r[..|before|] == a[..|a| - 1];
    assert r[|before| + 1..] == b;
  }
}

=== FILE: week.dfy ===
/** `getWeekStart` and `getDaysInWeekSoFar`, shared by the weekly score
    (src/app/api/habits/score/route.ts) and the life radar
    (src/app/api/radar/route.ts). Instants are milliseconds; the week runs
    Monday to Sunday. */
module Week {
  import opened Calendar

  /** Midnight of the Monday on or before the instant `t`: the source moves
      the date back by `getUTCDay() - 1` days, or 6 days on a Sunday, then
      clears the time of day. */
  function GetWeekStart(t: int): (ws: int)
    ensures ws % MsPerDay == 0
    ensures Weekday(DayOf(ws)) == 1
    ensures ws <= t < ws + 7 * MsPerDay
  {
    var day := Weekday(DayOf(t));
    var diff := DayOf(t) - day + (if day == 0 then -6 else 1);
    StartOf(diff)
  }

  /** A Sunday belongs to the week that started six days before. */
  lemma SundayWeekStart(t: int)
    requires Weekday(DayOf(t)) == 0
    ensures GetWeekStart(t) == StartOf(DayOf(t) - 6)
  {
  }

  /** Two instants share a week start exactly when they fall in the same
      Monday-to-Sunday week. */
  lemma SameWeekStart(t: int, u: int)
    requires GetWeekStart(t) <= u < GetWeekStart(t) + 7 * MsPerDay
    ensures GetWeekStart(u) == GetWeekStart(t)
  {
    var m := DayOf(GetWeekStart(t));
    assert DayOf(GetWeekStart(t)) == m;
    assert m <= DayOf(u) < m + 7;
    MondayOnOrBeforeUnique(DayOf(u), m);
  }

  /** `getDaysInWeekSoFar`: Monday is 1, ..., Saturday is 6, Sunday is 7. */
  function DaysInWeekSoFar(t: int): (n: int)
    ensures 1 <= n <= 7
    ensures n == DayOf(t) - DayOf(GetWeekStart(t)) + 1
  {
    var day := Weekday(DayOf(t));
    if day == 0 then 7 else day
  }
}

=== FILE: weekly_score.dfy ===
/** The weekly execution score (src/app/api/habits/score/route.ts): the
    completions of the user's active habits from Monday to today, against
    one possible completion per habit and elapsed day. Each habit's
    completions are the set of days on which it was completed. */
module WeeklyScore {
  import opened Wrappers
  import opened Numbers
  import opened Calendar
  import opened Week
  import opened HabitStats

  datatype ScoreReport = ScoreReport(weeklyScore: int, totalPossible: int, totalCompleted: nat,
                                     daysElapsed: int, habitCount: Option<nat>)

  /** The completions of all habits from day `a` to day `b` inclusive. */
  function CompletionsWithin(habits: seq<set<int>>, a: int, b: int): nat {
    if |habits| == 0 then 0
    else CompletionsWithin(habits[..|habits| - 1], a, b) + |CompletedWithin(habits[|habits| - 1], a, b)|
  }

  /** At most one completion per habit and day. */
  lemma {:induction false} CompletionsBound(habits: seq<set<int>>, a: int, b: int)
    requires a <= b
    ensures CompletionsWithin(habits, a, b) <= |habits| * (b - a + 1)
  {
    if |habits| > 0 {
      var last := habits[|habits| - 1];
      CompletionsBound(habits[..|habits| - 1], a, b);
      IntervalCard(CompletedWithin(last, a, b), a, b);
    }
  }

  /** Every habit completed on every day from `a` to `b` fills the bound. */
  lemma {:induction false} CompletionsFull(habits: seq<set<int>>, a: int, b: int)
    requires a <= b
    requires forall i, d :: 0 <= i < |habits| && a <= d <= b ==> d in habits[i]
    ensures CompletionsWithin(habits, a, b) == |habits| * (b - a + 1)
  {
    if |habits| > 0 {
      var last := habits[|habits| - 1];
      CompletionsFull(habits[..|habits| - 1], a, b);
      FullInterval(CompletedWithin(last, a, b), a, b);
    }
  }

  /** A set holding exactly the days `a..b` has `b - a + 1` elements. */
  lemma {:induction false} FullInterval(s: set<int>, a: int, b: int)
    requires a <= b + 1
    requires forall d :: d in s <==> a <= d <= b
    ensures |s| == b - a + 1
    decreases b - a
  {
    if a <= b {
      FullInterval(s - {b}, a, b - 1);
    } else {
      assert forall d :: d !in s;
      assert s == {};
    }
  }

  /** The score at instant `now`. */
  function Score(habits: seq<set<int>>, now: int): (r: ScoreReport)
    ensures r.daysElapsed == DaysInWeekSoFar(now)
    ensures |habits| == 0 ==> r == ScoreReport(0, 0, 0, DaysInWeekSoFar(now), None)
    ensures |habits| > 0 ==> r.habitCount == Some(|habits|)
    ensures |habits| > 0 ==> r.totalPossible == |habits| * r.daysElapsed
    ensures |habits| > 0 ==> r.totalCompleted == CompletionsWithin(habits, DayOf(GetWeekStart(now)), DayOf(now))
    ensures |habits| > 0 ==>
              2 * r.totalPossible * r.weeklyScore <= 200 * r.totalCompleted + r.totalPossible
                < 2 * r.totalPossible * (r.weeklyScore + 1)
    ensures 0 <= r.weeklyScore <= 100
  {
    var days := DaysInWeekSoFar(now);
    if |habits| == 0 then ScoreReport(0, 0, 0, days, None)
    else
      var monday := DayOf(GetWeekStart(now));
      var completed := CompletionsWithin(habits, monday, DayOf(now));
      var possible := |habits| * days;
      CompletionsBound(habits, monday, DayOf(now));
      RateWithinPercent(completed, possible);
      ScoreReport(Rate(completed, possible), possible, completed, days, Some(|habits|))
  }

  /** On a Wednesday, four habits with seven completions between them since
      Monday score 58 out of a possible 12. */
  lemma WednesdayExample(habits: seq<set<int>>, now: int)
    requires |habits| == 4 && Weekday(DayOf(now)) == 3
    requires CompletionsWithin(habits, DayOf(GetWeekStart(now)), DayOf(now)) == 7
    ensures Score(habits, now).totalPossible == 12 && Score(habits, now).weeklyScore == 58
  {
    var r := Score(habits, now);
    assert r.totalPossible == 12;
  }

  /** Completing every habit on every day of the week so far scores 100. */
  lemma PerfectWeek(habits: seq<set<int>>, now: int)
    requires |habits| > 0
    requires forall i, d :: 0 <= i < |habits| && DayOf(GetWeekStart(now)) <= d <= DayOf(now) ==> d in habits[i]
    ensures Score(habits, now).weeklyScore == 100
  {
    var monday := DayOf(GetWeekStart(now));
    CompletionsFull(habits, monday, DayOf(now));
    RateFull(|habits| * DaysInWeekSoFar(now));
  }

  /** Completions outside Monday..today, such as the previous week's, do not
      move the score. */
  lemma OnlyThisWeekCounts(habits: seq<set<int>>, others: seq<set<int>>, now: int)
    requires |others| == |habits|
    requires forall i, d :: 0 <= i < |habits| && DayOf(GetWeekStart(now)) <= d <= DayOf(now) ==>
               (d in habits[i] <==> d in others[i])
    ensures Score(habits, now) == Score(others, now)
  {
    SameWithin(habits, others, DayOf(GetWeekStart(now)), DayOf(now));
  }

  lemma {:induction false} SameWithin(habits: seq<set<int>>, others: seq<set<int>>, a: int, b: int)
    requires |others| == |habits|
    requires forall i, d :: 0 <= i < |habits| && a <= d <= b ==> (d in habits[i] <==> d in others[i])
    ensures CompletionsWithin(habits, a, b) == CompletionsWithin(others, a, b)
  {
    if |habits| > 0 {
      var n := |habits| - 1;
      SameWithin(habits[..n], others[..n], a, b);
      assert CompletedWithin(habits[n], a, b) == CompletedWithin(others[n], a, b);
    }
  }
}

=== FILE: wrappers.dfy ===
/** Option and Result datatypes used for nullable fields and for the HTTP
    error paths (400 / 404) of the route handlers. */
module Wrappers {

  /** A nullable value (`null` / `undefined` in the source). */
  datatype Option<+T> = None | Some(value: T) {

    /** The value, or `default` when absent (the source's `x ?? default`). */
    function GetOr(default: T): T {
      match this
      case Some(v) => v
      case None => default
    }
  }

  /** An HTTP error response: its status code and message. */
  datatype HttpError = HttpError(status: int, message: string)

  /** Either the successful response value or an error response. */
  datatype Result<+R> = Ok(value: R) | Err(error: HttpError)

  /** JavaScript truthiness of an optional string: `null`, `undefined`
      and `""` are falsy. */
  predicate Truthy(o: Option<string>) {
    o.Some? && o.value != ""
  }

  /** `v || null`: an empty or missing text is stored as `null`. */
  function OrNull(v: Option<string>): (r: Option<string>)
    ensures r.Some? <==> Truthy(v)
    ensures r.Some? ==> r == v
  {
    if Truthy(v) then v else None
  }
}
